=== FILE: README.md ===
# flatpak-tracker, modelled in Dafny

This project models ublue-os/flatpak-tracker, a set of scripts that:

- build an inventory of the Flatpak apps that the Universal Blue images ship;
- find apps whose runtime is behind the newest known version;
- keep one open "Update runtime for <id>" issue per outdated app;
- render changelogs from the JSON snapshot that each weekly run leaves behind;
- report apps whose donation link is missing or unreachable.

The scripts are modelled as deterministic Dafny: every network, GitHub, file and clock access becomes a parameter. The verifier proves what each step computes and the invariants the scripts keep.

Modules, one per part of the program:

- `Wrappers`, `Json`: `Option`, and parsed JSON or YAML with Python's `in` and `[]` behaviour.
- `Text`: the `str` operations the scripts use: `strip`, `split`, `'.'.join`, `replace`, `in`, `lower`, `isdigit`, `int`, `str`, the ordering of strings and `max`.
- `Seqs`: ordered collections, and a stable sort with its sortedness and stability lemmas.
- `Inventory`: `fetch_flatpak_list`, `_parse_bazaar_yaml` and `get_app_flatpaks` of check_flatpak_runtimes.py. The merged dictionary is a class, `FlatpakDict`.
- `Runtimes`: `get_runtime_from_flatpak_info`, `get_available_runtime_versions`, `compare_versions`, the per-package decision and the record that `check_runtime_updates` saves. The runner is a class, `RuntimeChecker`.
- `Issues`: issue_generator.py. The repository's issues are the class `Tracker`, which holds a sequence of (title, labels, open) issues.
- `Snapshots`: the snapshot record and the change detection shared by generate_changelog.py and backfill_using_mcp.py.
- `Changelog`: generate_changelog.py.
- `Backfill`: backfill_using_mcp.py.
- `AppTable`: the four copies of `generate_application_table`.
- `Reports`: the counting and ordering logic of backfill_changelog_with_tables.py, prepare_backfill_data.py, update_changelog_tables.py and update_changelog_final.py.
- `Donation`: check_donation_metadata.py. Its issue list is the class `DonationTracker`.

Notes on how the code behaves, which the model keeps:

- An issue matches an id when the id is a **substring** of its title, not an exact match.
- There is **no path that updates an existing issue**.
- There is a **single closing pass** over the outdated ids rather than separate closings for "untracked" and "resolved". An empty outdated list closes nothing.
- An app listed twice by one source is recorded with that source twice.

A Markdown document is modelled as the structured values it is printed from: the rows, ids, counts and sections. Markdown tables are the exception; they are modelled character for character.

## Model

| member | source | states |
|---|---|---|
| Text.StripShape | check_flatpak_runtimes.py:91-92 | `strip()` returns a contiguous slice with no whitespace at either end. It is empty only for an all-whitespace input. |
| Text.StripNoSpace | check_flatpak_runtimes.py:92 | `strip()` leaves a string without whitespace unchanged. |
| Text.ContainsIff | issue_generator.py:140 | Python's `p in s` holds exactly when `p` occurs at some index of `s`. |
| Text.JoinSplit | backfill_using_mcp.py:62-65 | Joining the pieces of `split(sep)` with `sep` gives back the original string. |
| Text.SplitPartsNoSep | check_flatpak_runtimes.py:103 | No piece of `split(sep)` contains `sep`. |
| Text.SplitCons | backfill_using_mcp.py:62-64 | Splitting `a + sep + b` with `sep` not in `a` gives `a` followed by the pieces of `b`. |
| Text.BeforeFirstIsPrefix | check_flatpak_runtimes.py:362 | `split('/')[0]` is a prefix without `/`. It is shorter than the input exactly when the input has a `/`, and then a `/` follows it. |
| Text.AfterLastIsSuffix | check_flatpak_runtimes.py:375 | `split('.')[-1]` is a suffix without the separator. It is the whole string when the separator is absent. |
| Text.ReplaceAbsent | backfill_changelog_with_tables.py:133 | `replace(pat, rep)` leaves a string that does not contain `pat` unchanged. |
| Text.ReplaceAtEnd | check_flatpak_runtimes.py:380 | If `v` occurs only as the suffix of `p + v`, then replacing every `v` with `l` gives `p + l`. |
| Text.ReplaceCharRemoves | issue_generator.py:71 | After replacing every `c` with a text that has no `c`, no `c` is left. |
| Text.Lower | issue_generator.py:61 | `lower()` keeps the length and lower-cases each character (ASCII letters). |
| Text.NatToString | backfill_using_mcp.py:64 | `str(n)` is a non-empty string of digits whose value is `n`. |
| Text.ParseIntToString | backfill_using_mcp.py:64 | `int(str(i)) == i` for every integer, including negatives. |
| Text.StrLeTotalOrder | check_flatpak_runtimes.py:370 | Python's string `<=` is a total order. |
| Text.MaxString | check_flatpak_runtimes.py:370 | `max` of a non-empty list is one of its elements and no element is greater. |
| Text.SortedSeq | generate_changelog.py:488 | `sorted(set)` has as many elements as the set. |
| Text.SortedSeqShape | generate_changelog.py:488 | `sorted(set)` is strictly increasing and has exactly the set's elements. |
| Seqs.FirstSeenShape | check_flatpak_runtimes.py:118-127 | The dictionary's keys in insertion order are distinct and are exactly the ids inserted. |
| Seqs.Filter | generate_changelog.py:392-393 | A list comprehension with a condition keeps exactly the elements that satisfy it. |
| Seqs.FilterSplit | generate_changelog.py:392-393 | The two comprehensions with a condition and with its negation together hold every element once. |
| Seqs.Reverse | backfill_using_mcp.py:174 | `reverse()` puts element `len(xs)-1-i` at position `i`. |
| Seqs.Take | update_changelog_tables.py:149 | `xs[:n]` holds the first `min(n, len(xs))` elements. |
| Seqs.Drop | generate_changelog.py:377 | `xs[:n] + xs[n:] == xs`. |
| Seqs.SortBy | backfill_changelog_with_tables.py:128 | `sorted(xs, key=...)` is a permutation of `xs`. |
| Seqs.SortBySorted | backfill_changelog_with_tables.py:128 | For a strict total order the sorted list is ordered by key. |
| Seqs.SortByStable | generate_changelog.py:300 | The sort is stable: the elements with one key keep their input order. |
| Seqs.SortBySameKey | generate_changelog.py:300 | When all keys are equal, the sort changes nothing. |
| Seqs.ElemsCard | generate_changelog.py:303-304 | A set built from a list has at most as many elements as the list, and exactly as many when the list has no duplicates. |
| Json.Lookup | check_flatpak_runtimes.py:211-220 | Python's `key in v` followed by `v[key]`. A dict answers by key. A string answers by substring and a list by element; `[]` on those raises. Any other value raises on `in`. |
| Inventory.SourceNamesDistinct | check_flatpak_runtimes.py:42-72 | The seven sources have distinct names. |
| Inventory.NormaliseLine | check_flatpak_runtimes.py:95-109 | A `full_ref` line becomes a prefix of itself, and a line without `/` stays whole. |
| Inventory.SplitNoSepIff | check_flatpak_runtimes.py:104-107 | A line has fewer than two `/`-segments exactly when it has no `/`. |
| Inventory.FirstTwoSegmentsPrefix | check_flatpak_runtimes.py:105 | `parts[0] + "/" + parts[1]` is a prefix of the line. |
| Inventory.FullRefGivesAppId | check_flatpak_runtimes.py:101-105 | A full ref `app/<name>/<arch>/<branch>` normalises to `app/<name>`. |
| Inventory.LineIds | check_flatpak_runtimes.py:91-113 | A line yields at most one id, and every id it yields starts with `app/`. |
| Inventory.LineAcceptance | check_flatpak_runtimes.py:93-113 | For a kept line, `app_prefix` keeps the stripped line if it starts with `app/`. `no_prefix` always yields `app/` plus the line. `full_ref` without `/` behaves like `app_prefix`. |
| Inventory.SkippedLines | check_flatpak_runtimes.py:93 | An empty line or a comment line yields nothing. |
| Inventory.LinesIds | check_flatpak_runtimes.py:91-113 | A list yields at most one id per line, and all of them start with `app/`. |
| Inventory.ParseList | check_flatpak_runtimes.py:91-113 | The parsing loop over `text.strip().split('\n')` computes the function `ListIds`. |
| Inventory.AppIdEntry | check_flatpak_runtimes.py:169-175 | One bazaar appid yields at most one id, and it starts with `app/`. |
| Inventory.AppIdEntryShape | check_flatpak_runtimes.py:170-174 | An appid yields an id exactly when it is a string that is not blank. The id is the stripped string, with `app/` added only when missing. |
| Inventory.AppIdsOf | check_flatpak_runtimes.py:168-175 | An `appids` list yields at most one id per entry, all starting with `app/`. |
| Inventory.SectionsIds | check_flatpak_runtimes.py:164-175 | Every id taken from the sections starts with `app/`. |
| Inventory.BazaarIds | check_flatpak_runtimes.py:162-175 | A config that is not a dict with a `sections` list yields `[]`. Every id yielded starts with `app/`. |
| Inventory.ParseSection | check_flatpak_runtimes.py:166-175 | The loop over one section's appids computes `SectionIds`. |
| Inventory.ParseBazaar | check_flatpak_runtimes.py:153-185 | The loop over the sections computes `BazaarIds`. |
| Inventory.SourceIds | check_flatpak_runtimes.py:86-113 | Every id a source yields, in any format, starts with `app/`. |
| Inventory.TagAt | check_flatpak_runtimes.py:118-121 | Tagging a source's ids gives one (id, source) occurrence per id, in order. |
| Inventory.KeysAfterKnown | check_flatpak_runtimes.py:119-121 | An id already in the dictionary leaves the key order unchanged. |
| Inventory.KeysAfterNew | check_flatpak_runtimes.py:122-127 | A new id goes to the end of the key order, and no source was recorded for it before. |
| Inventory.SourcesAfter | check_flatpak_runtimes.py:119-127 | Appending the source to its id's list keeps every list equal to the sources of that id's occurrences. |
| Inventory.MergedAddKnown | check_flatpak_runtimes.py:119-121 | Appending a source to a known id keeps the merged dictionary equal to the per-id list of occurrences. |
| Inventory.MergedAddNew | check_flatpak_runtimes.py:122-127 | Inserting a new id appends it to the key order with a one-source list, and the dictionary still matches the occurrences. |
| Inventory.MergedLookup | check_flatpak_runtimes.py:119-127 | Each key's sources are exactly the sources of its occurrences, in order. |
| Inventory.FlatpakDict.constructor | check_flatpak_runtimes.py:75 | The dictionary starts empty. |
| Inventory.FlatpakDict.Add | check_flatpak_runtimes.py:119-127 | A known id gets the source appended and the key order is kept. A new id is appended with `[source]`. |
| Inventory.FlatpakDict.AddAll | check_flatpak_runtimes.py:118-127 | Adding a source's list records one occurrence per id, in order. |
| Inventory.AppendEntry | check_flatpak_runtimes.py:119-127 | One more occurrence extends the keys only when its id is new, and it extends only its own id's sources. |
| Inventory.FetchFlatpakList | check_flatpak_runtimes.py:38-151 | Over the seven sources in order, the merged dictionary records exactly the accepted occurrences. |
| Inventory.MergeSources | check_flatpak_runtimes.py:77-136 | The loop over any list of sources records exactly their accepted occurrences. A source that fails contributes none. |
| Inventory.TotalSourcesIsOccurrences | check_flatpak_runtimes.py:139 | The sum of `len(sources)` over the keys equals the number of accepted occurrences. |
| Inventory.SourcesForCount | check_flatpak_runtimes.py:118-121 | An id's source list is as long as the number of times the id was accepted. A duplicate inside one source counts twice. |
| Inventory.EntriesOfMember | check_flatpak_runtimes.py:77-136 | An occurrence is recorded exactly when some source yields it. |
| Inventory.SourceEntriesMember | check_flatpak_runtimes.py:80-113 | A recorded occurrence comes from a source that was fetched and whose text yields that id. |
| Inventory.KeyFromAcceptedSource | check_flatpak_runtimes.py:118-127 | Every key was accepted from some fetched source. |
| Inventory.FetchedSourceRecorded | check_flatpak_runtimes.py:118-127 | Every id accepted from a fetched source is recorded with that source's name. |
| Inventory.KeysAreAcceptedIds | check_flatpak_runtimes.py:118-127 | The key set is exactly the union of accepted ids over the fetched sources. |
| Inventory.InventoryKeys | check_flatpak_runtimes.py:38-151 | The same statement for the seven sources of `fetch_flatpak_list`. |
| Inventory.FailedSourceContributesNothing | check_flatpak_runtimes.py:129-136 | A source whose fetch fails puts its name on no occurrence, and the later sources are still read. |
| Inventory.FailedDownloadContributesNothing | check_flatpak_runtimes.py:129-136 | The same statement for the seven sources. |
| Inventory.KeysAreApps | check_flatpak_runtimes.py:111-113 | Every key starts with `app/`. |
| Inventory.AppKeys | check_flatpak_runtimes.py:187-189 | `get_app_flatpaks` keeps exactly the keys that start with `app/`. |
| Inventory.AppFilterKeepsAll | check_flatpak_runtimes.py:187-189 | On the merged inventory, `get_app_flatpaks` keeps every key in order. |
| Runtimes.GetRuntime | check_flatpak_runtimes.py:207-225 | `bundle.runtime` wins when present. Without a `bundle` key, `metadata.runtime` is used. Any result is one of the two. |
| Runtimes.KnownRuntimesAreFixed | check_flatpak_runtimes.py:236-246 | GNOME, Freedesktop and KDE answer `48`, `24.08` and `6.9`. Any other runtime is asked of the fallbacks. |
| Runtimes.DigitParts | check_flatpak_runtimes.py:290-291 | Keeping only the all-digit components never adds any. |
| Runtimes.PadTo | check_flatpak_runtimes.py:294-296 | Padding extends with zeros to the longer length and keeps the existing parts. |
| Runtimes.ListLessIff | check_flatpak_runtimes.py:298 | List `<` of equal-length lists holds exactly when they first differ at an index where the left is smaller. |
| Runtimes.ListLessTransitive | check_flatpak_runtimes.py:298 | List `<` is transitive. |
| Runtimes.CompareVersionsIrreflexive | check_flatpak_runtimes.py:285-298 | A version is never outdated relative to itself. |
| Runtimes.CompareVersionsAsymmetric | check_flatpak_runtimes.py:285-298 | Two versions are never each outdated relative to the other. |
| Runtimes.CompareVersionsIff | check_flatpak_runtimes.py:290-298 | `compare_versions` holds exactly when the zero-padded numeric parts first differ with the current one smaller. |
| Runtimes.CompareSingle | check_flatpak_runtimes.py:290-298 | For one-number versions, it compares their values. |
| Runtimes.ComparePair | check_flatpak_runtimes.py:290-298 | For `a.b` against `c.d`, it compares the pairs lexicographically. |
| Runtimes.CompareVersionsMajor | check_flatpak_runtimes.py:290-298 | `46` is older than `48`. |
| Runtimes.CompareVersionsNumeric | check_flatpak_runtimes.py:290-298 | `6.9` is older than `6.10`: parts are compared as numbers, not text. |
| Runtimes.CompareVersionsFreedesktopFixture | check_flatpak_runtimes.py:290-298 | `22.08` is older than `24.08`. |
| Runtimes.CompareVersionsKdeFixture | check_flatpak_runtimes.py:290-298 | `6.6` is older than `6.8`. |
| Runtimes.CompareVersionsLeadingZero | check_flatpak_runtimes.py:290-298 | `24.08` and `24.8` are equal versions. |
| Runtimes.TrailingZero | check_flatpak_runtimes.py:294-296 | A version and the same version with `.0` appended are equal. |
| Runtimes.RefParts | check_flatpak_runtimes.py:362-375 | For `family/arch/version`, the runtime name is `family` and the current version is `version`. |
| Runtimes.BumpRef | check_flatpak_runtimes.py:380 | If the version does not occur in `family/arch`, replacing it gives `family/arch/<latest>`. |
| Runtimes.Decide | check_flatpak_runtimes.py:342-393 | An outdated decision carries the package's id and sources and its runtime as found. The latest version is the string maximum of the candidate versions, is non-empty and compares newer. The target ref is the replace-all. The script crashes exactly when the runtime is truthy but not a string. A missing or falsy record or runtime is skipped. For a truthy string runtime, no candidate versions or an empty maximum is skipped; otherwise the package is outdated exactly when its version compares older than the maximum, and up to date exactly when it does not. |
| Runtimes.AtLatestNotStale | check_flatpak_runtimes.py:370-378 | A package whose runtime already has the newest version is not reported. |
| Runtimes.StaleRefBumped | check_flatpak_runtimes.py:362-380 | For a `family/arch/version` ref, the versions come from `family` and the target is `family/arch/<latest>`. |
| Runtimes.OutdatedIds | check_flatpak_runtimes.py:384 | The ids of the outdated entries, one per entry, in order. |
| Runtimes.CrashIsFinal | check_flatpak_runtimes.py:338-393 | Once a package has crashed the loop, the whole run has crashed. |
| Runtimes.OutcomesShape | check_flatpak_runtimes.py:338-393 | Every outdated entry is a checked id with its recorded sources and an older version. There are no more entries than ids. The ids are distinct when the checked ids are. The entries are exactly one per id whose decision is outdated, in the order of the ids, each the package that decision names. |
| Runtimes.OutcomesByFound | check_flatpak_runtimes.py:338-393 | A run that does not crash reports the packages of the outdated decisions, id by id, in order, and nothing else. |
| Runtimes.OutcomesByExact | check_flatpak_runtimes.py:338-393 | A run that does not crash reports as many packages as there are outdated ids, the k-th being the package of the k-th outdated id. |
| Runtimes.OutcomesCrash | check_flatpak_runtimes.py:338-393 | The run crashes exactly when some package's decision crashes. |
| Runtimes.CheckApps | check_flatpak_runtimes.py:338-393 | The loop over the app ids computes `Outcomes`. Each id is decided with its merged sources, and the first crash ends the run. |
| Runtimes.ReportShape | check_flatpak_runtimes.py:303-398 | The saved record has `outdated_count = len(outdated_packages)`. `total_checked` is the number of tracked apps. `all_tracked_packages` is the app keys in order. The outdated ids are distinct tracked `app/` ids. The outdated packages are exactly those the per-package decision reports, in the order of the tracked apps. |
| Runtimes.RuntimeChecker.constructor | check_flatpak_runtimes.py:34-36 | A new checker has counted nothing. |
| Runtimes.RuntimeChecker.CheckRuntimeUpdates | check_flatpak_runtimes.py:325-398 | Sets `_total_checked` to the number of apps and returns the record, or `None` when the loop crashes. |
| Issues.NonSpaceRun | issue_generator.py:42 | `[^\s]+` takes the longest run of non-whitespace characters. |
| Issues.MatchGroup | issue_generator.py:42-44 | A match's group starts with `app/`, is longer than 4, has no whitespace, and its title occurs in the searched text. |
| Issues.SearchFromShape | issue_generator.py:42-45 | The search succeeds exactly when the pattern occurs, and the group it returns is well formed. |
| Issues.ExtractIdShape | issue_generator.py:40-45 | `None` exactly when no `Update runtime for app/` is followed by a non-whitespace character. Otherwise the result is a well-formed id whose title occurs in the input. |
| Issues.TitleRoundTrip | issue_generator.py:40-45 | For an id starting with `app/`, longer than 4 and without whitespace, extracting from `Update runtime for <id>` returns the id. |
| Issues.LabelsShape | issue_generator.py:47-74 | The labels start with `runtime-update`, `automated` and the sources. Family and target labels are added only for a ref with `/`. The family label follows the gnome, freedesktop, kde precedence on the lower-cased family. `target-<version with . as ->` is added only for a non-empty latest version, and then it is the last label. |
| Issues.CloseOne | issue_generator.py:181-209 | An issue is closed exactly when it is an open runtime-update issue, it has an extracted id that is not outdated, and the close succeeds. An issue that is not resolved is unchanged. A resolved issue whose edit fails stays open with one more comment. |
| Issues.CloseAll | issue_generator.py:177-209 | Position by position, the same rule holds over all issues. Titles and labels never change. |
| Issues.Tracker.constructor | issue_generator.py:35-38 | The tracker starts with the repository's issues. |
| Issues.Tracker.IssueExists | issue_generator.py:135-146 | True exactly when some open runtime-update title contains the id, or the lookup fails. |
| Issues.Tracker.CreateIssue | issue_generator.py:148-171 | Adds one open issue `Update runtime for <id>` with the package's labels exactly when no issue exists and creation succeeds. Returns whether it did. |
| Issues.Tracker.CloseResolvedIssues | issue_generator.py:173-214 | Closes as `CloseAll` does. A failed listing changes nothing. |
| Issues.Tracker.Run | issue_generator.py:266-284 | Closes, then creates for each package. An empty list does nothing. Returns the number created. |
| Issues.NewIssueFound | issue_generator.py:135-154 | A created issue is found by the next `issue_exists` for the same id. |
| Issues.CreateTwiceAtMostOnce | issue_generator.py:148-171 | Creating twice for one package adds at most one issue. |
| Issues.CreateAllAppends | issue_generator.py:281-284 | The creation loop keeps the existing issues as a prefix. It appends at most one issue per package, each an open new issue of some package. |
| Issues.RunShape | issue_generator.py:266-284 | A run with packages closes first, then appends new issues. With no packages it changes nothing. |
| Issues.ClosingSettles | issue_generator.py:181-209 | After successful closes, no open issue has an extracted id outside the outdated list. |
| Issues.SettledClosesNothing | issue_generator.py:181-209 | Once settled, a closing pass changes nothing. |
| Issues.CreatingKeepsSettled | issue_generator.py:148-171 | Creating issues for well-formed outdated ids keeps the issues settled. |
| Issues.CreatingCovers | issue_generator.py:148-171 | With no failures, every outdated package ends with an open issue containing its id. |
| Issues.CoveredCreatesNothing | issue_generator.py:153-154 | When every package already has an open issue, the creation loop adds nothing. |
| Issues.RunIdempotent | issue_generator.py:173-284 | After a failure-free run, an identical second run closes nothing and creates nothing. |
| Snapshots.SnapshotOf | generate_changelog.py:167-178 | A snapshot's outdated set is the outdated ids and its tracked set the tracked list. The two counts are copied. |
| Snapshots.SnapshotOfReport | check_flatpak_runtimes.py:306-313 | A snapshot of the record saved by the runtime checker has outdated within tracked, `outdated_count = len(outdated)` and `total_checked = len(tracked)`. |
| Snapshots.OldestFirst | generate_changelog.py:183 | Sorting by run date is a permutation, ordered oldest first. |
| Snapshots.ChangesShape | generate_changelog.py:188-200 | `updated` is within the old outdated set and disjoint from the new one. Together with the new outdated set it covers the old one. `added` and `removed` are disjoint. Removing `removed` from the old tracked set and adding `added` gives the new tracked set, and the reverse also holds. |
| Snapshots.NoChangesIff | backfill_using_mcp.py:98-104 | There is no change exactly when the old outdated set is within the new one and the tracked sets are equal. |
| Snapshots.GuardedRate | backfill_using_mcp.py:132-135 | The rate is 0 exactly when the total is not positive. Otherwise it is up-to-date over total. |
| Changelog.PendingOf | generate_changelog.py:208-218 | One package per record entry, in order, with `monthly_downloads` at its default 0. |
| Changelog.PendingIds | generate_changelog.py:304 | The ids of the packages, in order. |
| Changelog.GroupByRuntime | generate_changelog.py:270-290 | The grouping loop computes `Grouped`. |
| Changelog.GroupByCover | generate_changelog.py:279-288 | The four groups together hold every package once. |
| Changelog.GroupByMembers | generate_changelog.py:279-288 | A group holds exactly the packages of its family. |
| Changelog.GroupsPartition | generate_changelog.py:270-290 | GNOME, KDE, Freedesktop and Other partition the packages by family, with precedence gnome, kde, freedesktop. |
| Changelog.IdentifyPopular | generate_changelog.py:292-306 | The loop computes the union over the non-Other groups of their top-N ids by downloads. |
| Changelog.TopIdsBound | generate_changelog.py:303-304 | One group contributes at most `top_n` ids. |
| Changelog.UnionTopBound | generate_changelog.py:296-304 | The union over k groups has at most `k * top_n` ids. |
| Changelog.PopularShape | generate_changelog.py:292-306 | At most `3 * top_n` popular ids, exactly the top ids of GNOME, KDE and Freedesktop. |
| Changelog.TopIdsWithoutDownloads | generate_changelog.py:300-303 | With equal downloads, the stable sort keeps input order, so the top N are the first N. |
| Changelog.ProgressShape | generate_changelog.py:335-342 | Each progress line is a GNOME, KDE or Freedesktop group with packages, counting the group and targeting its first package's latest version. Every such group has a line. The lines come in GNOME, KDE, Freedesktop order. |
| Changelog.DashboardOf | generate_changelog.py:313-315 | Total is `len(all_tracked)`, need-updates is `len(packages)`, and up-to-date plus need-updates equals the total. The rate is 0 exactly when nothing is tracked, and otherwise the ratio of up-to-date to total. The progress lines are those of the groups. |
| Changelog.RecentlyClosed | generate_changelog.py:246-268 | The closed issues since the cut-off with a runtime-update title, or nothing when listing fails. |
| Changelog.ClosedIdRoundTrip | generate_changelog.py:256-257 | Removing `Update runtime for ` from the title of an id gives the id back. |
| Changelog.RecentRoundTrip | generate_changelog.py:253-263 | A recently closed issue for an app id is listed with that id, its number and its close time. |
| Changelog.WeekSectionOf | generate_changelog.py:369-409 | The first 15 recent items are shown and the rest go in the collapsed block. The first 10 popular packages are shown and the rest are collapsed. |
| Changelog.WeekSplit | generate_changelog.py:392-393 | Popular and standard packages partition the outdated list, each by membership in the popular set. |
| Changelog.LoadedRuns | generate_changelog.py:160-179 | There is one snapshot per run whose artifact downloads, in run order. Each is made from that run's id, date and record. Runs without an artifact give none. |
| Changelog.BuildHistoricalSnapshots | generate_changelog.py:153-186 | The loop over runs gives the downloaded snapshots sorted oldest first. |
| Changelog.HistoricalSections | generate_changelog.py:456-516 | The loop over consecutive pairs computes `History`. |
| Changelog.PairSectionsListed | generate_changelog.py:470-508 | A pair gives one section exactly when something changed, dated by the newer run, with sorted ids. |
| Changelog.HistoryShape | generate_changelog.py:456-516 | No sections for fewer than two snapshots, otherwise at most one per consecutive pair. Every section lists sorted ids. |
| Changelog.HistoryNewestFirst | generate_changelog.py:511 | For snapshots sorted oldest first, the sections come newest first. |
| Changelog.ChangedPairsShape | generate_changelog.py:465-474 | The changed pairs are listed in strictly increasing order. A consecutive pair is listed exactly when something changed between its two snapshots. |
| Changelog.HistoryExact | generate_changelog.py:456-511 | There is one section per changed consecutive pair and no other. The section of the newest changed pair comes first. |
| Changelog.SectionOfShape | generate_changelog.py:486-505 | A section lists the updated, added and removed ids, and is non-empty exactly when something changed. |
| Changelog.GenerateChangelog | generate_changelog.py:518-554 | Nothing is written when there are neither packages nor tracked apps. The dashboard is that of the record's packages, tracked ids and groups. The week section splits the packages by the groups' top 10. The history is that of the snapshots under backfill, and empty otherwise. |
| Backfill.IntToStringNoUnderscore | backfill_using_mcp.py:62 | A run id's decimal text has no `_`. |
| Backfill.ArtifactNameRoundTrip | backfill_using_mcp.py:60-70 | `<run_id>_<date>` parses back to that run id. The date is parsed, or is now when it does not parse. |
| Backfill.ArtifactNameWithoutUnderscore | backfill_using_mcp.py:71-73 | A stem without `_` gets run id 0 and the current time. |
| Backfill.ArtifactNameFails | backfill_using_mcp.py:62-64 | Parsing raises exactly when the stem has `_` and its first part is not an integer. |
| Backfill.Stem | backfill_using_mcp.py:53-61 | A `*.json` name longer than `.json` is its stem plus `.json`; the bare `.json` is its own stem. |
| Backfill.JsonNames | backfill_using_mcp.py:53 | The names visited are the directory's `*.json` files. |
| Backfill.BuildSnapshots | backfill_using_mcp.py:43-91 | The loop over the sorted files computes `Artifacts`. |
| Backfill.LoadAllFails | backfill_using_mcp.py:62-64 | One readable file with a bad run id makes the whole load raise. |
| Backfill.LoadNameShape | backfill_using_mcp.py:55-86 | A listed file raises exactly when it is readable and its run id does not parse. An unreadable file adds nothing. Otherwise the file adds its one snapshot. |
| Backfill.LoadAllCrashes | backfill_using_mcp.py:53-87 | The load raises exactly when some listed file raises. |
| Backfill.LoadAllCount | backfill_using_mcp.py:53-87 | A load that does not raise holds one snapshot per readable file. |
| Backfill.LoadAllShape | backfill_using_mcp.py:53-87 | The load raises exactly when some readable file's name fails to parse. Otherwise there is one snapshot per readable file. |
| Backfill.LoadAllMembers | backfill_using_mcp.py:56-86 | Every readable file's snapshot is loaded, and every loaded snapshot comes from a readable file. |
| Backfill.ArtifactsShape | backfill_using_mcp.py:43-91 | A missing directory gives no snapshots. The result is sorted oldest first and has one snapshot per readable file. It raises exactly on a bad run id. |
| Backfill.ArtifactsMembers | backfill_using_mcp.py:53-90 | The sorted snapshots are exactly those of the readable `*.json` files. |
| Backfill.PairsReversed | backfill_using_mcp.py:118-174 | Reversed, the list of consecutive-pair results holds at position k the result for the k-th newest pair. |
| Backfill.HistoricalSections | backfill_using_mcp.py:109-179 | The loop over consecutive pairs computes `Sections`. |
| Backfill.SectionForShape | backfill_using_mcp.py:123-168 | The id lists are sorted and are exactly the updated, added and removed ids. The no-changes note appears exactly when nothing changed. The section is dated by the newer run. Its rate is 0 exactly when the newer tracked set is empty. |
| Backfill.SectionsShape | backfill_using_mcp.py:109-179 | No sections for fewer than two snapshots. Otherwise exactly `n-1`, with section k describing the k-th newest pair. |
| Backfill.SectionsNewestFirst | backfill_using_mcp.py:174 | For snapshots sorted oldest first, the sections come newest first. |
| Backfill.GenerateChangelogShape | backfill_using_mcp.py:192-212 | Exit 1 exactly for fewer than two snapshots. The overview is the latest snapshot's counts, summing to the total, with a zero rate exactly for an empty total. There are `n-1` history sections. |
| AppTable.HeaderLines | backfill_changelog_with_tables.py:124-125 | Each header line is a single line, and the table starts with a pipe character. |
| AppTable.LinesAppend | backfill_changelog_with_tables.py:130-159 | One more package adds exactly its row line. |
| AppTable.RenderTable | backfill_changelog_with_tables.py:119-162 | The loop computes `Table`: the empty message, or header, one row per package by id, then `\n`. |
| AppTable.RowsOfNone | backfill_changelog_with_tables.py:130-142 | The rows fail exactly when some package's row fails. |
| AppTable.RowsOfSome | backfill_changelog_with_tables.py:130-159 | Otherwise there is one row per package, in order. |
| AppTable.RowOfNone | backfill_changelog_with_tables.py:131-142 | A row raises exactly on a missing `flatpak_id`, or on a missing runtime key where no default applies. |
| AppTable.TableFails | backfill_changelog_with_tables.py:128-142 | The table raises exactly when some package lacks the id or, in the strict copy, a runtime ref. |
| AppTable.StrLtOrder | backfill_changelog_with_tables.py:128 | Ordering by `flatpak_id` is a strict total order. |
| AppTable.TableShape | backfill_changelog_with_tables.py:124-162 | A non-empty table is the header, then the rows of the packages sorted by id as a permutation, then `\n`. |
| AppTable.TableStable | backfill_changelog_with_tables.py:128 | Packages with the same id keep their input order. |
| AppTable.CleanIdOfApp | backfill_changelog_with_tables.py:133 | `app/<rest>` without a further `app/` cleans to `<rest>`. |
| AppTable.RowShape | backfill_changelog_with_tables.py:131-139 | The clean id is the id without `app/`. The link is `https://github.com/flathub/<clean_id>`. The app name is the suffix after the last `.`. |
| AppTable.DisplayShape | backfill_changelog_with_tables.py:149-157 | A ref with `/` shows as `<family> <version>`, with the family before the first `/`. Otherwise the ref shows unchanged. |
| AppTable.RowOneLine | backfill_changelog_with_tables.py:159 | When the fields have no newline, a row is exactly one line. |
| AppTable.LinesCount | backfill_changelog_with_tables.py:130-159 | The rows contribute one line per package. |
| AppTable.TableLineCount | backfill_changelog_with_tables.py:124-162 | A table of n packages has `n + 3` newlines. |
| AppTable.ApplicationTableShape | prepare_backfill_data.py:28-72 | An empty list gives the copy's own `*...*` message and a table starts with a pipe character. Only the strict copy can fail on packages that have ids. |
| Reports.BackfillSectionShape | backfill_changelog_with_tables.py:165-221 | No artifact gives the placeholder section. A section raises exactly when a package lacks its id or a runtime ref. Otherwise it holds the run, the table, `total_checked` and the artifact's own `outdated_count`, each defaulting to 0. Up-to-date plus outdated is the total when `total > 0`. Otherwise up-to-date and the rate are 0. |
| Reports.BackfillMain | backfill_changelog_with_tables.py:224-276 | The main loop computes `BackfillChangelog`. |
| Reports.SectionsOfNone | backfill_changelog_with_tables.py:251-255 | The section loop raises exactly when some run's section raises. |
| Reports.SectionsOfSome | backfill_changelog_with_tables.py:251-255 | Otherwise there is one section per run, in order. |
| Reports.NewestFirstShape | backfill_changelog_with_tables.py:245 | Sorting with `reverse=True` is a permutation, ordered newest first, with the latest run first. |
| Reports.BackfillChangelogShape | backfill_changelog_with_tables.py:240-276 | Exit 1 exactly with no runs or a raising section. Otherwise there is one section per run, newest first, and the overview comes from the newest run's artifact, or 209/103/106 without one. |
| Reports.OverviewAddsUp | backfill_changelog_with_tables.py:258-276 | The overview's up-to-date and need-updates counts sum to the total. The rate is 0 exactly when the total is not positive. |
| Reports.PrepareSectionShape | prepare_backfill_data.py:75-127 | No artifact gives the summary-only section. Otherwise the section fails exactly when a package lacks its id, and it holds the run and the table. Need-updates is `len(outdated_packages)` and the artifact's `outdated_count` has no effect. Up-to-date is the total minus that, with no lower bound. The rate is 0 exactly when the total is not positive. |
| Reports.ExampleTableShape | update_changelog_tables.py:144-149 | When the first ten packages have ids and single-line fields, the example table renders and has `min(n, 10) + 3` lines. |
| Reports.FinalStatsShape | update_changelog_final.py:70-73 | The counts raise exactly on a missing key or a zero total. Otherwise up-to-date is `total - outdated` and the rate is up-to-date over total. |
| Reports.FinalReportShape | update_changelog_final.py:57-96 | The report fails exactly when the counts, the package list or an id is missing. |
| Donation.GetDonationUrlShape | check_donation_metadata.py:60-68 | `urls.donation` exactly when both keys can be looked up, else nothing. |
| Donation.ReachabilityShape | check_donation_metadata.py:70-79 | Reachable exactly for a status below 400, and then without error. A status of 400 or more gives `HTTP <code>`. |
| Donation.ClassifyShape | check_donation_metadata.py:87-126 | An app is skipped on a failed or empty fetch, and not reported with a reachable URL. Otherwise its report carries its id and sources. The URL is absent exactly when it was missing or falsy. |
| Donation.Checked | check_donation_metadata.py:81-129 | At most one report per app. |
| Donation.Run | check_donation_metadata.py:277-295 | The run exits with status 1 exactly when no app was loaded. Otherwise it reports the check of the loaded apps, at most one report per app. |
| Donation.CheckDonationMetadata | check_donation_metadata.py:81-129 | The loop computes `Checked`. |
| Donation.CheckedIsFilter | check_donation_metadata.py:87-126 | The reports are, in input order, the classifications of exactly the apps that are reported. |
| Donation.SummaryCounts | check_donation_metadata.py:302-303 | `missing + unreachable == total`, and `unreachable` counts the reports with a URL. |
| Donation.TitleHasMarker | check_donation_metadata.py:142-180 | Both titles contain `for <app_id>`. |
| Donation.CreateOneBlocks | check_donation_metadata.py:131-235 | Once an issue exists for an app, no later report for that app (missing or unreachable) creates another when the later listing succeeds. A later attempt whose listing fails can still create a duplicate. |
| Donation.CreateOneShape | check_donation_metadata.py:131-221 | Creation only appends, exactly when a repo exists, creation succeeds and no matching open title exists or listing failed. The new title is the chosen one. |
| Donation.DonationTracker.constructor | check_donation_metadata.py:33-43 | The tracker starts with the given repository and issue titles. |
| Donation.DonationTracker.FindExisting | check_donation_metadata.py:223-239 | Found exactly when a repo exists, listing succeeds and an open title contains `for <app_id>`. |
| Donation.DonationTracker.CreateIssue | check_donation_metadata.py:131-221 | Updates the titles as `CreateOne` does and returns whether one was added. |
| Donation.DonationTracker.CreateIssues | check_donation_metadata.py:317-326 | The loop updates the titles as `CreateAll` does and only appends. The count it returns is the number added, never more than the number of reports. |
| Donation.CreateAllCovers | check_donation_metadata.py:323-325 | With no failures, every reported app ends with a matching open issue. |
| Donation.LoadFlatpaksShape | check_donation_metadata.py:242-262 | Each distinct tracked id appears once with sources `['tracked']`. A failed load gives nothing. |

## Left out

- HTTP, GitHub and ZIP handling are left out. Workflow listings, artifact downloads, the Flathub API, HEAD requests and `flatpak remote-ls` are oracle parameters. Their failures are `None`, `[]` or a failure flag.
- YAML and JSON parsing are left out. The bazaar config and the metadata are already-parsed `Json` trees. Snapshot and artifact files are typed records.
- Files, argparse, environment variables, logging and `print` are left out. The exits that matter are `None` results: `Backfill.GenerateChangelog`, `Reports.BackfillChangelog` and `Donation.Run`. The missing-`GITHUB_TOKEN` exit, the file-exists gates of issue_generator.py and update_changelog_tables.py, and `create_mock_data.py` and `backfill_changelog.py` are not modelled.
- Issue bodies, close comments, week ranges, dates formatted with `strftime`, and the prose templates are not modelled. This includes `create_week_section_from_template`, the dashboard headings and the "How you can help" text. Sections are the structured values they are printed from.
- Dates are integers that are only compared. `datetime.strptime` is the oracle `parseDate`. Every `datetime.now()` call is one value, `now`.
- Floating-point compliance percentages and the `:.1f` format are left out. A rate is `ZeroRate` or the exact ratio `Ratio(upToDate, total)`. The fallback `49.3` of backfill_changelog_with_tables.py is `Ratio(103, 209)`.
- Reports.FinalStats: a zero `total_checked` is a `ZeroDivisionError` in update_changelog_final.py, so it is modelled as no result. It is not a number.
- `get_issue_number_for_package` and the issue links of the weekly section are not modelled, because they only add a link to a line. The issue numbers of recently closed items are kept.
- `load_outdated_packages` of issue_generator.py and generate_changelog.py is not modelled, because it is JSON decoding. The model starts from typed records, with `monthly_downloads` at its default 0.
- The `closed_count` and `created_count` logs are left out. `Issues.Tracker.Run` returns the number created.
- Reports.BackfillMain: the latest run's artifact is downloaded twice in the source. The model uses one deterministic download oracle, so both downloads agree.
- Donation.LoadFlatpaksShape: a `all_tracked_packages` value that is not a list of strings is treated as a failed load. Python would iterate a string's characters or a dict's keys.
- Donation.DonationTracker.FindExisting: the match is a substring test of `for <app_id>`, as in the source. An app id that is a prefix of another app's id therefore blocks that app too. The model keeps this and proves no exact-match property.
- Issues.CloseAll: the open issues are one listing. In the source the listing is paginated, and a page that fails midway ends the pass in the outer `except` (issue_generator.py:213) after some issues are already closed. The model does not capture that partial state.
- Issues.Tracker.IssueExists: the substring test means an id that is contained in another id's title counts as existing. Issues.RunIdempotent is proved as the code behaves, not for an exact-match design.
- AppTable.CleanIdOfApp requires a rest without `app/`, because `replace` removes every occurrence, also inside the name.
- `Lower` and `isdigit` cover ASCII only, and `strip` uses Python's whitespace set. Unicode case folding and non-ASCII digits are not modelled.
- An artifact that is an empty dict is falsy in backfill_changelog_with_tables.py and prepare_backfill_data.py. The model folds it into the missing artifact (`None`). Metadata that is an empty dict is falsy in check_donation_metadata.py, and `Json.Truthy` models that.

=== FILE: apptable.dfy ===
/**
 * `generate_application_table`, which backfill_changelog_with_tables.py,
 * prepare_backfill_data.py, update_changelog_tables.py and
 * update_changelog_final.py each define: a Markdown table of outdated
 * applications, one row per package in ascending `flatpak_id` order. The
 * four copies differ only in the message for an empty list and in what a
 * missing field becomes.
 */
module AppTable {
  import opened Wrappers
  import opened Text
  import opened Seqs

  /** One entry of `outdated_packages` as the table reads it: its string fields by name. */
  type Package = map<string, string>

  const IdKey := "flatpak_id"
  const CurrentRuntimeKey := "current_runtime"
  const LatestRuntimeKey := "latest_runtime"
  const CurrentVersionKey := "current_version"
  const LatestVersionKey := "latest_version"

  /** `pkg.get(key, default)` */
  function Get(pkg: Package, key: string, default: string): string {
    if key in pkg then pkg[key] else default
  }

  /**
   * What a missing field becomes: `runtime == None` reads the runtime refs
   * with `pkg[...]`, which raises `KeyError`; otherwise `pkg.get(..., d)`.
   */
  datatype Defaults = Defaults(runtime: Option<string>, version: string)

  /** `pkg['current_runtime']` and `pkg.get('current_version', 'N/A')` */
  const Strict := Defaults(None, "N/A")
  /** `pkg.get('current_runtime', 'Unknown')` and `pkg.get('current_version', '')` */
  const Lenient := Defaults(Some("Unknown"), "")

  function Runtime(pkg: Package, key: string, d: Defaults): Option<string> {
    if key in pkg then Some(pkg[key]) else d.runtime
  }

  // ---------------------------------------------------------------------
  // One row

  const AppPrefix := "app/"

  /** `flatpak_id.replace('app/', '')` */
  function CleanId(id: string): string {
    ReplaceAll(id, AppPrefix, "")
  }

  /** `clean_id.split('.')[-1]` */
  function AppName(id: string): string {
    AfterLast(CleanId(id), '.')
  }

  const FlathubBase := "https://github.com/flathub/"

  /** `<family> <version>` for a ref with a `/`, the ref itself otherwise. */
  function Display(runtime: string, version: string): string {
    if '/' in runtime then BeforeFirst(runtime, '/') + " " + version else runtime
  }

  datatype Row = Row(appName: string, cleanId: string, link: string, current: string, latest: string)

  /** The row of one package, or `None` for the `KeyError` of a missing required field. */
  function RowOf(pkg: Package, d: Defaults): Option<Row> {
    if IdKey !in pkg then None
    else
      var current := Runtime(pkg, CurrentRuntimeKey, d);
      var latest := Runtime(pkg, LatestRuntimeKey, d);
      if current.None? || latest.None? then None
      else
        var clean := CleanId(pkg[IdKey]);
        Some(Row(AppName(pkg[IdKey]), clean, FlathubBase + clean,
                 Display(current.value, Get(pkg, CurrentVersionKey, d.version)),
                 Display(latest.value, Get(pkg, LatestVersionKey, d.version))))
  }

  /** `f"| {app_name} | {linked_id} | {current_display} | {latest_display} |\n"` */
  function RowLine(r: Row): string {
    "| " + r.appName + " | [" + r.cleanId + "](" + r.link + ") | " + r.current + " | " + r.latest + " |\n"
  }

  // ---------------------------------------------------------------------
  // The table

  // The verifier sees the characters of short string literals only, so the
  // texts whose characters the proofs inspect are written in short pieces.
  const Titles := "| Application Name" + " | Flatpak ID" + " | Current Runtime" + " | Target Runtime |"
  const Rule := "|------------------" + "|------------" + "|-----------------" + "|----------------|"
  const Header := Titles + "\n" + Rule + "\n"

  lemma HeaderLines()
    ensures OneLine(Titles) && OneLine(Rule) && Header[0] == '|'
  {
  }

  function Id(pkg: Package): string {
    Get(pkg, IdKey, "")
  }

  predicate HasIds(pkgs: seq<Package>) {
    forall i :: 0 <= i < |pkgs| ==> IdKey in pkgs[i]
  }

  /** `sorted(outdated_packages, key=lambda x: x['flatpak_id'])` once every package has an id. */
  function ById(pkgs: seq<Package>): seq<Package> {
    SortBy(pkgs, Id, StrLt)
  }

  /** The rows of the packages in order, or `None` as soon as one of them fails. */
  function RowsOf(pkgs: seq<Package>, d: Defaults): Option<seq<Row>> {
    MapAll(pkgs, (p: Package) => RowOf(p, d))
  }

  function Lines(rows: seq<Row>): string {
    if |rows| == 0 then "" else Lines(rows[..|rows| - 1]) + RowLine(rows[|rows| - 1])
  }

  lemma LinesAppend(rows: seq<Row>, r: Row)
    ensures Lines(rows + [r]) == Lines(rows) + RowLine(r)
  {
    assert (rows + [r])[..|rows|] == rows;
  }

  /** The table text, the `empty` message for no packages, or `None` for a `KeyError`. */
  function Table(pkgs: seq<Package>, d: Defaults, empty: string): Option<string> {
    if |pkgs| == 0 then Some(empty)
    else if !HasIds(pkgs) then None
    else
      match RowsOf(ById(pkgs), d)
      case None => None
      case Some(rows) => Some(Header + Lines(rows) + "\n")
  }

  method RenderTable(pkgs: seq<Package>, d: Defaults, empty: string) returns (r: Option<string>)
    ensures r == Table(pkgs, d, empty)
  {
    if |pkgs| == 0 {
      return Some(empty);
    }
    if !HasIds(pkgs) {
      return None;
    }
    var sorted := ById(pkgs);
    // the row lines appended after the header, in sorted order
    var body := "";
    ghost var rows: seq<Row> := [];
    for i := 0 to |sorted|
      invariant RowsOf(sorted[..i], d) == Some(rows)
      invariant body == Lines(rows)
    {
      var row := RowOf(sorted[i], d);
      if row.None? {
        MapAllFails(sorted, (p: Package) => RowOf(p, d), i);
        return None;
      }
      MapAllStep(sorted, (p: Package) => RowOf(p, d), i);
      LinesAppend(rows, row.value);
      body := body + RowLine(row.value);
      rows := rows + [row.value];
    }
    assert sorted[..|sorted|] == sorted;
    r := Some(Header + body + "\n");
  }

  // ---------------------------------------------------------------------
  // Properties

  lemma RowsOfNone(pkgs: seq<Package>, d: Defaults)
    ensures RowsOf(pkgs, d).None? <==> exists i :: 0 <= i < |pkgs| && RowOf(pkgs[i], d).None?
  {
    MapAllNone(pkgs, (p: Package) => RowOf(p, d));
  }

  lemma RowsOfSome(pkgs: seq<Package>, d: Defaults)
    requires RowsOf(pkgs, d).Some?
    ensures |RowsOf(pkgs, d).value| == |pkgs|
    ensures forall i :: 0 <= i < |pkgs| ==> RowOf(pkgs[i], d) == Some(RowsOf(pkgs, d).value[i])
  {
    MapAllSome(pkgs, (p: Package) => RowOf(p, d));
  }

  /** A package fails exactly when it lacks an id, or a runtime ref that has no default. */
  lemma RowOfNone(pkg: Package, d: Defaults)
    ensures RowOf(pkg, d).None? <==>
      IdKey !in pkg || (d.runtime.None? && (CurrentRuntimeKey !in pkg || LatestRuntimeKey !in pkg))
  {
  }

  /**
   * The table is refused exactly when some package has no `flatpak_id`, or
   * lacks a runtime ref that the copy reads without a default.
   */
  lemma TableFails(pkgs: seq<Package>, d: Defaults, empty: string)
    ensures Table(pkgs, d, empty).None? <==>
      exists i :: 0 <= i < |pkgs| && (IdKey !in pkgs[i]
        || (d.runtime.None? && (CurrentRuntimeKey !in pkgs[i] || LatestRuntimeKey !in pkgs[i])))
  {
    if |pkgs| > 0 && HasIds(pkgs) {
      var sorted := ById(pkgs);
      RowsOfNone(sorted, d);
      assert forall p :: p in sorted <==> p in pkgs by {
        assert multiset(sorted) == multiset(pkgs);
        forall p ensures p in sorted <==> p in pkgs {
          assert p in sorted <==> p in multiset(sorted);
        }
      }
      if Table(pkgs, d, empty).None? {
        var i :| 0 <= i < |sorted| && RowOf(sorted[i], d).None?;
        assert sorted[i] in pkgs;
        var j :| 0 <= j < |pkgs| && pkgs[j] == sorted[i];
        RowOfNone(pkgs[j], d);
      }
      if i :| 0 <= i < |pkgs| && (IdKey !in pkgs[i] ||
             (d.runtime.None? && (CurrentRuntimeKey !in pkgs[i] || LatestRuntimeKey !in pkgs[i]))) {
        assert pkgs[i] in sorted;
        var j :| 0 <= j < |sorted| && sorted[j] == pkgs[i];
        RowOfNone(sorted[j], d);
      }
    }
  }

  lemma StrLtOrder()
    ensures StrictTotalOrder(StrLt)
  {
    forall a ensures !StrLt(a, a) {
      StrLtIrreflexive(a);
    }
    forall a, b, c | StrLt(a, b) && StrLt(b, c) ensures StrLt(a, c) {
      StrLtTransitive(a, b, c);
    }
    forall a, b ensures a == b || StrLt(a, b) || StrLt(b, a) {
      StrLtTotal(a, b);
    }
  }

  /**
   * A table of a non-empty list is the header, then the row of each package
   * in ascending id order (a stable reordering of the input), then a blank line.
   */
  lemma TableShape(pkgs: seq<Package>, d: Defaults, empty: string)
    requires |pkgs| > 0 && Table(pkgs, d, empty).Some?
    ensures multiset(ById(pkgs)) == multiset(pkgs)
    ensures SortedBy(ById(pkgs), Id, StrLt)
    ensures RowsOf(ById(pkgs), d).Some?
    ensures |RowsOf(ById(pkgs), d).value| == |pkgs|
    ensures forall i :: 0 <= i < |pkgs| ==> RowOf(ById(pkgs)[i], d) == Some(RowsOf(ById(pkgs), d).value[i])
    ensures Table(pkgs, d, empty).value == Header + Lines(RowsOf(ById(pkgs), d).value) + "\n"
  {
    StrLtOrder();
    SortBySorted(pkgs, Id, StrLt);
    RowsOfSome(ById(pkgs), d);
  }

  /** Ids that compare equal keep their input order. */
  lemma TableStable(pkgs: seq<Package>, id: string)
    ensures WithKey(ById(pkgs), Id, id) == WithKey(pkgs, Id, id)
  {
    StrLtOrder();
    SortByStable(pkgs, Id, StrLt, id);
  }

  /** The package's own id less its `app/` prefix, when nothing else in it looks like a prefix. */
  lemma CleanIdOfApp(rest: string)
    requires !Contains(rest, AppPrefix)
    ensures CleanId(AppPrefix + rest) == rest
  {
    var s := AppPrefix + rest;
    assert s[..4] == AppPrefix && s[4..] == rest;
    ReplaceAbsent(rest, AppPrefix, "");
  }

  /**
   * The row's name is the last dot-free piece of the clean id, the link
   * points at that id, and each runtime shows as family and version exactly
   * when its ref has a `/`.
   */
  lemma RowShape(pkg: Package, d: Defaults)
    requires RowOf(pkg, d).Some?
    ensures var r := RowOf(pkg, d).value;
      && r.cleanId == CleanId(pkg[IdKey])
      && r.link == FlathubBase + r.cleanId
      && '.' !in r.appName && |r.appName| <= |r.cleanId| && r.appName == r.cleanId[|r.cleanId| - |r.appName|..]
      && ('.' !in r.cleanId ==> r.appName == r.cleanId)
  {
    AfterLastIsSuffix(CleanId(pkg[IdKey]), '.');
  }

  lemma DisplayShape(runtime: string, version: string)
    ensures '/' in runtime ==> exists family :: (Display(runtime, version) == family + " " + version
      && '/' !in family && StartsWith(runtime, family) && runtime[|family|] == '/')
    ensures '/' !in runtime ==> Display(runtime, version) == runtime
  {
    if '/' in runtime {
      var family := BeforeFirst(runtime, '/');
      BeforeFirstIsPrefix(runtime, '/');
      assert Display(runtime, version) == family + " " + version;
    }
  }

  // ---------------------------------------------------------------------
  // Line structure

  predicate OneLine(s: string) {
    '\n' !in s
  }

  /** No field of any package, and no default, holds a line break. */
  predicate SingleLineFields(pkgs: seq<Package>, d: Defaults) {
    && OneLine(d.version) && (d.runtime.Some? ==> OneLine(d.runtime.value))
    && forall i, k :: 0 <= i < |pkgs| && k in pkgs[i] ==> OneLine(pkgs[i][k])
  }

  lemma {:induction false} ReplaceKeepsOut(s: string, pat: string, rep: string, c: char)
    requires c !in s && c !in rep
    ensures c !in ReplaceAll(s, pat, rep)
    decreases |s|
  {
    if |pat| == 0 {
      if |s| > 0 {
        ReplaceKeepsOut(s[1..], pat, rep, c);
      }
    } else if |s| >= |pat| {
      if s[..|pat|] == pat {
        ReplaceKeepsOut(s[|pat|..], pat, rep, c);
      } else {
        ReplaceKeepsOut(s[1..], pat, rep, c);
      }
    }
  }

  lemma CountNone(s: string, c: char)
    requires c !in s
    ensures Count(s, c) == 0
  {
    CountPositive(s, c);
  }

  /** The displayed runtime holds no line break when its ref and version hold none. */
  lemma DisplayOneLine(runtime: string, version: string)
    requires OneLine(runtime) && OneLine(version)
    ensures OneLine(Display(runtime, version))
  {
    if '/' in runtime {
      BeforeFirstIsPrefix(runtime, '/');
      assert OneLine(BeforeFirst(runtime, '/'));
    }
  }

  /** The id, app name and link hold no line break when the id holds none. */
  lemma IdFieldsOneLine(id: string)
    requires OneLine(id)
    ensures OneLine(CleanId(id)) && OneLine(AppName(id)) && OneLine(FlathubBase + CleanId(id))
  {
    ReplaceKeepsOut(id, AppPrefix, "", '\n');
    var clean := CleanId(id);
    AfterLastIsSuffix(clean, '.');
    assert AppName(id) == clean[|clean| - |AppName(id)|..];
    assert OneLine(FlathubBase);
  }

  /** The fields of a row hold no line break when the package and defaults hold none. */
  lemma RowFieldsOneLine(pkg: Package, d: Defaults)
    requires RowOf(pkg, d).Some?
    requires OneLine(d.version) && (d.runtime.Some? ==> OneLine(d.runtime.value))
    requires forall k :: k in pkg ==> OneLine(pkg[k])
    ensures var r := RowOf(pkg, d).value;
      OneLine(r.appName) && OneLine(r.cleanId) && OneLine(r.link) && OneLine(r.current) && OneLine(r.latest)
  {
    IdFieldsOneLine(pkg[IdKey]);
    DisplayOneLine(Runtime(pkg, CurrentRuntimeKey, d).value, Get(pkg, CurrentVersionKey, d.version));
    DisplayOneLine(Runtime(pkg, LatestRuntimeKey, d).value, Get(pkg, LatestVersionKey, d.version));
  }

  /** A row whose fields hold no line break renders as exactly one line. */
  lemma RowLineCount(r: Row)
    requires OneLine(r.appName) && OneLine(r.cleanId) && OneLine(r.link) && OneLine(r.current) && OneLine(r.latest)
    ensures Count(RowLine(r), '\n') == 1
  {
    var body := "| " + r.appName + " | [" + r.cleanId + "](" + r.link + ") | " + r.current + " | " + r.latest + " |";
    assert RowLine(r) == body + "\n";
    assert OneLine(body);
    CountNone(body, '\n');
    CountAppend(body, "\n", '\n');
  }

  lemma RowOneLine(pkg: Package, d: Defaults)
    requires RowOf(pkg, d).Some?
    requires OneLine(d.version) && (d.runtime.Some? ==> OneLine(d.runtime.value))
    requires forall k :: k in pkg ==> OneLine(pkg[k])
    ensures Count(RowLine(RowOf(pkg, d).value), '\n') == 1
  {
    RowFieldsOneLine(pkg, d);
    RowLineCount(RowOf(pkg, d).value);
  }

  lemma {:induction false} LinesCount(rows: seq<Row>, pkgs: seq<Package>, d: Defaults)
    requires RowsOf(pkgs, d) == Some(rows)
    requires SingleLineFields(pkgs, d)
    ensures Count(Lines(rows), '\n') == |rows|
  {
    if |pkgs| > 0 {
      var n := |pkgs| - 1;
      var prev := RowsOf(pkgs[..n], d);
      var last := RowOf(pkgs[n], d);
      assert prev.Some? && last.Some? && rows == prev.value + [last.value];
      assert rows[..|rows| - 1] == prev.value;
      assert SingleLineFields(pkgs[..n], d) by {
        assert forall i :: 0 <= i < n ==> pkgs[..n][i] == pkgs[i];
      }
      LinesCount(prev.value, pkgs[..n], d);
      assert forall k :: k in pkgs[n] ==> OneLine(pkgs[n][k]);
      RowOneLine(pkgs[n], d);
      CountAppend(Lines(prev.value), RowLine(last.value), '\n');
    }
  }

  /**
   * With single-line fields, a table of `n` packages has exactly `n + 3`
   * line breaks: two header lines, one per row, and the closing blank line.
   */
  lemma TableLineCount(pkgs: seq<Package>, d: Defaults, empty: string)
    requires |pkgs| > 0 && Table(pkgs, d, empty).Some?
    requires SingleLineFields(pkgs, d)
    ensures Count(Table(pkgs, d, empty).value, '\n') == |pkgs| + 3
  {
    TableShape(pkgs, d, empty);
    var sorted := ById(pkgs);
    var rows := RowsOf(sorted, d).value;
    assert SingleLineFields(sorted, d) by {
      forall i, k | 0 <= i < |sorted| && k in sorted[i] ensures OneLine(sorted[i][k]) {
        assert sorted[i] in multiset(pkgs);
        var j :| 0 <= j < |pkgs| && pkgs[j] == sorted[i];
      }
    }
    LinesCount(rows, sorted, d);
    HeaderLines();
    CountNone(Titles, '\n');
    CountNone(Rule, '\n');
    CountAppend(Titles, "\n", '\n');
    CountAppend(Titles + "\n", Rule, '\n');
    CountAppend(Titles + "\n" + Rule, "\n", '\n');
    CountAppend(Header, Lines(rows), '\n');
    CountAppend(Header + Lines(rows), "\n", '\n');
  }

  // ---------------------------------------------------------------------
  // The four copies

  datatype Copy = BackfillTables | PrepareBackfill | UpdateTables | UpdateFinal

  /** Each copy's message for an empty list, in short pieces so that its first character is visible to the proofs. */
  function EmptyMessage(c: Copy): string {
    match c
    case BackfillTables => "*No outdated" + " applications" + " in this run.*\n\n"
    case PrepareBackfill => "*All applications" + " were up to date" + " in this run!*\n\n"
    case UpdateTables => "*No outdated" + " applications found" + " in this run - all" + " applications were" + " up to date!*\n\n"
    case UpdateFinal => "*All applications" + " were up to date" + " in this run!*\n\n"
  }

  function DefaultsOf(c: Copy): Defaults {
    if c == BackfillTables then Strict else Lenient
  }

  /** `generate_application_table` of one copy. */
  function ApplicationTable(c: Copy, pkgs: seq<Package>): Option<string> {
    Table(pkgs, DefaultsOf(c), EmptyMessage(c))
  }

  /**
   * Every copy answers an empty list with its own italic message, and a
   * table always starts with the header's `|`, so the two cannot be confused;
   * only the copy that reads runtime refs without a default can fail on a
   * package that has an id.
   */
  lemma ApplicationTableShape(c: Copy, pkgs: seq<Package>)
    ensures |pkgs| == 0 ==> ApplicationTable(c, pkgs) == Some(EmptyMessage(c))
    ensures |EmptyMessage(c)| > 0 && EmptyMessage(c)[0] == '*'
    ensures |pkgs| > 0 && ApplicationTable(c, pkgs).Some? ==>
      |ApplicationTable(c, pkgs).value| > 0 && ApplicationTable(c, pkgs).value[0] == '|'
    ensures c != BackfillTables && HasIds(pkgs) ==> ApplicationTable(c, pkgs).Some?
  {
    if |pkgs| > 0 && ApplicationTable(c, pkgs).Some? {
      TableShape(pkgs, DefaultsOf(c), EmptyMessage(c));
      HeaderLines();
    }
    if c != BackfillTables && HasIds(pkgs) {
      TableFails(pkgs, DefaultsOf(c), EmptyMessage(c));
    }
  }
}

=== FILE: backfill.dfy ===
/**
 * backfill_using_mcp.py: snapshots rebuilt from artifact files named
 * `<run id>_<date>.json`, one history section for every consecutive pair of
 * snapshots (changed or not), and the overview of the latest snapshot.
 * The directory is a map from file name to the record the file holds, with
 * `None` for a file that cannot be read or holds an empty document; date
 * parsing and the clock are parameters.
 */
module Backfill {
  import opened Wrappers
  import opened Text
  import opened Seqs
  import opened Runtimes
  import opened Snapshots

  // ---------------------------------------------------------------------
  // Artifact file names

  datatype ArtifactName = ArtifactName(runId: int, runDate: int)

  /**
   * The run id and date of a file stem: with at least two `_`-parts the
   * first is the run id and the rest, joined again, the date text (`now`
   * when it does not parse); otherwise run id 0 at `now`. `None` is the
   * ValueError of a run id that is not a number, which nothing catches.
   */
  function ParseArtifactName(stem: string, parseDate: string -> Option<int>, now: int): Option<ArtifactName> {
    var parts := Split(stem, '_');
    if |parts| >= 2 then
      match ParseInt(parts[0])
      case None => None
      case Some(runId) => Some(ArtifactName(runId, parseDate(Join(parts[1..], '_')).GetOr(now)))
    else Some(ArtifactName(0, now))
  }

  lemma IntToStringNoUnderscore(i: int)
    ensures '_' !in IntToString(i)
  {
    var digits := NatToString(if i < 0 then -i else i);
    assert forall k :: 0 <= k < |digits| ==> IsDigit(digits[k]);
    if i < 0 {
      assert IntToString(i) == "-" + digits;
    }
  }

  /** A name written as `<run id>_<date text>` reads back as that run id and the date the text parses to. */
  lemma ArtifactNameRoundTrip(runId: int, dateText: string, parseDate: string -> Option<int>, now: int)
    ensures ParseArtifactName(IntToString(runId) + "_" + dateText, parseDate, now)
      == Some(ArtifactName(runId, parseDate(dateText).GetOr(now)))
  {
    var head := IntToString(runId);
    IntToStringNoUnderscore(runId);
    SplitCons(head, '_', dateText);
    assert head + "_" + dateText == head + ['_'] + dateText;
    var parts := Split(head + "_" + dateText, '_');
    assert parts == [head] + Split(dateText, '_');
    assert parts[1..] == Split(dateText, '_');
    JoinSplit(dateText, '_');
    ParseIntToString(runId);
  }

  /** A stem without `_` is run 0 at the current time. */
  lemma ArtifactNameWithoutUnderscore(stem: string, parseDate: string -> Option<int>, now: int)
    requires '_' !in stem
    ensures ParseArtifactName(stem, parseDate, now) == Some(ArtifactName(0, now))
  {
    SplitNoSep(stem, '_');
  }

  /** The parse fails exactly when the stem has a `_` and the text before the first one is not an integer. */
  lemma ArtifactNameFails(stem: string, parseDate: string -> Option<int>, now: int)
    ensures ParseArtifactName(stem, parseDate, now).None? <==>
      '_' in stem && ParseInt(BeforeFirst(stem, '_')).None?
  {
    var parts := Split(stem, '_');
    if '_' in stem {
      var i :| 0 <= i < |stem| && stem[i] == '_';
      var a := BeforeFirst(stem, '_');
      BeforeFirstIsPrefix(stem, '_');
      assert stem == a + ['_'] + stem[|a| + 1..];
      SplitCons(a, '_', stem[|a| + 1..]);
      assert |parts| >= 2;
    } else {
      SplitNoSep(stem, '_');
    }
  }

  // ---------------------------------------------------------------------
  // Loading the artifacts

  const JsonSuffix := ".json"

  /** Names the `*.json` glob matches. */
  predicate IsJsonName(name: string) {
    |name| >= |JsonSuffix| && name[|name| - |JsonSuffix|..] == JsonSuffix
  }

  /** `Path.stem` of a `.json` name: the name without its suffix, or the whole name when it is the bare suffix. */
  function Stem(name: string): (s: string)
    requires IsJsonName(name)
    ensures |name| > |JsonSuffix| ==> name == s + JsonSuffix
    ensures |name| == |JsonSuffix| ==> s == name
  {
    if |name| > |JsonSuffix| then name[..|name| - |JsonSuffix|] else name
  }

  /** The snapshots one file adds: none when unreadable, one when its name parses, `None` for the crash. */
  function LoadFile(name: string, data: Option<Record>, parseDate: string -> Option<int>, now: int): Option<seq<Snapshot>>
    requires IsJsonName(name)
  {
    match data
    case None => Some([])
    case Some(r) =>
      match ParseArtifactName(Stem(name), parseDate, now)
      case None => None
      case Some(a) => Some([SnapshotOf(a.runDate, a.runId, r)])
  }

  /** `LoadFile` of a name from the directory listing: a name outside it (which the load never meets) adds nothing. */
  function LoadName(name: string, files: map<string, Option<Record>>, parseDate: string -> Option<int>, now: int): Option<seq<Snapshot>> {
    if name in files && IsJsonName(name) then LoadFile(name, files[name], parseDate, now) else Some([])
  }

  /** The snapshots of the files `names`, in that order, or `None` when one of them crashes the run. */
  function LoadAll(names: seq<string>, files: map<string, Option<Record>>, parseDate: string -> Option<int>, now: int): Option<seq<Snapshot>>
    requires forall k :: 0 <= k < |names| ==> names[k] in files && IsJsonName(names[k])
  {
    FlatMapAll(names, (name: string) => LoadName(name, files, parseDate, now))
  }

  /** The `*.json` file names of the directory in sorted order. */
  function JsonNames(files: map<string, Option<Record>>): (names: seq<string>)
    ensures forall k :: 0 <= k < |names| ==> names[k] in files && IsJsonName(names[k])
    ensures forall name :: name in names <==> name in files && IsJsonName(name)
  {
    var json := set name | name in files && IsJsonName(name);
    SortedSeqShape(json);
    var names := SortedSeq(json);
    assert forall k :: 0 <= k < |names| ==> names[k] in names;
    names
  }

  /** `build_snapshots_from_artifacts`: nothing for a missing directory, else the loaded snapshots oldest first. */
  function Artifacts(dirExists: bool, files: map<string, Option<Record>>, parseDate: string -> Option<int>, now: int): Option<seq<Snapshot>> {
    if !dirExists then Some([])
    else
      match LoadAll(JsonNames(files), files, parseDate, now)
      case None => None
      case Some(snaps) => Some(OldestFirst(snaps))
  }

  method BuildSnapshots(dirExists: bool, files: map<string, Option<Record>>, parseDate: string -> Option<int>, now: int)
    returns (r: Option<seq<Snapshot>>)
    ensures r == Artifacts(dirExists, files, parseDate, now)
  {
    if !dirExists {
      return Some([]);
    }
    var names := JsonNames(files);
    var snaps: seq<Snapshot> := [];
    for i := 0 to |names|
      invariant LoadAll(names[..i], files, parseDate, now) == Some(snaps)
    {
      // skip an unreadable file, crash on a run id that is not a number
      var loaded := LoadFile(names[i], files[names[i]], parseDate, now);
      if loaded.None? {
        LoadAllFails(names, files, parseDate, now, i);
        return None;
      }
      FlatMapAllStep(names, (name: string) => LoadName(name, files, parseDate, now), i);
      snaps := snaps + loaded.value;
    }
    assert names[..|names|] == names;
    r := Some(OldestFirst(snaps));
  }

  /** One crashing file makes the whole load crash. */
  lemma LoadAllFails(names: seq<string>, files: map<string, Option<Record>>,
                     parseDate: string -> Option<int>, now: int, i: nat)
    requires forall k :: 0 <= k < |names| ==> names[k] in files && IsJsonName(names[k])
    requires i < |names| && LoadFile(names[i], files[names[i]], parseDate, now).None?
    ensures LoadAll(names, files, parseDate, now).None?
  {
    FlatMapAllFails(names, (name: string) => LoadName(name, files, parseDate, now), i);
  }

  /** A readable file whose name does not parse: the one thing that crashes the load. */
  predicate Crashes(name: string, files: map<string, Option<Record>>, parseDate: string -> Option<int>, now: int)
    requires name in files && IsJsonName(name)
  {
    files[name].Some? && ParseArtifactName(Stem(name), parseDate, now).None?
  }

  /** The snapshot of one readable file whose name parses. */
  function FileSnapshot(name: string, files: map<string, Option<Record>>, parseDate: string -> Option<int>, now: int): Option<Snapshot>
    requires name in files && IsJsonName(name)
  {
    match files[name]
    case None => None
    case Some(r) =>
      match ParseArtifactName(Stem(name), parseDate, now)
      case None => None
      case Some(a) => Some(SnapshotOf(a.runDate, a.runId, r))
  }

  /** A listed file crashes, adds nothing (unreadable), or adds its one snapshot. */
  lemma LoadNameShape(name: string, files: map<string, Option<Record>>, parseDate: string -> Option<int>, now: int)
    requires name in files && IsJsonName(name)
    ensures LoadName(name, files, parseDate, now).None? <==> Crashes(name, files, parseDate, now)
    ensures files[name].None? ==> LoadName(name, files, parseDate, now) == Some([])
    ensures files[name].Some? && LoadName(name, files, parseDate, now).Some? ==>
      FileSnapshot(name, files, parseDate, now).Some?
      && LoadName(name, files, parseDate, now).value == [FileSnapshot(name, files, parseDate, now).value]
  {
  }

  /**
   * Loading succeeds exactly when no readable file has a name whose run id
   * fails to parse, and then holds one snapshot per readable file, in order.
   */
  lemma LoadAllShape(names: seq<string>, files: map<string, Option<Record>>,
                     parseDate: string -> Option<int>, now: int)
    requires forall k :: 0 <= k < |names| ==> names[k] in files && IsJsonName(names[k])
    ensures LoadAll(names, files, parseDate, now).None? <==>
      exists k :: 0 <= k < |names| && files[names[k]].Some?
        && ParseArtifactName(Stem(names[k]), parseDate, now).None?
    ensures LoadAll(names, files, parseDate, now).Some? ==>
      |LoadAll(names, files, parseDate, now).value| == |Readable(names, files)|
  {
    LoadAllCrashes(names, files, parseDate, now);
    if LoadAll(names, files, parseDate, now).Some? {
      LoadAllCount(names, files, parseDate, now);
    }
  }

  lemma LoadAllCrashes(names: seq<string>, files: map<string, Option<Record>>,
                       parseDate: string -> Option<int>, now: int)
    requires forall k :: 0 <= k < |names| ==> names[k] in files && IsJsonName(names[k])
    ensures LoadAll(names, files, parseDate, now).None? <==>
      exists k :: 0 <= k < |names| && Crashes(names[k], files, parseDate, now)
  {
    FlatMapAllNone(names, (name: string) => LoadName(name, files, parseDate, now));
    forall k | 0 <= k < |names|
      ensures LoadName(names[k], files, parseDate, now).None? <==> Crashes(names[k], files, parseDate, now)
    {
      LoadNameShape(names[k], files, parseDate, now);
    }
  }

  lemma {:induction false} LoadAllCount(names: seq<string>, files: map<string, Option<Record>>,
                                        parseDate: string -> Option<int>, now: int)
    requires forall k :: 0 <= k < |names| ==> names[k] in files && IsJsonName(names[k])
    requires LoadAll(names, files, parseDate, now).Some?
    ensures |LoadAll(names, files, parseDate, now).value| == |Readable(names, files)|
    decreases |names|
  {
    if |names| > 0 {
      var n := |names| - 1;
      var prefix := names[..n];
      LoadAllCount(prefix, files, parseDate, now);
      LoadNameShape(names[n], files, parseDate, now);
      var more := LoadName(names[n], files, parseDate, now).value;
      assert |more| == (if files[names[n]].Some? then 1 else 0);
      assert Readable(names, files) == Readable(prefix, files)
        + (if files[names[n]].Some? then [names[n]] else []);
    }
  }

  /** A successful load holds the snapshot of every readable file and nothing else. */
  lemma LoadAllMembers(names: seq<string>, files: map<string, Option<Record>>,
                       parseDate: string -> Option<int>, now: int)
    requires forall k :: 0 <= k < |names| ==> names[k] in files && IsJsonName(names[k])
    requires LoadAll(names, files, parseDate, now).Some?
    ensures forall k :: 0 <= k < |names| && files[names[k]].Some? ==>
      FileSnapshot(names[k], files, parseDate, now).Some?
      && FileSnapshot(names[k], files, parseDate, now).value in LoadAll(names, files, parseDate, now).value
    ensures forall s :: s in LoadAll(names, files, parseDate, now).value ==>
      exists k :: 0 <= k < |names| && FileSnapshot(names[k], files, parseDate, now) == Some(s)
  {
    var f := (name: string) => LoadName(name, files, parseDate, now);
    var all := LoadAll(names, files, parseDate, now).value;
    FlatMapAllNone(names, f);
    forall k | 0 <= k < |names| && files[names[k]].Some?
      ensures FileSnapshot(names[k], files, parseDate, now).Some?
        && FileSnapshot(names[k], files, parseDate, now).value in all
    {
      LoadNameShape(names[k], files, parseDate, now);
      FlatMapAllMembers(names, f, FileSnapshot(names[k], files, parseDate, now).value);
    }
    forall s | s in all
      ensures exists k :: 0 <= k < |names| && FileSnapshot(names[k], files, parseDate, now) == Some(s)
    {
      FlatMapAllMembers(names, f, s);
      var k :| 0 <= k < |names| && f(names[k]).Some? && s in f(names[k]).value;
      LoadNameShape(names[k], files, parseDate, now);
    }
  }

  /** The names of the files that can be read. */
  function Readable(names: seq<string>, files: map<string, Option<Record>>): seq<string>
    requires forall k :: 0 <= k < |names| ==> names[k] in files
  {
    if |names| == 0 then []
    else
      var n := |names| - 1;
      Readable(names[..n], files) + (if files[names[n]].Some? then [names[n]] else [])
  }

  /**
   * A missing directory gives no snapshots; otherwise the snapshots are
   * those of the readable `.json` files, sorted oldest first.
   */
  lemma ArtifactsShape(dirExists: bool, files: map<string, Option<Record>>, parseDate: string -> Option<int>, now: int)
    ensures !dirExists ==> Artifacts(dirExists, files, parseDate, now) == Some([])
    ensures Artifacts(dirExists, files, parseDate, now).Some? ==>
      SortedBy(Artifacts(dirExists, files, parseDate, now).value, RunDate, IntLt)
    ensures dirExists && Artifacts(dirExists, files, parseDate, now).Some? ==>
      |Artifacts(dirExists, files, parseDate, now).value| == |Readable(JsonNames(files), files)|
    ensures dirExists ==> (Artifacts(dirExists, files, parseDate, now).None? <==>
      exists name :: name in files && IsJsonName(name) && files[name].Some?
        && ParseArtifactName(Stem(name), parseDate, now).None?)
  {
    if dirExists {
      var names := JsonNames(files);
      LoadAllShape(names, files, parseDate, now);
      var loaded := LoadAll(names, files, parseDate, now);
      if loaded.Some? {
        assert |multiset(OldestFirst(loaded.value))| == |multiset(loaded.value)|;
      }
      if exists name :: name in files && IsJsonName(name) && files[name].Some?
           && ParseArtifactName(Stem(name), parseDate, now).None? {
        var name :| name in files && IsJsonName(name) && files[name].Some?
          && ParseArtifactName(Stem(name), parseDate, now).None?;
        assert name in names;
      }
    }
  }

  /** A successful load holds the snapshot of every readable `.json` file, and only those. */
  lemma ArtifactsMembers(files: map<string, Option<Record>>, parseDate: string -> Option<int>, now: int)
    requires Artifacts(true, files, parseDate, now).Some?
    ensures forall name :: name in files && IsJsonName(name) && files[name].Some? ==>
      FileSnapshot(name, files, parseDate, now).Some?
      && FileSnapshot(name, files, parseDate, now).value in Artifacts(true, files, parseDate, now).value
    ensures forall s :: s in Artifacts(true, files, parseDate, now).value ==>
      exists name :: name in files && IsJsonName(name) && FileSnapshot(name, files, parseDate, now) == Some(s)
  {
    var names := JsonNames(files);
    var loaded := LoadAll(names, files, parseDate, now).value;
    LoadAllMembers(names, files, parseDate, now);
    var sorted := OldestFirst(loaded);
    assert forall s :: s in sorted <==> s in loaded by {
      assert multiset(sorted) == multiset(loaded);
      forall s ensures s in sorted <==> s in loaded {
        assert s in sorted <==> s in multiset(sorted);
        assert s in loaded <==> s in multiset(loaded);
      }
    }
    forall name | name in files && IsJsonName(name) && files[name].Some?
      ensures FileSnapshot(name, files, parseDate, now).Some?
      ensures FileSnapshot(name, files, parseDate, now).value in sorted
    {
      assert name in names;
      var k :| 0 <= k < |names| && names[k] == name;
    }
    forall s | s in sorted
      ensures exists name :: name in files && IsJsonName(name) && FileSnapshot(name, files, parseDate, now) == Some(s)
    {
      var k :| 0 <= k < |names| && FileSnapshot(names[k], files, parseDate, now) == Some(s);
      assert names[k] in files && IsJsonName(names[k]);
    }
  }

  // ---------------------------------------------------------------------
  // History sections

  /** One section of `generate_historical_changelog_sections`, before rendering. */
  datatype Section = Section(
    runDate: int,
    total: nat,
    outdated: nat,
    rate: Rate,
    updated: seq<string>,
    added: seq<string>,
    removed: seq<string>)

  /** The section of the newer snapshot of a pair. */
  function SectionFor(older: Snapshot, newer: Snapshot): Section {
    var c := DetectChanges(older, newer);
    var total := |newer.tracked|;
    var outdated := |newer.outdated|;
    Section(newer.runDate, total, outdated, GuardedRate(total - outdated, total),
            SortedSeq(c.updated), SortedSeq(c.added), SortedSeq(c.removed))
  }

  /** A section says `*No changes this week*` when all three lists are empty. */
  predicate NoChangesNote(s: Section) {
    s.updated == [] && s.added == [] && s.removed == []
  }

  /** What `pair` makes of the first `n` consecutive pairs of `xs`, oldest first. */
  function Pairs<T, U>(xs: seq<T>, n: nat, pair: (T, T) -> U): (r: seq<U>)
    requires n < |xs|
    ensures |r| == n
  {
    seq(n, k requires 0 <= k < n => pair(xs[k], xs[k + 1]))
  }

  /** Reversed, the k-th entry comes from the k-th newest pair. */
  lemma PairsReversed<T, U>(xs: seq<T>, pair: (T, T) -> U)
    requires |xs| >= 2
    ensures forall k {:trigger Reverse(Pairs(xs, |xs| - 1, pair))[k]} :: 0 <= k < |xs| - 1 ==>
      Reverse(Pairs(xs, |xs| - 1, pair))[k] == pair(xs[|xs| - 2 - k], xs[|xs| - 1 - k])
  {
    var p := Pairs(xs, |xs| - 1, pair);
    forall k | 0 <= k < |xs| - 1
      ensures Reverse(p)[k] == pair(xs[|xs| - 2 - k], xs[|xs| - 1 - k])
    {
      ReverseAt(p, k);
    }
  }

  function Sections(snaps: seq<Snapshot>): seq<Section> {
    if |snaps| < 2 then [] else Reverse(Pairs(snaps, |snaps| - 1, SectionFor))
  }

  method HistoricalSections(snaps: seq<Snapshot>) returns (sections: seq<Section>)
    ensures sections == Sections(snaps)
  {
    if |snaps| < 2 {
      return [];
    }
    var acc: seq<Section> := [];
    for i := 0 to |snaps| - 1
      invariant acc == Pairs(snaps, i, SectionFor)
    {
      acc := acc + [SectionFor(snaps[i], snaps[i + 1])];
    }
    sections := Reverse(acc);
  }

  /**
   * A section lists the changes of its pair, each list sorted; the note
   * appears exactly when nothing changed; the rate is zero exactly when
   * nothing is tracked.
   */
  lemma SectionForShape(older: Snapshot, newer: Snapshot)
    ensures StrictlySorted(SectionFor(older, newer).updated)
      && StrictlySorted(SectionFor(older, newer).added) && StrictlySorted(SectionFor(older, newer).removed)
    ensures forall x :: x in SectionFor(older, newer).updated <==> x in older.outdated && x !in newer.outdated
    ensures forall x :: x in SectionFor(older, newer).added <==> x in newer.tracked && x !in older.tracked
    ensures forall x :: x in SectionFor(older, newer).removed <==> x in older.tracked && x !in newer.tracked
    ensures NoChangesNote(SectionFor(older, newer)) <==>
      older.outdated <= newer.outdated && older.tracked == newer.tracked
    ensures SectionFor(older, newer).rate.ZeroRate? <==> newer.tracked == {}
    ensures SectionFor(older, newer).runDate == newer.runDate
  {
    var c := DetectChanges(older, newer);
    NoChangesIff(older, newer);
    SortedSeqShape(c.updated);
    SortedSeqShape(c.added);
    SortedSeqShape(c.removed);
  }

  /**
   * No sections for fewer than two snapshots; otherwise exactly one per
   * consecutive pair, newest pair first.
   */
  lemma SectionsShape(snaps: seq<Snapshot>)
    ensures |snaps| < 2 ==> Sections(snaps) == []
    ensures |snaps| >= 2 ==> |Sections(snaps)| == |snaps| - 1
    ensures |snaps| >= 2 ==> forall k :: 0 <= k < |snaps| - 1 ==>
      Sections(snaps)[k] == SectionFor(snaps[|snaps| - 2 - k], snaps[|snaps| - 1 - k])
  {
    if |snaps| >= 2 {
      PairsReversed(snaps, SectionFor);
    }
  }

  /**
   * Over a list sorted by `key`, when each pair's result is dated by its
   * newer element, the reversed results run newest first.
   */
  lemma PairsReversedNewestFirst<T, U>(xs: seq<T>, pair: (T, T) -> U, date: U -> int, key: T -> int, r: seq<U>)
    requires |xs| >= 2 && r == Reverse(Pairs(xs, |xs| - 1, pair))
    requires forall a, b :: date(pair(a, b)) == key(b)
    requires SortedBy(xs, key, IntLt)
    ensures forall i, j :: 0 <= i < j < |r| ==> date(r[j]) <= date(r[i])
  {
    PairsReversed(xs, pair);
    forall i, j | 0 <= i < j < |r|
      ensures date(r[j]) <= date(r[i])
    {
      assert date(r[i]) == key(xs[|xs| - 1 - i]);
      assert date(r[j]) == key(xs[|xs| - 1 - j]);
      assert !IntLt(key(xs[|xs| - 1 - i]), key(xs[|xs| - 1 - j]));
    }
  }

  function SectionRunDate(s: Section): int {
    s.runDate
  }

  /** Over snapshots sorted oldest first, the sections run newest first. */
  lemma SectionsNewestFirst(snaps: seq<Snapshot>)
    requires SortedBy(snaps, RunDate, IntLt)
    ensures forall i, j :: 0 <= i < j < |Sections(snaps)| ==> Sections(snaps)[j].runDate <= Sections(snaps)[i].runDate
  {
    if |snaps| >= 2 {
      forall a, b ensures SectionRunDate(SectionFor(a, b)) == RunDate(b) {
      }
      var r := Sections(snaps);
      PairsReversedNewestFirst(snaps, SectionFor, SectionRunDate, RunDate, r);
      forall i, j | 0 <= i < j < |r|
        ensures r[j].runDate <= r[i].runDate
      {
        assert SectionRunDate(r[j]) <= SectionRunDate(r[i]);
      }
    }
  }

  // ---------------------------------------------------------------------
  // The changelog

  /** The overview counts of the latest snapshot. */
  datatype Overview = Overview(runs: nat, runDate: int, total: nat, upToDate: int, needUpdates: nat, rate: Rate)

  datatype Changelog = Changelog(overview: Overview, history: seq<Section>)

  function OverviewOf(snaps: seq<Snapshot>): Overview
    requires |snaps| > 0
  {
    var latest := snaps[|snaps| - 1];
    var total := |latest.tracked|;
    var up := total - |latest.outdated|;
    Overview(|snaps|, latest.runDate, total, up, |latest.outdated|, GuardedRate(up, total))
  }

  /** `generate_changelog` after loading: `None` is the exit with status 1 for fewer than two snapshots. */
  function GenerateChangelog(snaps: seq<Snapshot>): Option<Changelog> {
    if |snaps| < 2 then None
    else Some(Changelog(OverviewOf(snaps), Sections(snaps)))
  }

  /**
   * The changelog exists exactly when there are two snapshots; its overview
   * describes the latest one, up-to-date and outdated apps add up to the
   * tracked total, and the history has one section per pair.
   */
  lemma GenerateChangelogShape(snaps: seq<Snapshot>)
    ensures GenerateChangelog(snaps).None? <==> |snaps| < 2
    ensures GenerateChangelog(snaps).Some? ==>
      var o := GenerateChangelog(snaps).value.overview;
      && o.runDate == snaps[|snaps| - 1].runDate
      && o.total == |snaps[|snaps| - 1].tracked|
      && o.upToDate + o.needUpdates == o.total
      && (o.rate.ZeroRate? <==> o.total == 0)
      && (snaps[|snaps| - 1].outdated <= snaps[|snaps| - 1].tracked ==> 0 <= o.upToDate)
    ensures GenerateChangelog(snaps).Some? ==> |GenerateChangelog(snaps).value.history| == |snaps| - 1
  {
    if |snaps| >= 2 {
      var latest := snaps[|snaps| - 1];
      if latest.outdated <= latest.tracked {
        SubsetCard(latest.outdated, latest.tracked);
      }
    }
  }

  lemma SubsetCard(a: set<string>, b: set<string>)
    requires a <= b
    ensures |a| <= |b|
  {
    assert b == a + (b - a);
  }
}

=== FILE: changelog.dfy ===
/**
 * generate_changelog.py: the dashboard counts, the runtime-family groups and
 * their most downloaded members, the weekly section's split of pending and
 * recently closed packages, and the history of changes between consecutive
 * snapshots. Markdown prose, dates and percentages are not modelled; each
 * section is the structured data the prose is printed from.
 */
module Changelog {
  import opened Wrappers
  import opened Text
  import opened Seqs
  import opened Runtimes
  import opened Issues
  import opened Snapshots

  /** `OutdatedPackage` with its `monthly_downloads`, which loading leaves at 0. */
  datatype Pending = Pending(pkg: Outdated, monthlyDownloads: int)

  /** The packages `load_outdated_packages` reads from a saved record. */
  function PendingOf(r: Record): (ps: seq<Pending>)
    ensures |ps| == |r.outdatedPackages|
    ensures forall i :: 0 <= i < |ps| ==> ps[i] == Pending(r.outdatedPackages[i], 0)
  {
    seq(|r.outdatedPackages|, i requires 0 <= i < |r.outdatedPackages| => Pending(r.outdatedPackages[i], 0))
  }

  function PendingIds(ps: seq<Pending>): (ids: seq<string>)
    ensures |ids| == |ps| && forall i :: 0 <= i < |ps| ==> ids[i] == ps[i].pkg.flatpakId
  {
    if |ps| == 0 then [] else PendingIds(ps[..|ps| - 1]) + [ps[|ps| - 1].pkg.flatpakId]
  }

  // ---------------------------------------------------------------------
  // group_packages_by_runtime

  datatype Family = Gnome | Kde | Freedesktop | Other

  /** The family of a runtime ref, `gnome` before `kde` before `freedesktop` on its lowercased name. */
  function FamilyOf(runtime: string): Family {
    var low := Lower(RuntimeName(runtime));
    if Contains(low, "gnome") then Gnome
    else if Contains(low, "kde") then Kde
    else if Contains(low, "freedesktop") then Freedesktop
    else Other
  }

  function FamilyOfPending(p: Pending): Family {
    FamilyOf(p.pkg.currentRuntime)
  }

  /** The test "`fam` puts the package in `f`", as a filter predicate. */
  function InFamily(fam: Pending -> Family, f: Family): Pending -> bool {
    (p: Pending) => fam(p) == f
  }

  function GroupBy(ps: seq<Pending>, fam: Pending -> Family, f: Family): seq<Pending> {
    Filter(ps, InFamily(fam, f))
  }

  function Group(ps: seq<Pending>, f: Family): seq<Pending> {
    GroupBy(ps, FamilyOfPending, f)
  }

  /** The four lists of the `groups` dict, in its key order. */
  datatype Groups = Groups(gnome: seq<Pending>, kde: seq<Pending>, freedesktop: seq<Pending>, other: seq<Pending>)

  function Grouped(ps: seq<Pending>): Groups {
    Groups(Group(ps, Gnome), Group(ps, Kde), Group(ps, Freedesktop), Group(ps, Other))
  }

  lemma GroupStep(ps: seq<Pending>, i: nat, f: Family)
    requires i < |ps|
    ensures Group(ps[..i + 1], f) == Group(ps[..i], f) + (if FamilyOf(ps[i].pkg.currentRuntime) == f then [ps[i]] else [])
  {
    assert ps[..i + 1] == ps[..i] + [ps[i]];
    FilterAppend(ps[..i], [ps[i]], InFamily(FamilyOfPending, f));
  }

  method GroupByRuntime(packages: seq<Pending>) returns (g: Groups)
    ensures g == Grouped(packages)
  {
    g := Groups([], [], [], []);
    var i := 0;
    while i < |packages|
      invariant 0 <= i <= |packages|
      invariant g == Grouped(packages[..i])
    {
      var p := packages[i];
      GroupStep(packages, i, Gnome);
      GroupStep(packages, i, Kde);
      GroupStep(packages, i, Freedesktop);
      GroupStep(packages, i, Other);
      var family := FamilyOf(p.pkg.currentRuntime);
      if family == Gnome {
        g := g.(gnome := g.gnome + [p]);
      } else if family == Kde {
        g := g.(kde := g.kde + [p]);
      } else if family == Freedesktop {
        g := g.(freedesktop := g.freedesktop + [p]);
      } else {
        g := g.(other := g.other + [p]);
      }
      i := i + 1;
    }
    assert packages[..i] == packages;
  }

  /** Grouping by any family function keeps each package exactly once. */
  lemma {:induction false} GroupByCover(ps: seq<Pending>, fam: Pending -> Family)
    ensures multiset(GroupBy(ps, fam, Gnome)) + multiset(GroupBy(ps, fam, Kde))
      + multiset(GroupBy(ps, fam, Freedesktop)) + multiset(GroupBy(ps, fam, Other)) == multiset(ps)
  {
    if |ps| > 0 {
      GroupByCover(ps[1..], fam);
      GroupByHead(ps, fam, Gnome);
      GroupByHead(ps, fam, Kde);
      GroupByHead(ps, fam, Freedesktop);
      GroupByHead(ps, fam, Other);
      MultisetHead(ps);
      CoverStep(ps[0], fam(ps[0]),
        multiset(GroupBy(ps, fam, Gnome)), multiset(GroupBy(ps, fam, Kde)),
        multiset(GroupBy(ps, fam, Freedesktop)), multiset(GroupBy(ps, fam, Other)),
        multiset(GroupBy(ps[1..], fam, Gnome)), multiset(GroupBy(ps[1..], fam, Kde)),
        multiset(GroupBy(ps[1..], fam, Freedesktop)), multiset(GroupBy(ps[1..], fam, Other)));
    }
  }

  /** Adding one package of family `f` to the four groups adds it to their union once. */
  lemma CoverStep(x: Pending, f: Family, g: multiset<Pending>, k: multiset<Pending>,
                  d: multiset<Pending>, o: multiset<Pending>, g': multiset<Pending>,
                  k': multiset<Pending>, d': multiset<Pending>, o': multiset<Pending>)
    requires g == (if f == Gnome then multiset{x} else multiset{}) + g'
    requires k == (if f == Kde then multiset{x} else multiset{}) + k'
    requires d == (if f == Freedesktop then multiset{x} else multiset{}) + d'
    requires o == (if f == Other then multiset{x} else multiset{}) + o'
    ensures g + k + d + o == multiset{x} + (g' + k' + d' + o')
  {
  }

  /** The first package joins the group of its own family and no other. */
  lemma GroupByHead(ps: seq<Pending>, fam: Pending -> Family, f: Family)
    requires |ps| > 0
    ensures multiset(GroupBy(ps, fam, f)) ==
      (if fam(ps[0]) == f then multiset{ps[0]} else multiset{}) + multiset(GroupBy(ps[1..], fam, f))
  {
    assert InFamily(fam, f)(ps[0]) == (fam(ps[0]) == f);
  }

  lemma GroupByMembers(ps: seq<Pending>, fam: Pending -> Family, f: Family)
    ensures forall p :: p in GroupBy(ps, fam, f) <==> p in ps && fam(p) == f
  {
  }

  /** Every package lands in exactly the group of its family, and the groups together are the input. */
  lemma GroupsPartition(ps: seq<Pending>)
    ensures var g := Grouped(ps);
      && multiset(g.gnome) + multiset(g.kde) + multiset(g.freedesktop) + multiset(g.other) == multiset(ps)
      && |g.gnome| + |g.kde| + |g.freedesktop| + |g.other| == |ps|
      && (forall p :: p in g.gnome <==> p in ps && FamilyOf(p.pkg.currentRuntime) == Gnome)
      && (forall p :: p in g.kde <==> p in ps && FamilyOf(p.pkg.currentRuntime) == Kde)
      && (forall p :: p in g.freedesktop <==> p in ps && FamilyOf(p.pkg.currentRuntime) == Freedesktop)
      && (forall p :: p in g.other <==> p in ps && FamilyOf(p.pkg.currentRuntime) == Other)
  {
    var g := Grouped(ps);
    GroupByCover(ps, FamilyOfPending);
    GroupByMembers(ps, FamilyOfPending, Gnome);
    GroupByMembers(ps, FamilyOfPending, Kde);
    GroupByMembers(ps, FamilyOfPending, Freedesktop);
    GroupByMembers(ps, FamilyOfPending, Other);
    assert |multiset(g.gnome) + multiset(g.kde) + multiset(g.freedesktop) + multiset(g.other)| == |multiset(ps)|;
  }

  // ---------------------------------------------------------------------
  // identify_popular_packages

  /** `sorted(packages, key=lambda p: p.monthly_downloads, reverse=True)`: descending and stable. */
  function ByDownloads(group: seq<Pending>): seq<Pending> {
    SortBy(group, (p: Pending) => p.monthlyDownloads, IntGt)
  }

  function TopIds(group: seq<Pending>, topN: nat): set<string> {
    Elems(PendingIds(Take(ByDownloads(group), topN)))
  }

  /** The groups `identify_popular_packages` visits, skipping `Other`. */
  function Ranked(g: Groups): seq<seq<Pending>> {
    [g.gnome, g.kde, g.freedesktop]
  }

  function UnionTop(groups: seq<seq<Pending>>, topN: nat): set<string> {
    if |groups| == 0 then {} else UnionTop(groups[..|groups| - 1], topN) + TopIds(groups[|groups| - 1], topN)
  }

  function Popular(g: Groups, topN: nat): set<string> {
    UnionTop(Ranked(g), topN)
  }

  method IdentifyPopular(g: Groups, topN: nat) returns (popular: set<string>)
    ensures popular == Popular(g, topN)
  {
    var groups := [g.gnome, g.kde, g.freedesktop, g.other];
    var ranked := Ranked(g);
    popular := {};
    var j := 0;
    while j < 4
      invariant 0 <= j <= 4
      invariant popular == UnionTop(ranked[..if j < 3 then j else 3], topN)
    {
      if j < 3 {
        ghost var before := popular;
        var top := Take(ByDownloads(groups[j]), topN);
        var k := 0;
        while k < |top|
          invariant 0 <= k <= |top|
          invariant popular == before + Elems(PendingIds(top[..k]))
        {
          TopStep(top, k);
          popular := popular + {top[k].pkg.flatpakId};
          k := k + 1;
        }
        assert top[..k] == top;
        assert groups[j] == ranked[j];
        UnionTopStep(ranked, j, topN);
      }
      j := j + 1;
    }
    assert ranked[..3] == ranked;
  }

  lemma TopStep(top: seq<Pending>, k: nat)
    requires k < |top|
    ensures Elems(PendingIds(top[..k + 1])) == Elems(PendingIds(top[..k])) + {top[k].pkg.flatpakId}
  {
    assert top[..k + 1][..k] == top[..k];
    assert PendingIds(top[..k + 1]) == PendingIds(top[..k]) + [top[k].pkg.flatpakId];
  }

  lemma UnionTopStep(groups: seq<seq<Pending>>, j: nat, topN: nat)
    requires j < |groups|
    ensures UnionTop(groups[..j + 1], topN) == UnionTop(groups[..j], topN) + TopIds(groups[j], topN)
  {
    assert groups[..j + 1][..j] == groups[..j];
  }

  /** A group contributes at most `top_n` ids. */
  lemma TopIdsBound(group: seq<Pending>, topN: nat)
    ensures |TopIds(group, topN)| <= topN
  {
    ElemsCard(PendingIds(Take(ByDownloads(group), topN)));
  }

  lemma {:induction false} UnionTopBound(groups: seq<seq<Pending>>, topN: nat)
    ensures |UnionTop(groups, topN)| <= |groups| * topN
  {
    if |groups| > 0 {
      var n := |groups| - 1;
      UnionTopBound(groups[..n], topN);
      TopIdsBound(groups[n], topN);
      var a := UnionTop(groups[..n], topN);
      var b := TopIds(groups[n], topN);
      assert |a + b| <= |a| + |b|;
      assert |groups| == n + 1;
      assert (n + 1) * topN == n * topN + topN;
    }
  }

  /** At most `top_n` ids per ranked family, each the id of a package of that family. */
  lemma PopularShape(g: Groups, topN: nat)
    ensures |Popular(g, topN)| <= 3 * topN
    ensures forall id :: id in Popular(g, topN) <==>
      id in TopIds(g.gnome, topN) || id in TopIds(g.kde, topN) || id in TopIds(g.freedesktop, topN)
  {
    var r := Ranked(g);
    UnionTopBound(r, topN);
    assert r[..2][..1] == r[..1] && r[..1][..0] == [];
    assert r[..2] == [g.gnome, g.kde] && r[..1] == [g.gnome];
    assert UnionTop(r[..1], topN) == TopIds(g.gnome, topN);
    assert UnionTop(r[..2], topN) == TopIds(g.gnome, topN) + TopIds(g.kde, topN);
    assert Popular(g, topN) == TopIds(g.gnome, topN) + TopIds(g.kde, topN) + TopIds(g.freedesktop, topN);
  }

  /** With equal download counts, as loading leaves them, the popular ids of a group are its first `top_n`. */
  lemma TopIdsWithoutDownloads(group: seq<Pending>, topN: nat, d: int)
    requires forall i :: 0 <= i < |group| ==> group[i].monthlyDownloads == d
    ensures TopIds(group, topN) == Elems(PendingIds(Take(group, topN)))
  {
    IntGtOrder();
    SortBySameKey(group, (p: Pending) => p.monthlyDownloads, IntGt, d);
  }

  // ---------------------------------------------------------------------
  // generate_dashboard_section (its counts)

  datatype Progress = Progress(family: Family, target: string, count: nat)

  datatype Dashboard = Dashboard(totalTracked: nat, upToDate: int, needUpdates: nat, rate: Rate, progress: seq<Progress>)

  /** One progress entry per non-empty ranked group, targeting its first package's latest version. */
  function ProgressOf(g: Groups): (r: seq<Progress>)
    ensures |r| <= 3
    ensures forall k :: 0 <= k < |r| ==> r[k].count > 0 && r[k].family != Other
  {
    (if |g.gnome| > 0 then [Progress(Gnome, g.gnome[0].pkg.latestVersion, |g.gnome|)] else [])
    + (if |g.kde| > 0 then [Progress(Kde, g.kde[0].pkg.latestVersion, |g.kde|)] else [])
    + (if |g.freedesktop| > 0 then [Progress(Freedesktop, g.freedesktop[0].pkg.latestVersion, |g.freedesktop|)] else [])
  }

  /** The group of `g` that holds family `f`. */
  function GroupOf(g: Groups, f: Family): seq<Pending> {
    match f
    case Gnome => g.gnome
    case Kde => g.kde
    case Freedesktop => g.freedesktop
    case Other => g.other
  }

  /** The order in which the dashboard lists the families. */
  function FamilyRank(f: Family): nat {
    match f
    case Gnome => 0
    case Kde => 1
    case Freedesktop => 2
    case Other => 3
  }

  /**
   * Each entry is a ranked family whose group is non-empty, counting that
   * group and targeting its first package's latest version; every such family
   * has an entry, and the entries follow GNOME, KDE, Freedesktop.
   */
  lemma ProgressShape(g: Groups)
    ensures forall k :: 0 <= k < |ProgressOf(g)| ==>
      && ProgressOf(g)[k].family != Other
      && |GroupOf(g, ProgressOf(g)[k].family)| > 0
      && ProgressOf(g)[k].count == |GroupOf(g, ProgressOf(g)[k].family)|
      && ProgressOf(g)[k].target == GroupOf(g, ProgressOf(g)[k].family)[0].pkg.latestVersion
    ensures forall f :: f != Other && |GroupOf(g, f)| > 0 ==>
      exists k :: 0 <= k < |ProgressOf(g)| && ProgressOf(g)[k].family == f
    ensures forall j, k :: 0 <= j < k < |ProgressOf(g)| ==>
      FamilyRank(ProgressOf(g)[j].family) < FamilyRank(ProgressOf(g)[k].family)
  {
    ProgressEntries(g);
    ProgressCovers(g);
    ProgressOrder(g);
  }

  /** `ProgressOf` is the three optional entries, GNOME, KDE, Freedesktop. */
  lemma ProgressParts(g: Groups)
    ensures ProgressOf(g) == ProgressPart(g, Gnome) + ProgressPart(g, Kde) + ProgressPart(g, Freedesktop)
  {
  }

  /** The entry of one family, when its group is non-empty. */
  function ProgressPart(g: Groups, f: Family): seq<Progress> {
    if |GroupOf(g, f)| > 0 then [Progress(f, GroupOf(g, f)[0].pkg.latestVersion, |GroupOf(g, f)|)] else []
  }

  /** `p` is the entry of a ranked family with packages, counting them and targeting the first one's latest version. */
  predicate Describes(g: Groups, p: Progress) {
    && p.family != Other
    && |GroupOf(g, p.family)| > 0
    && p.count == |GroupOf(g, p.family)|
    && p.target == GroupOf(g, p.family)[0].pkg.latestVersion
  }

  lemma ProgressEntries(g: Groups)
    ensures forall k :: 0 <= k < |ProgressOf(g)| ==>
      && ProgressOf(g)[k].family != Other
      && |GroupOf(g, ProgressOf(g)[k].family)| > 0
      && ProgressOf(g)[k].count == |GroupOf(g, ProgressOf(g)[k].family)|
      && ProgressOf(g)[k].target == GroupOf(g, ProgressOf(g)[k].family)[0].pkg.latestVersion
  {
    ProgressParts(g);
    var a: seq<Progress>, b: seq<Progress>, c: seq<Progress> :=
      ProgressPart(g, Gnome), ProgressPart(g, Kde), ProgressPart(g, Freedesktop);
    var r := a + b + c;
    forall k | 0 <= k < |r|
      ensures Describes(g, r[k])
    {
      if k < |a| {
        assert r[k] == a[k];
        PartDescribes(g, Gnome);
      } else if k < |a| + |b| {
        assert r[k] == b[k - |a|];
        PartDescribes(g, Kde);
      } else {
        assert r[k] == c[k - |a| - |b|];
        PartDescribes(g, Freedesktop);
      }
    }
  }

  lemma PartDescribes(g: Groups, f: Family)
    requires f != Other
    ensures forall k :: 0 <= k < |ProgressPart(g, f)| ==> Describes(g, ProgressPart(g, f)[k])
  {
  }

  lemma ProgressCovers(g: Groups)
    ensures forall f :: f != Other && |GroupOf(g, f)| > 0 ==>
      exists k :: 0 <= k < |ProgressOf(g)| && ProgressOf(g)[k].family == f
  {
    ProgressParts(g);
    var a: seq<Progress>, b: seq<Progress>, c: seq<Progress> :=
      ProgressPart(g, Gnome), ProgressPart(g, Kde), ProgressPart(g, Freedesktop);
    var r := a + b + c;
    forall f | f != Other && |GroupOf(g, f)| > 0
      ensures exists k :: 0 <= k < |r| && r[k].family == f
    {
      if f == Gnome {
        assert r[0] == a[0];
      } else if f == Kde {
        assert r[|a|] == b[0];
      } else {
        assert r[|a| + |b|] == c[0];
      }
    }
  }

  lemma ProgressOrder(g: Groups)
    ensures forall j, k :: 0 <= j < k < |ProgressOf(g)| ==>
      FamilyRank(ProgressOf(g)[j].family) < FamilyRank(ProgressOf(g)[k].family)
  {
    ProgressParts(g);
    var a: seq<Progress>, b: seq<Progress>, c: seq<Progress> :=
      ProgressPart(g, Gnome), ProgressPart(g, Kde), ProgressPart(g, Freedesktop);
    var r := a + b + c;
    forall k | 0 <= k < |r|
      ensures FamilyRank(r[k].family) == if k < |a| then 0 else if k < |a| + |b| then 1 else 2
      ensures |a| <= 1 && |b| <= 1
    {
      if k < |a| {
        assert r[k] == a[k];
      } else if k < |a| + |b| {
        assert r[k] == b[k - |a|];
      } else {
        assert r[k] == c[k - |a| - |b|];
      }
    }
  }

  /**
   * The dashboard counts: up to date is tracked minus outdated (negative when
   * more packages are outdated than tracked), and the rate is 0 for nothing tracked.
   */
  function DashboardOf(packages: seq<Pending>, allTracked: seq<string>, g: Groups): (d: Dashboard)
    ensures d.totalTracked == |allTracked| && d.needUpdates == |packages|
    ensures d.upToDate + d.needUpdates == d.totalTracked
    ensures d.rate.ZeroRate? <==> |allTracked| == 0
    ensures d.rate == GuardedRate(d.upToDate, d.totalTracked)
    ensures d.progress == ProgressOf(g)
  {
    var up := |allTracked| - |packages|;
    Dashboard(|allTracked|, up, |packages|, GuardedRate(up, |allTracked|), ProgressOf(g))
  }

  // ---------------------------------------------------------------------
  // get_recently_closed_issues

  /** A closed issue as listed by `get_issues(state='closed', since=...)`. */
  datatype ClosedIssue = ClosedIssue(number: nat, title: string, closedAt: Option<int>)

  datatype RecentItem = RecentItem(flatpakId: string, issueNumber: nat, closedAt: int, title: string)

  predicate IsRecent(x: ClosedIssue, since: int) {
    x.closedAt.Some? && x.closedAt.value >= since && Contains(x.title, Marker)
  }

  /** `title.replace('Update runtime for ', '')` */
  function ClosedId(title: string): string {
    ReplaceAll(title, TitlePrefix, "")
  }

  function RecentOf(issues: seq<ClosedIssue>, since: int): seq<RecentItem> {
    if |issues| == 0 then []
    else
      var x := issues[|issues| - 1];
      RecentOf(issues[..|issues| - 1], since)
      + if IsRecent(x, since) then [RecentItem(ClosedId(x.title), x.number, x.closedAt.value, x.title)] else []
  }

  /** The recently closed runtime issues in listing order; a failed listing gives none. */
  method RecentlyClosed(issues: seq<ClosedIssue>, since: int, listFails: bool) returns (recent: seq<RecentItem>)
    ensures recent == if listFails then [] else RecentOf(issues, since)
  {
    if listFails {
      return [];
    }
    recent := [];
    for i := 0 to |issues|
      invariant recent == RecentOf(issues[..i], since)
    {
      var x := issues[i];
      assert issues[..i + 1][..i] == issues[..i];
      if x.closedAt.Some? && x.closedAt.value >= since && Contains(x.title, Marker) {
        recent := recent + [RecentItem(ClosedId(x.title), x.number, x.closedAt.value, x.title)];
      }
    }
    assert issues[..|issues|] == issues;
  }

  /** The title `create_issue` gives an id without the prefix inside it gives the id back. */
  lemma ClosedIdRoundTrip(id: string)
    requires !Contains(id, TitlePrefix)
    ensures ClosedId(Title(id)) == id
  {
    var t := Title(id);
    assert t[..|TitlePrefix|] == TitlePrefix && t[|TitlePrefix|..] == id;
    ReplaceAbsent(id, TitlePrefix, "");
  }

  /** A closed runtime issue of an `app/` id is listed with that id once it closed at or after `since`. */
  lemma RecentRoundTrip(id: string, number: nat, closedAt: int, since: int)
    requires StartsWith(id, "app/") && !Contains(id, TitlePrefix) && closedAt >= since
    ensures RecentOf([ClosedIssue(number, Title(id), Some(closedAt))], since)
         == [RecentItem(id, number, closedAt, Title(id))]
  {
    var t := Title(id);
    OccursSplit(t, 0, TitlePrefix, "app/");
    assert t[..|TitlePrefix|] == TitlePrefix && t[|TitlePrefix|..] == id;
    assert OccursAt(t, 0, TitlePrefix) && OccursAt(t, |TitlePrefix|, "app/");
    ContainsSlice(t, 0, Marker);
    ClosedIdRoundTrip(id);
    assert [ClosedIssue(number, t, Some(closedAt))][..0] == [];
  }

  // ---------------------------------------------------------------------
  // generate_changelog_section (what it lists)

  datatype WeekSection = WeekSection(
    recentShown: seq<RecentItem>,
    recentMore: seq<RecentItem>,
    popular: seq<Pending>,
    popularShown: seq<Pending>,
    popularMore: seq<Pending>,
    standard: seq<Pending>)

  function InPopular(popularIds: set<string>): Pending -> bool {
    (p: Pending) => p.pkg.flatpakId in popularIds
  }

  /**
   * The first 15 recently closed issues and the rest, and the popular pending
   * packages with the first 10 of them shown.
   */
  function WeekSectionOf(packages: seq<Pending>, recent: seq<RecentItem>, popularIds: set<string>): (w: WeekSection)
    ensures w.recentShown + w.recentMore == recent
    ensures |w.recentShown| == if |recent| < 15 then |recent| else 15
    ensures w.popularShown + w.popularMore == w.popular
    ensures |w.popularShown| == if |w.popular| < 10 then |w.popular| else 10
  {
    var popular := Filter(packages, InPopular(popularIds));
    var standard := Filter(packages, Not(InPopular(popularIds)));
    WeekSection(Take(recent, 15), Drop(recent, 15), popular, Take(popular, 10), Drop(popular, 10), standard)
  }

  /** Popular and standard packages split the pending ones, each list in input order. */
  lemma WeekSplit(packages: seq<Pending>, recent: seq<RecentItem>, popularIds: set<string>)
    ensures var w := WeekSectionOf(packages, recent, popularIds);
      && (forall p :: p in w.popular <==> p in packages && p.pkg.flatpakId in popularIds)
      && (forall p :: p in w.standard <==> p in packages && p.pkg.flatpakId !in popularIds)
      && multiset(w.popular) + multiset(w.standard) == multiset(packages)
      && |w.popular| + |w.standard| == |packages|
  {
    FilterSplit(packages, InPopular(popularIds));
  }

  // ---------------------------------------------------------------------
  // build_historical_snapshots and generate_historical_changelog_sections

  /** A successful scheduled run: its id and creation date. */
  datatype RunInfo = RunInfo(id: int, createdAt: int)

  /** The snapshot of one run, when its artifact could be downloaded. */
  function LoadRun(download: int -> Option<Record>): RunInfo -> Option<Snapshot> {
    (run: RunInfo) =>
      match download(run.id)
      case Some(r) => Some(SnapshotOf(run.createdAt, run.id, r))
      case None => None
  }

  /** The runs whose artifact could be downloaded. */
  function Downloadable(download: int -> Option<Record>): RunInfo -> bool {
    (run: RunInfo) => download(run.id).Some?
  }

  /** The snapshots of the runs whose artifact could be downloaded, in run order. */
  function Loaded(runs: seq<RunInfo>, download: int -> Option<Record>): (snaps: seq<Snapshot>)
    ensures |snaps| <= |runs|
  {
    FilterMap(runs, LoadRun(download))
  }

  /**
   * One snapshot per downloadable run, in run order, each made from that
   * run's id, date and downloaded record.
   */
  lemma LoadedRuns(runs: seq<RunInfo>, download: int -> Option<Record>)
    ensures |Loaded(runs, download)| == |Filter(runs, Downloadable(download))|
    ensures forall k :: 0 <= k < |Loaded(runs, download)| ==>
      && download(Filter(runs, Downloadable(download))[k].id).Some?
      && Loaded(runs, download)[k] ==
           SnapshotOf(Filter(runs, Downloadable(download))[k].createdAt, Filter(runs, Downloadable(download))[k].id,
                      download(Filter(runs, Downloadable(download))[k].id).value)
  {
    FilterMapIsFilter(runs, LoadRun(download), Downloadable(download));
  }

  method BuildHistoricalSnapshots(runs: seq<RunInfo>, download: int -> Option<Record>) returns (snaps: seq<Snapshot>)
    ensures snaps == OldestFirst(Loaded(runs, download))
  {
    snaps := [];
    for i := 0 to |runs|
      invariant snaps == Loaded(runs[..i], download)
    {
      assert runs[..i + 1][..i] == runs[..i];
      var data := download(runs[i].id);
      if data.Some? {
        snaps := snaps + [SnapshotOf(runs[i].createdAt, runs[i].id, data.value)];
      }
    }
    assert runs[..|runs|] == runs;
    snaps := OldestFirst(snaps);
  }

  /** The lists of one historical section, each `sorted(...)`. */
  datatype HistorySection = HistorySection(runDate: int, updated: seq<string>, added: seq<string>, removed: seq<string>)

  function SectionOf(older: Snapshot, newer: Snapshot): HistorySection {
    var c := DetectChanges(older, newer);
    HistorySection(newer.runDate, SortedSeq(c.updated), SortedSeq(c.added), SortedSeq(c.removed))
  }

  /** The loop body of `generate_historical_changelog_sections`: the section of one consecutive pair, if anything changed between them. */
  function PairSections(older: Snapshot, newer: Snapshot): seq<HistorySection> {
    if HasChanges(DetectChanges(older, newer)) then [SectionOf(older, newer)] else []
  }

  /** The sections `pair` makes of the first `n` consecutive pairs, oldest pair first. */
  function Consecutive(snaps: seq<Snapshot>, n: nat, pair: (Snapshot, Snapshot) -> seq<HistorySection>): seq<HistorySection>
    requires n < |snaps|
  {
    if n == 0 then [] else Consecutive(snaps, n - 1, pair) + pair(snaps[n - 1], snaps[n])
  }

  /** Newest first: the changed consecutive pairs, reversed. */
  function History(snaps: seq<Snapshot>): seq<HistorySection> {
    if |snaps| < 2 then [] else Reverse(Consecutive(snaps, |snaps| - 1, PairSections))
  }

  method HistoricalSections(snaps: seq<Snapshot>) returns (sections: seq<HistorySection>)
    ensures sections == History(snaps)
  {
    if |snaps| < 2 {
      return [];
    }
    var acc: seq<HistorySection> := [];
    var i := 0;
    while i < |snaps| - 1
      invariant 0 <= i <= |snaps| - 1
      invariant acc == Consecutive(snaps, i, PairSections)
    {
      acc := acc + PairSections(snaps[i], snaps[i + 1]);
      i := i + 1;
    }
    sections := Reverse(acc);
  }

  /** A section worth printing: something changed, and each list is sorted without repeats. */
  predicate Listed(s: HistorySection) {
    (s.updated != [] || s.added != [] || s.removed != [])
    && StrictlySorted(s.updated) && StrictlySorted(s.added) && StrictlySorted(s.removed)
  }

  /** A pair yields a section only when it changed, and that section is `Listed`. */
  lemma PairSectionsListed(older: Snapshot, newer: Snapshot)
    ensures var ps := PairSections(older, newer);
      && |ps| <= 1
      && (|ps| == 1 <==> HasChanges(DetectChanges(older, newer)))
      && forall k :: 0 <= k < |ps| ==> Listed(ps[k]) && ps[k].runDate == newer.runDate
  {
    var c := DetectChanges(older, newer);
    if HasChanges(c) {
      SortedSeqShape(c.updated);
      SortedSeqShape(c.added);
      SortedSeqShape(c.removed);
      var s := SectionOf(older, newer);
      assert s.runDate == newer.runDate;
      assert StrictlySorted(s.updated) && StrictlySorted(s.added) && StrictlySorted(s.removed);
      assert s.updated != [] || s.added != [] || s.removed != [] by {
        if c.updated != {} {
          var x :| x in c.updated;
          assert x in s.updated;
        } else if c.added != {} {
          var x :| x in c.added;
          assert x in s.added;
        } else {
          var x :| x in c.removed;
          assert x in s.removed;
        }
      }
      assert Listed(s);
      assert PairSections(older, newer) == [s];
    }
  }

  /** What `PairSectionsListed` shows of one pair, for every pair. */
  ghost predicate PairWise(pair: (Snapshot, Snapshot) -> seq<HistorySection>) {
    forall older, newer :: |pair(older, newer)| <= 1
      && forall k :: 0 <= k < |pair(older, newer)| ==>
           Listed(pair(older, newer)[k]) && pair(older, newer)[k].runDate == newer.runDate
  }

  lemma PairSectionsWise()
    ensures PairWise(PairSections)
  {
    forall older, newer
      ensures |PairSections(older, newer)| <= 1
      ensures forall k :: 0 <= k < |PairSections(older, newer)| ==>
        Listed(PairSections(older, newer)[k]) && PairSections(older, newer)[k].runDate == newer.runDate
    {
      PairSectionsListed(older, newer);
    }
  }

  lemma {:induction false} ConsecutiveLists(snaps: seq<Snapshot>, n: nat, pair: (Snapshot, Snapshot) -> seq<HistorySection>)
    requires n < |snaps| && PairWise(pair)
    ensures |Consecutive(snaps, n, pair)| <= n
    ensures forall k :: 0 <= k < |Consecutive(snaps, n, pair)| ==> Listed(Consecutive(snaps, n, pair)[k])
  {
    if n > 0 {
      ConsecutiveLists(snaps, n - 1, pair);
      var prev := Consecutive(snaps, n - 1, pair);
      var ps := pair(snaps[n - 1], snaps[n]);
      assert Consecutive(snaps, n, pair) == prev + ps;
    }
  }

  lemma {:induction false} ConsecutiveDates(snaps: seq<Snapshot>, n: nat, pair: (Snapshot, Snapshot) -> seq<HistorySection>)
    requires n < |snaps| && PairWise(pair)
    requires SortedBy(snaps, RunDate, IntLt)
    ensures forall k :: 0 <= k < |Consecutive(snaps, n, pair)| ==> Consecutive(snaps, n, pair)[k].runDate <= snaps[n].runDate
    ensures forall j, k :: 0 <= j < k < |Consecutive(snaps, n, pair)| ==>
      Consecutive(snaps, n, pair)[j].runDate <= Consecutive(snaps, n, pair)[k].runDate
  {
    if n > 0 {
      var prev := Consecutive(snaps, n - 1, pair);
      ConsecutiveDates(snaps, n - 1, pair);
      assert forall k :: 0 <= k < |prev| ==> prev[k].runDate <= snaps[n - 1].runDate;
      assert snaps[n - 1].runDate <= snaps[n].runDate by {
        assert !IntLt(RunDate(snaps[n]), RunDate(snaps[n - 1]));
      }
      var ps := pair(snaps[n - 1], snaps[n]);
      var cs := Consecutive(snaps, n, pair);
      assert cs == prev + ps;
      forall k | 0 <= k < |cs| ensures cs[k].runDate <= snaps[n].runDate {
        if k < |prev| {
          assert cs[k] == prev[k];
        } else {
          assert cs[k] == ps[k - |prev|];
        }
      }
      forall j, k | 0 <= j < k < |cs| ensures cs[j].runDate <= cs[k].runDate {
        assert cs[j] == prev[j];
        if k < |prev| {
          assert cs[k] == prev[k];
        } else {
          assert cs[k] == ps[k - |prev|];
        }
      }
    }
  }

  /**
   * No history below two snapshots; otherwise at most one section per
   * consecutive pair, each with a change and sorted ids.
   */
  lemma HistoryShape(snaps: seq<Snapshot>)
    ensures |snaps| < 2 ==> History(snaps) == []
    ensures |snaps| >= 2 ==> |History(snaps)| <= |snaps| - 1
    ensures forall k :: 0 <= k < |History(snaps)| ==> Listed(History(snaps)[k])
  {
    if |snaps| >= 2 {
      var n := |snaps| - 1;
      var cs := Consecutive(snaps, n, PairSections);
      assert |cs| <= n && forall k :: 0 <= k < |cs| ==> Listed(cs[k]) by {
        PairSectionsWise();
        ConsecutiveLists(snaps, n, PairSections);
      }
      var h := Reverse(cs);
      assert History(snaps) == h;
      forall k | 0 <= k < |h| ensures Listed(h[k]) {
        ReverseAt(cs, k);
      }
    }
  }

  /** When the snapshots are oldest first, the history is newest first. */
  lemma HistoryNewestFirst(snaps: seq<Snapshot>)
    requires SortedBy(snaps, RunDate, IntLt)
    ensures forall j, k :: 0 <= j < k < |History(snaps)| ==> History(snaps)[j].runDate >= History(snaps)[k].runDate
  {
    if |snaps| >= 2 {
      var n := |snaps| - 1;
      var cs := Consecutive(snaps, n, PairSections);
      assert forall j, k :: 0 <= j < k < |cs| ==> cs[j].runDate <= cs[k].runDate by {
        PairSectionsWise();
        ConsecutiveDates(snaps, n, PairSections);
      }
      var h := Reverse(cs);
      assert History(snaps) == h;
      forall j, k | 0 <= j < k < |h| ensures h[j].runDate >= h[k].runDate {
        ReverseAt(cs, j);
        ReverseAt(cs, k);
      }
    }
  }

  /** Whether anything changed between two consecutive snapshots. */
  predicate PairChanged(older: Snapshot, newer: Snapshot) {
    HasChanges(DetectChanges(older, newer))
  }

  /** The indices `k < n` whose pair `snaps[k]`, `snaps[k + 1]` passes `test`, in increasing order. */
  function ChangedAt(snaps: seq<Snapshot>, n: nat, test: (Snapshot, Snapshot) -> bool): (ks: seq<nat>)
    requires n < |snaps|
    ensures forall i :: 0 <= i < |ks| ==> ks[i] < n
  {
    if n == 0 then [] else ChangedAt(snaps, n - 1, test) + (if test(snaps[n - 1], snaps[n]) then [n - 1] else [])
  }

  /** `ChangedAt` lists, in strictly increasing order, exactly the pairs that pass `test`. */
  lemma {:induction false} ChangedAtShape(snaps: seq<Snapshot>, n: nat, test: (Snapshot, Snapshot) -> bool)
    requires n < |snaps|
    ensures forall i, j :: 0 <= i < j < |ChangedAt(snaps, n, test)| ==> ChangedAt(snaps, n, test)[i] < ChangedAt(snaps, n, test)[j]
    ensures forall k :: 0 <= k < n ==> (k in ChangedAt(snaps, n, test) <==> test(snaps[k], snaps[k + 1]))
  {
    if n > 0 {
      ChangedAtShape(snaps, n - 1, test);
    }
  }

  /**
   * When `pair` yields `sec` of a pair exactly when `test` passes, the sections
   * of the first `n` pairs are `sec` of the pairs `ChangedAt` lists, in order.
   */
  lemma {:induction false} ConsecutiveAt(snaps: seq<Snapshot>, n: nat, pair: (Snapshot, Snapshot) -> seq<HistorySection>,
                                         test: (Snapshot, Snapshot) -> bool, sec: (Snapshot, Snapshot) -> HistorySection)
    requires n < |snaps|
    requires forall older, newer :: pair(older, newer) == if test(older, newer) then [sec(older, newer)] else []
    ensures |Consecutive(snaps, n, pair)| == |ChangedAt(snaps, n, test)|
    ensures forall i :: 0 <= i < |ChangedAt(snaps, n, test)| ==>
      Consecutive(snaps, n, pair)[i] == sec(snaps[ChangedAt(snaps, n, test)[i]], snaps[ChangedAt(snaps, n, test)[i] + 1])
  {
    if n > 0 {
      ConsecutiveAt(snaps, n - 1, pair, test, sec);
      var prev := Consecutive(snaps, n - 1, pair);
      var ks := ChangedAt(snaps, n - 1, test);
      assert Consecutive(snaps, n, pair) == prev + pair(snaps[n - 1], snaps[n]);
      assert ChangedAt(snaps, n, test) == ks + (if test(snaps[n - 1], snaps[n]) then [n - 1] else []);
    }
  }

  /** The consecutive pairs of `snaps` that changed, oldest first. */
  function ChangedPairs(snaps: seq<Snapshot>): seq<nat> {
    if |snaps| < 2 then [] else ChangedAt(snaps, |snaps| - 1, PairChanged)
  }

  /** The changed pairs are listed once each, oldest first, and no other pair is. */
  lemma ChangedPairsShape(snaps: seq<Snapshot>)
    ensures forall i :: 0 <= i < |ChangedPairs(snaps)| ==> ChangedPairs(snaps)[i] + 1 < |snaps|
    ensures forall i, j :: 0 <= i < j < |ChangedPairs(snaps)| ==> ChangedPairs(snaps)[i] < ChangedPairs(snaps)[j]
    ensures forall k :: 0 <= k < |snaps| - 1 ==> (k in ChangedPairs(snaps) <==> PairChanged(snaps[k], snaps[k + 1]))
  {
    if |snaps| >= 2 {
      ChangedAtShape(snaps, |snaps| - 1, PairChanged);
    }
  }

  /** The consecutive sections `pair` makes, newest first, are `sec` of the listed pairs, newest first. */
  lemma ReversedAt(snaps: seq<Snapshot>, n: nat, pair: (Snapshot, Snapshot) -> seq<HistorySection>,
                   test: (Snapshot, Snapshot) -> bool, sec: (Snapshot, Snapshot) -> HistorySection)
    requires n < |snaps|
    requires forall older, newer :: pair(older, newer) == if test(older, newer) then [sec(older, newer)] else []
    ensures |Reverse(Consecutive(snaps, n, pair))| == |ChangedAt(snaps, n, test)|
    ensures forall i :: 0 <= i < |ChangedAt(snaps, n, test)| ==>
      Reverse(Consecutive(snaps, n, pair))[i] ==
        sec(snaps[ChangedAt(snaps, n, test)[|ChangedAt(snaps, n, test)| - 1 - i]],
            snaps[ChangedAt(snaps, n, test)[|ChangedAt(snaps, n, test)| - 1 - i] + 1])
  {
    ConsecutiveAt(snaps, n, pair, test, sec);
    var cs := Consecutive(snaps, n, pair);
    forall i | 0 <= i < |cs| {
      ReverseAt(cs, i);
    }
  }

  /** `PairSections` yields the section of a pair exactly when the pair changed. */
  lemma PairSectionsSplit()
    ensures forall older, newer :: PairSections(older, newer) == if PairChanged(older, newer) then [SectionOf(older, newer)] else []
  {
  }

  /**
   * The history holds one section per changed consecutive pair and no other:
   * the section of the newest changed pair first, that of the oldest last.
   */
  lemma HistoryExact(snaps: seq<Snapshot>)
    ensures |History(snaps)| == |ChangedPairs(snaps)|
    ensures forall i :: 0 <= i < |History(snaps)| ==>
      History(snaps)[i] == SectionOf(snaps[ChangedPairs(snaps)[|ChangedPairs(snaps)| - 1 - i]],
                                     snaps[ChangedPairs(snaps)[|ChangedPairs(snaps)| - 1 - i] + 1])
  {
    if |snaps| >= 2 {
      PairSectionsSplit();
      ReversedAt(snaps, |snaps| - 1, PairSections, PairChanged, SectionOf);
    }
  }

  /** A pair's section lists exactly the ids of the three differences. */
  lemma SectionOfShape(older: Snapshot, newer: Snapshot)
    ensures var s := SectionOf(older, newer); var c := DetectChanges(older, newer);
      && (forall x :: x in s.updated <==> x in older.outdated && x !in newer.outdated)
      && (forall x :: x in s.added <==> x in newer.tracked && x !in older.tracked)
      && (forall x :: x in s.removed <==> x in older.tracked && x !in newer.tracked)
      && (HasChanges(c) <==> s.updated != [] || s.added != [] || s.removed != [])
  {
    var c := DetectChanges(older, newer);
    SortedSeqShape(c.updated);
    SortedSeqShape(c.added);
    SortedSeqShape(c.removed);
  }

  // ---------------------------------------------------------------------
  // generate_changelog

  datatype Document = Document(dashboard: Dashboard, week: WeekSection, history: seq<HistorySection>)

  /**
   * The changelog of one run: nothing when the record has neither outdated
   * nor tracked packages, the history only when backfilling.
   */
  function GenerateChangelog(r: Record, recent: seq<RecentItem>, backfill: bool, snaps: seq<Snapshot>): (d: Option<Document>)
    ensures d.None? <==> |r.outdatedPackages| == 0 && |r.allTrackedPackages| == 0
    ensures d.Some? ==> d.value.dashboard.needUpdates == |r.outdatedPackages|
    ensures d.Some? && !backfill ==> d.value.history == []
    ensures d.Some? && backfill ==> d.value.history == History(snaps)
    ensures d.Some? ==> d.value.dashboard == DashboardOf(PendingOf(r), r.allTrackedPackages, Grouped(PendingOf(r)))
    ensures d.Some? ==> d.value.week == WeekSectionOf(PendingOf(r), recent, Popular(Grouped(PendingOf(r)), 10))
  {
    var packages := PendingOf(r);
    if |packages| == 0 && |r.allTrackedPackages| == 0 then None
    else
      var g := Grouped(packages);
      var popular := Popular(g, 10);
      Some(Document(DashboardOf(packages, r.allTrackedPackages, g),
                    WeekSectionOf(packages, recent, popular),
                    if backfill then History(snaps) else []))
  }
}

=== FILE: donation.dfy ===
/**
 * check_donation_metadata.py: the donation URL of each tracked app's
 * Flathub metadata is missing, unreachable or fine; the first two are
 * reported in input order and may each get one open `donation-metadata`
 * issue. The metadata fetch and the HEAD request are oracles; so are the
 * failures of the issue listing and of issue creation.
 */
module Donation {
  import opened Wrappers
  import opened Text
  import opened Seqs
  import opened Json
  import opened AppTable

  /** One tracked app and the sources it was found in. */
  datatype Entry = Entry(id: string, sources: seq<string>)

  /** The answer to a HEAD request: a status code, or the text of a request exception. */
  datatype Head = Status(code: int) | Failed(message: string)

  datatype DonationInfo = DonationInfo(
    flatpakId: string,
    sources: seq<string>,
    url: Option<Json>,
    reachable: Option<bool>,
    error: Option<string>)

  // ---------------------------------------------------------------------
  // Classification

  /** `get_donation_url`: `urls.donation` when both keys can be looked up; a TypeError is caught as `None`. */
  function GetDonationUrl(info: Json): Option<Json> {
    match Lookup(info, "urls")
    case Found(urls) =>
      (match Lookup(urls, "donation")
       case Found(url) => Some(url)
       case _ => None)
    case _ => None
  }

  lemma GetDonationUrlShape(info: Json)
    ensures GetDonationUrl(info).Some? <==>
      info.JObj? && "urls" in info.fields && info.fields["urls"].JObj? && "donation" in info.fields["urls"].fields
    ensures GetDonationUrl(info).Some? ==> GetDonationUrl(info).value == info.fields["urls"].fields["donation"]
  {
  }

  /** `check_url_reachable`: reachable below status 400, else the status or the exception text as the error. */
  function Reachability(h: Head): (bool, Option<string>) {
    match h
    case Status(code) => if code < 400 then (true, None) else (false, Some("HTTP " + IntToString(code)))
    case Failed(message) => (false, Some(message))
  }

  lemma ReachabilityShape(h: Head)
    ensures Reachability(h).0 <==> h.Status? && h.code < 400
    ensures Reachability(h).0 <==> Reachability(h).1.None?
    ensures h.Status? && h.code >= 400 ==> Reachability(h).1 == Some("HTTP " + IntToString(h.code))
  {
  }

  const NoUrlMessage := "No donation URL found in metadata"

  /**
   * The loop body of `check_donation_metadata` for one app: nothing when the
   * metadata cannot be fetched or the URL answers, a missing entry for a
   * false URL, an unreachable entry otherwise.
   */
  function Classify(e: Entry, fetch: string -> Option<Json>, head: Json -> Head): Option<DonationInfo> {
    var info := fetch(CleanId(e.id));
    if info.None? || !Truthy(info.value) then None
    else
      var url := GetDonationUrl(info.value);
      if url.None? || !Truthy(url.value) then
        Some(DonationInfo(e.id, e.sources, None, None, Some(NoUrlMessage)))
      else
        var (reachable, error) := Reachability(head(url.value));
        if reachable then None
        else Some(DonationInfo(e.id, e.sources, url, Some(false), error))
  }

  /** A fetched URL is present when the lookup finds a true value. */
  predicate HasUrl(info: Option<Json>) {
    info.Some? && Truthy(info.value)
    && GetDonationUrl(info.value).Some? && Truthy(GetDonationUrl(info.value).value)
  }

  /**
   * An app is reported exactly when its metadata was fetched and its URL is
   * false or does not answer below 400; a missing URL is reported with no
   * URL and no reachability, an unreachable one with its URL, `False` and
   * the error.
   */
  lemma ClassifyShape(e: Entry, fetch: string -> Option<Json>, head: Json -> Head)
    ensures Classify(e, fetch, head).None? <==>
      || fetch(CleanId(e.id)).None? || !Truthy(fetch(CleanId(e.id)).value)
      || (HasUrl(fetch(CleanId(e.id)))
          && Reachability(head(GetDonationUrl(fetch(CleanId(e.id)).value).value)).0)
    ensures Classify(e, fetch, head).Some? ==>
      && Classify(e, fetch, head).value.flatpakId == e.id
      && Classify(e, fetch, head).value.sources == e.sources
      && (Classify(e, fetch, head).value.url.None? <==> !HasUrl(fetch(CleanId(e.id))))
    ensures Classify(e, fetch, head).Some? && Classify(e, fetch, head).value.url.None? ==>
      Classify(e, fetch, head).value.reachable.None? && Classify(e, fetch, head).value.error == Some(NoUrlMessage)
    ensures Classify(e, fetch, head).Some? && Classify(e, fetch, head).value.url.Some? ==>
      && Classify(e, fetch, head).value.reachable == Some(false)
      && Truthy(Classify(e, fetch, head).value.url.value)
      && Classify(e, fetch, head).value.error == Reachability(head(Classify(e, fetch, head).value.url.value)).1
  {
  }

  /** The reports of `entries`, in order. */
  function Checked(entries: seq<Entry>, fetch: string -> Option<Json>, head: Json -> Head): (r: seq<DonationInfo>)
    ensures |r| <= |entries|
  {
    FilterMap(entries, (e: Entry) => Classify(e, fetch, head))
  }

  method CheckDonationMetadata(entries: seq<Entry>, fetch: string -> Option<Json>, head: Json -> Head)
    returns (reports: seq<DonationInfo>)
    ensures reports == Checked(entries, fetch, head)
  {
    reports := [];
    for i := 0 to |entries|
      invariant reports == Checked(entries[..i], fetch, head)
    {
      assert entries[..i + 1][..i] == entries[..i];
      var e := entries[i];
      var info := fetch(CleanId(e.id));
      if info.None? || !Truthy(info.value) {
        continue;
      }
      var url := GetDonationUrl(info.value);
      if url.None? || !Truthy(url.value) {
        reports := reports + [DonationInfo(e.id, e.sources, None, None, Some(NoUrlMessage))];
      } else {
        var (reachable, error) := Reachability(head(url.value));
        if !reachable {
          reports := reports + [DonationInfo(e.id, e.sources, url, Some(false), error)];
        }
      }
    }
    assert entries[..|entries|] == entries;
  }

  function Reported(fetch: string -> Option<Json>, head: Json -> Head): Entry -> bool {
    (e: Entry) => Classify(e, fetch, head).Some?
  }

  /** The reports are those of the reported apps, one each, in input order. */
  lemma CheckedIsFilter(entries: seq<Entry>, fetch: string -> Option<Json>, head: Json -> Head)
    ensures |Checked(entries, fetch, head)| == |Filter(entries, Reported(fetch, head))|
    ensures forall k :: 0 <= k < |Checked(entries, fetch, head)| ==>
      Classify(Filter(entries, Reported(fetch, head))[k], fetch, head) == Some(Checked(entries, fetch, head)[k])
  {
    FilterMapIsFilter(entries, (e: Entry) => Classify(e, fetch, head), Reported(fetch, head));
  }

  // ---------------------------------------------------------------------
  // Summary

  /** `sum(1 for d in reports if d.donation_url is None)` */
  function MissingCount(reports: seq<DonationInfo>): nat {
    if |reports| == 0 then 0
    else MissingCount(reports[..|reports| - 1]) + (if reports[|reports| - 1].url.None? then 1 else 0)
  }

  /** `len(reports) - missing_count` */
  function UnreachableCount(reports: seq<DonationInfo>): int {
    |reports| - MissingCount(reports)
  }

  function UnreachableIn(reports: seq<DonationInfo>): nat {
    if |reports| == 0 then 0
    else UnreachableIn(reports[..|reports| - 1]) + (if reports[|reports| - 1].reachable == Some(false) then 1 else 0)
  }

  /**
   * Every report is missing or unreachable, so the unreachable count of the
   * summary is the number of reports whose URL was found unreachable.
   */
  lemma {:induction false} SummaryCounts(entries: seq<Entry>, fetch: string -> Option<Json>, head: Json -> Head)
    ensures MissingCount(Checked(entries, fetch, head)) + UnreachableIn(Checked(entries, fetch, head))
      == |Checked(entries, fetch, head)|
    ensures UnreachableCount(Checked(entries, fetch, head)) == UnreachableIn(Checked(entries, fetch, head))
  {
    if |entries| > 0 {
      var n := |entries| - 1;
      SummaryCounts(entries[..n], fetch, head);
      var prev := Checked(entries[..n], fetch, head);
      var c := Classify(entries[n], fetch, head);
      ClassifyShape(entries[n], fetch, head);
      if c.Some? {
        var r := prev + [c.value];
        assert Checked(entries, fetch, head) == r;
        assert r[..|r| - 1] == prev;
      } else {
        assert Checked(entries, fetch, head) == prev;
      }
    }
  }

  // ---------------------------------------------------------------------
  // Issues

  /** `f"for {app_id}"`, the text an existing issue's title is searched for. */
  function Marker(id: string): string {
    "for " + CleanId(id)
  }

  /** `create_issue_for_missing_donation`'s title. */
  function Title(d: DonationInfo): string {
    if d.url.None? then "Donation Link missing " + Marker(d.flatpakId)
    else "Donation Link unreachable " + Marker(d.flatpakId)
  }

  /** Both titles carry the marker of their app, so either kind blocks a second issue of either kind. */
  lemma TitleHasMarker(d: DonationInfo)
    ensures Contains(Title(d), Marker(d.flatpakId))
  {
    if d.url.None? {
      ContainsSuffix("Donation Link missing ", Marker(d.flatpakId));
    } else {
      ContainsSuffix("Donation Link unreachable ", Marker(d.flatpakId));
    }
  }

  /** Some open donation issue's title contains the app's marker. */
  predicate HasDonationIssue(titles: seq<string>, id: string) {
    exists k :: 0 <= k < |titles| && Contains(titles[k], Marker(id))
  }

  /** The titles after one attempt: no repository, a match, or a failed creation leave them alone. */
  function CreateOne(titles: seq<string>, repo: bool, d: DonationInfo, listFails: bool, createFails: bool): seq<string> {
    if !repo then titles
    else if !listFails && HasDonationIssue(titles, d.flatpakId) then titles
    else if createFails then titles
    else titles + [Title(d)]
  }

  /**
   * After a successful creation the app has a matching issue, so a later
   * attempt for it (of either kind) adds nothing when its listing succeeds.
   */
  lemma CreateOneBlocks(titles: seq<string>, d: DonationInfo, e: DonationInfo, listFails: bool, createFails: bool)
    requires CleanId(e.flatpakId) == CleanId(d.flatpakId)
    requires |CreateOne(titles, true, d, listFails, createFails)| == |titles| + 1
    ensures HasDonationIssue(CreateOne(titles, true, d, listFails, createFails), e.flatpakId)
    ensures forall cf ::
      (CreateOne(CreateOne(titles, true, d, listFails, createFails), true, e, false, cf)
         == CreateOne(titles, true, d, listFails, createFails))
  {
    var after := CreateOne(titles, true, d, listFails, createFails);
    TitleHasMarker(d);
    assert after[|titles|] == Title(d);
  }

  /** An attempt adds at most one issue, and only with a repository and no match. */
  lemma CreateOneShape(titles: seq<string>, repo: bool, d: DonationInfo, listFails: bool, createFails: bool)
    ensures titles <= CreateOne(titles, repo, d, listFails, createFails)
    ensures |CreateOne(titles, repo, d, listFails, createFails)| == |titles| + 1 <==>
      repo && !createFails && (listFails || !HasDonationIssue(titles, d.flatpakId))
    ensures |CreateOne(titles, repo, d, listFails, createFails)| == |titles| + 1 ==>
      CreateOne(titles, repo, d, listFails, createFails)[|titles|] == Title(d)
  {
  }

  /** The repository's open `donation-metadata` issues, by title. */
  class DonationTracker {
    const repo: bool
    var titles: seq<string>

    constructor (repo: bool, titles: seq<string>)
      ensures this.repo == repo && this.titles == titles
    {
      this.repo := repo;
      this.titles := titles;
    }

    /** `find_existing_donation_issue`; a failed listing finds nothing. */
    method FindExisting(id: string, listFails: bool) returns (found: bool)
      ensures found <==> repo && !listFails && HasDonationIssue(titles, id)
    {
      if !repo || listFails {
        return false;
      }
      var marker := Marker(id);
      var k := 0;
      while k < |titles|
        invariant 0 <= k <= |titles|
        invariant forall j :: 0 <= j < k ==> !Contains(titles[j], marker)
      {
        if Contains(titles[k], marker) {
          return true;
        }
        k := k + 1;
      }
      return false;
    }

    method CreateIssue(d: DonationInfo, listFails: bool, createFails: bool) returns (created: bool)
      modifies this
      ensures titles == CreateOne(old(titles), repo, d, listFails, createFails)
      ensures created <==> |titles| == |old(titles)| + 1
    {
      if !repo {
        return false;
      }
      var existing := FindExisting(d.flatpakId, listFails);
      if existing || createFails {
        return false;
      }
      titles := titles + [Title(d)];
      created := true;
    }

    /** The creation loop of `main`, counting the issues it creates. */
    method CreateIssues(reports: seq<DonationInfo>, listFails: nat -> bool, createFails: nat -> bool) returns (created: nat)
      modifies this
      ensures titles == CreateAll(old(titles), repo, reports, listFails, createFails)
      ensures old(titles) <= titles && created == |titles| - |old(titles)| && created <= |reports|
    {
      created := 0;
      for i := 0 to |reports|
        invariant titles == CreateAll(old(titles), repo, reports[..i], listFails, createFails)
        invariant old(titles) <= titles && created == |titles| - |old(titles)| && created <= i
      {
        assert reports[..i + 1][..i] == reports[..i];
        CreateOneShape(titles, repo, reports[i], listFails(i), createFails(i));
        var ok := CreateIssue(reports[i], listFails(i), createFails(i));
        if ok {
          created := created + 1;
        }
      }
      assert reports[..|reports|] == reports;
    }
  }

  function CreateAll(titles: seq<string>, repo: bool, reports: seq<DonationInfo>,
                     listFails: nat -> bool, createFails: nat -> bool): seq<string> {
    if |reports| == 0 then titles
    else
      var n := |reports| - 1;
      CreateOne(CreateAll(titles, repo, reports[..n], listFails, createFails), repo, reports[n], listFails(n), createFails(n))
  }

  /**
   * Without listing or creation failures, after the loop every reported app
   * has a matching open issue, whether or not this run created it.
   */
  lemma {:induction false} CreateAllCovers(titles: seq<string>, reports: seq<DonationInfo>,
                                           listFails: nat -> bool, createFails: nat -> bool)
    requires forall i :: 0 <= i < |reports| ==> !listFails(i) && !createFails(i)
    ensures forall i :: 0 <= i < |reports| ==>
      HasDonationIssue(CreateAll(titles, true, reports, listFails, createFails), reports[i].flatpakId)
  {
    if |reports| > 0 {
      var n := |reports| - 1;
      CreateAllCovers(titles, reports[..n], listFails, createFails);
      var before := CreateAll(titles, true, reports[..n], listFails, createFails);
      var after := CreateOne(before, true, reports[n], false, false);
      assert before <= after;
      forall i | 0 <= i < |reports|
        ensures HasDonationIssue(after, reports[i].flatpakId)
      {
        if i < n {
          assert reports[..n][i] == reports[i];
          var k :| 0 <= k < |before| && Contains(before[k], Marker(reports[i].flatpakId));
          assert after[k] == before[k];
        } else if !HasDonationIssue(before, reports[n].flatpakId) {
          TitleHasMarker(reports[n]);
          assert after[|before|] == Title(reports[n]);
        } else {
          var k :| 0 <= k < |before| && Contains(before[k], Marker(reports[n].flatpakId));
          assert after[k] == before[k];
        }
      }
    }
  }

  // ---------------------------------------------------------------------
  // Loading the tracked apps

  const TrackedKey := "all_tracked_packages"
  const TrackedSource := "tracked"

  /** The tracked ids of the runtime check's output, or `None` for the loader's caught failures. */
  function TrackedIds(data: Option<Json>): Option<seq<string>> {
    match data
    case Some(JObj(fields)) =>
      if TrackedKey !in fields then Some([])
      else
        (match fields[TrackedKey]
         case JList(items) =>
           if forall k :: 0 <= k < |items| ==> items[k].JStr? then Some(seq(|items|, k requires 0 <= k < |items| => items[k].s))
           else None
         case _ => None)
    case _ => None
  }

  /** `load_flatpaks_from_json`: each distinct id once, in first-seen order, found in `tracked`; nothing on failure. */
  function LoadFlatpaks(data: Option<Json>): seq<Entry> {
    match TrackedIds(data)
    case None => []
    case Some(ids) =>
      var distinct := FirstSeen(ids);
      seq(|distinct|, k requires 0 <= k < |distinct| => Entry(distinct[k], [TrackedSource]))
  }

  lemma LoadFlatpaksShape(data: Option<Json>)
    ensures TrackedIds(data).None? ==> LoadFlatpaks(data) == []
    ensures forall k :: 0 <= k < |LoadFlatpaks(data)| ==> LoadFlatpaks(data)[k].sources == [TrackedSource]
    ensures forall i, j :: 0 <= i < j < |LoadFlatpaks(data)| ==> LoadFlatpaks(data)[i].id != LoadFlatpaks(data)[j].id
    ensures TrackedIds(data).Some? ==> forall id ::
      (exists k :: 0 <= k < |LoadFlatpaks(data)| && LoadFlatpaks(data)[k].id == id) <==> id in TrackedIds(data).value
  {
    if TrackedIds(data).Some? {
      var ids := TrackedIds(data).value;
      FirstSeenShape(ids);
      var distinct := FirstSeen(ids);
      forall id ensures (exists k :: 0 <= k < |LoadFlatpaks(data)| && LoadFlatpaks(data)[k].id == id) <==> id in ids {
        if id in ids {
          assert id in distinct;
          var k :| 0 <= k < |distinct| && distinct[k] == id;
          assert LoadFlatpaks(data)[k].id == id;
        }
      }
    }
  }

  /** `main`'s check run: `None` is the exit with status 1 when no app was loaded. */
  function Run(data: Option<Json>, fetch: string -> Option<Json>, head: Json -> Head): (r: Option<seq<DonationInfo>>)
    ensures r.None? <==> |LoadFlatpaks(data)| == 0
    ensures r.Some? ==> r.value == Checked(LoadFlatpaks(data), fetch, head)
    ensures r.Some? ==> |r.value| <= |LoadFlatpaks(data)|
  {
    var entries := LoadFlatpaks(data);
    if |entries| == 0 then None else Some(Checked(entries, fetch, head))
  }
}

=== FILE: inventory.dfy ===
/**
 * Building the tracked inventory (check_flatpak_runtimes.py,
 * `fetch_flatpak_list`, `_parse_bazaar_yaml`, `get_app_flatpaks`): seven
 * upstream lists in three line formats plus three bazaar YAML configs are
 * normalised to `app/<id>` and merged into an insertion-ordered dictionary
 * from id to the names of the lists it was found in.
 *
 * The HTTP download is the oracle `fetch` (url to body, `None` when the
 * request raises or the status is an error) and YAML parsing is the oracle
 * `yaml` (body to parsed tree, `None` when the document is malformed).
 */
module Inventory {
  import opened Wrappers
  import opened Text
  import opened Seqs
  import opened Json

  datatype Format = AppPrefix | NoPrefix | FullRef | BazaarYaml

  datatype Source = Source(name: string, url: string, format: Format)

  /** The configured sources, in the order they are fetched. */
  const Sources: seq<Source> := [
    Source("bluefin", "https://raw.githubusercontent.com/ublue-os/bluefin/main/flatpaks/system-flatpaks.list", AppPrefix),
    Source("aurora", "https://raw.githubusercontent.com/ublue-os/aurora/main/flatpaks/system-flatpaks.list", NoPrefix),
    Source("bazzite-gnome", "https://raw.githubusercontent.com/ublue-os/bazzite/main/installer/gnome_flatpaks/flatpaks", FullRef),
    Source("bazzite-kde", "https://raw.githubusercontent.com/ublue-os/bazzite/main/installer/kde_flatpaks/flatpaks", FullRef),
    Source("bluefin-bazaar", "https://raw.githubusercontent.com/ublue-os/bluefin/main/system_files/shared/usr/share/ublue-os/bazaar/config.yaml", BazaarYaml),
    Source("aurora-bazaar", "https://raw.githubusercontent.com/ublue-os/aurora/main/system_files/shared/usr/share/ublue-os/bazaar/config.yaml", BazaarYaml),
    Source("bazzite-bazaar", "https://raw.githubusercontent.com/ublue-os/bazzite/main/system_files/desktop/shared/usr/share/ublue-os/bazaar/config.yaml", BazaarYaml)
  ]

  lemma SourceNamesDistinct()
    ensures forall i, j :: 0 <= i < j < |Sources| ==> Sources[i].name != Sources[j].name
  {
  }

  // ---------------------------------------------------------------------
  // Line formats

  /**
   * The id a stripped, non-blank, non-comment line names: the line itself,
   * the line with `app/` in front, or the first two `/`-segments of a full
   * ref (the whole line when it has no `/`).
   */
  function NormaliseLine(format: Format, line: string): (id: string)
    ensures format == FullRef ==> StartsWith(line, id)
    ensures format == FullRef && '/' !in line ==> id == line
  {
    match format
    case AppPrefix => line
    case NoPrefix => "app/" + line
    case FullRef =>
      var parts := Split(line, '/');
      SplitNoSepIff(line, '/');
      if |parts| >= 2 then
        FirstTwoSegmentsPrefix(line);
        parts[0] + "/" + parts[1]
      else
        line
    case BazaarYaml => line
  }

  lemma SplitNoSepIff(s: string, sep: char)
    ensures |Split(s, sep)| == 1 <==> sep !in s
  {
    if sep !in s {
      SplitNoSep(s, sep);
    } else {
      BeforeFirstIsPrefix(s, sep);
      var a := BeforeFirst(s, sep);
      assert s == a + [sep] + s[|a| + 1..];
      SplitCons(a, sep, s[|a| + 1..]);
    }
  }

  lemma FirstTwoSegmentsPrefix(line: string)
    requires |Split(line, '/')| >= 2
    ensures StartsWith(line, Split(line, '/')[0] + "/" + Split(line, '/')[1])
  {
    SplitNoSepIff(line, '/');
    BeforeFirstIsPrefix(line, '/');
    var a := BeforeFirst(line, '/');
    var rest := line[|a| + 1..];
    assert line == a + ['/'] + rest;
    SplitCons(a, '/', rest);
    assert Split(line, '/')[1] == BeforeFirst(rest, '/');
    BeforeFirstIsPrefix(rest, '/');
  }

  /** A full ref `app/<name>/<arch>/<branch>` normalises to `app/<name>`. */
  lemma FullRefGivesAppId(name: string, arch: string, branch: string)
    requires '/' !in name && '/' !in arch
    ensures NormaliseLine(FullRef, "app/" + name + "/" + arch + "/" + branch) == "app/" + name
  {
    var line := "app/" + name + "/" + arch + "/" + branch;
    assert line == "app" + ['/'] + (name + ['/'] + (arch + ['/'] + branch));
    SplitCons("app", '/', name + ['/'] + (arch + ['/'] + branch));
    SplitCons(name, '/', arch + ['/'] + branch);
  }

  /** The ids one raw line contributes: none for blank and `#` lines and for ids outside `app/`. */
  function LineIds(format: Format, raw: string): (ids: seq<string>)
    ensures |ids| <= 1
    ensures forall i :: 0 <= i < |ids| ==> StartsWith(ids[i], "app/")
  {
    var line := Strip(raw);
    if line == "" || StartsWith(line, "#") then []
    else
      var id := NormaliseLine(format, line);
      if StartsWith(id, "app/") then [id] else []
  }

  /** How each list format treats a line that is neither blank nor a comment. */
  lemma LineAcceptance(format: Format, raw: string)
    requires var line := Strip(raw); line != "" && !StartsWith(line, "#")
    ensures format == AppPrefix ==>
      LineIds(format, raw) == if StartsWith(Strip(raw), "app/") then [Strip(raw)] else []
    ensures format == NoPrefix ==> LineIds(format, raw) == ["app/" + Strip(raw)]
    ensures format == FullRef && '/' !in Strip(raw) ==>
      LineIds(format, raw) == if StartsWith(Strip(raw), "app/") then [Strip(raw)] else []
  {
    if format == NoPrefix {
      assert StartsWith("app/" + Strip(raw), "app/");
    }
  }

  /** A blank line or a comment contributes nothing. */
  lemma SkippedLines(format: Format, raw: string)
    requires NoSpace(raw) && (raw == "" || raw[0] == '#')
    ensures LineIds(format, raw) == []
  {
    StripNoSpace(raw);
  }

  function LinesIds(format: Format, lines: seq<string>): (ids: seq<string>)
    ensures |ids| <= |lines|
    ensures forall i :: 0 <= i < |ids| ==> StartsWith(ids[i], "app/")
  {
    if |lines| == 0 then []
    else LinesIds(format, lines[..|lines| - 1]) + LineIds(format, lines[|lines| - 1])
  }

  /** The ids a list body yields: its stripped text split into lines, each line in turn. */
  function ListIds(format: Format, text: string): seq<string> {
    LinesIds(format, Split(Strip(text), '\n'))
  }

  lemma LinesIdsStep(format: Format, lines: seq<string>, i: nat)
    requires i < |lines|
    ensures LinesIds(format, lines[..i + 1]) == LinesIds(format, lines[..i]) + LineIds(format, lines[i])
  {
    assert lines[..i + 1][..i] == lines[..i];
  }

  /** The loop over the lines of a list body (lines 91-113). */
  method ParseList(format: Format, text: string) returns (ids: seq<string>)
    ensures ids == ListIds(format, text)
  {
    var lines := Split(Strip(text), '\n');
    ids := [];
    var i := 0;
    while i < |lines|
      invariant 0 <= i <= |lines|
      invariant ids == LinesIds(format, lines[..i])
    {
      var line := Strip(lines[i]);
      LinesIdsStep(format, lines, i);
      if line != "" && !StartsWith(line, "#") {
        var id := NormaliseLine(format, line);
        if StartsWith(id, "app/") {
          ids := ids + [id];
        }
      }
      i := i + 1;
    }
    assert lines[..|lines|] == lines;
  }

  // ---------------------------------------------------------------------
  // Bazaar configuration

  /** One entry of an `appids` list: a non-blank string, stripped and given `app/` unless it has it. */
  function AppIdEntry(v: Json): (ids: seq<string>)
    ensures |ids| <= 1
    ensures forall i :: 0 <= i < |ids| ==> StartsWith(ids[i], "app/")
  {
    if v.JStr? && Strip(v.s) != "" then
      var id := Strip(v.s);
      if StartsWith(id, "app/") then [id] else ["app/" + id]
    else []
  }

  /** A kept entry is a non-blank string; the id it gives ends where the stripped text ends. */
  lemma AppIdEntryShape(v: Json)
    ensures |AppIdEntry(v)| == 1 <==> v.JStr? && Strip(v.s) != ""
    ensures |AppIdEntry(v)| == 1 ==>
      var id := AppIdEntry(v)[0]; !IsSpace(id[|id| - 1]) && (id == Strip(v.s) || id == "app/" + Strip(v.s))
  {
    if v.JStr? && Strip(v.s) != "" {
      StripShape(v.s);
      var t := Strip(v.s);
      var id := AppIdEntry(v)[0];
      assert id[|id| - 1] == t[|t| - 1];
    }
  }

  function AppIdsOf(items: seq<Json>): (ids: seq<string>)
    ensures |ids| <= |items|
    ensures forall i :: 0 <= i < |ids| ==> StartsWith(ids[i], "app/")
  {
    if |items| == 0 then []
    else AppIdsOf(items[..|items| - 1]) + AppIdEntry(items[|items| - 1])
  }

  lemma AppIdsOfStep(items: seq<Json>, j: nat)
    requires j < |items|
    ensures AppIdsOf(items[..j + 1]) == AppIdsOf(items[..j]) + AppIdEntry(items[j])
  {
    assert items[..j + 1][..j] == items[..j];
  }

  /** A section contributes its `appids` when it is a mapping whose `appids` is a list. */
  function SectionIds(section: Json): seq<string> {
    if section.JObj? && "appids" in section.fields && section.fields["appids"].JList?
    then AppIdsOf(section.fields["appids"].items)
    else []
  }

  function SectionsIds(sections: seq<Json>): (ids: seq<string>)
    ensures forall i :: 0 <= i < |ids| ==> StartsWith(ids[i], "app/")
  {
    if |sections| == 0 then []
    else SectionsIds(sections[..|sections| - 1]) + SectionIds(sections[|sections| - 1])
  }

  /** A mapping whose `sections` is a list. */
  predicate IsBazaarConfig(config: Option<Json>) {
    config.Some? && config.value.JObj? && "sections" in config.value.fields
    && config.value.fields["sections"].JList?
  }

  /** The ids of a parsed bazaar config; any other shape, or a parse failure, gives none. */
  function BazaarIds(config: Option<Json>): (ids: seq<string>)
    ensures forall i :: 0 <= i < |ids| ==> StartsWith(ids[i], "app/")
    ensures !IsBazaarConfig(config) ==> ids == []
  {
    if IsBazaarConfig(config) then SectionsIds(config.value.fields["sections"].items)
    else []
  }

  /** The inner loop of `_parse_bazaar_yaml` over one section (lines 166-175). */
  method ParseSection(section: Json) returns (ids: seq<string>)
    ensures ids == SectionIds(section)
  {
    ids := [];
    if section.JObj? && "appids" in section.fields {
      var appids := section.fields["appids"];
      if appids.JList? {
        var j := 0;
        while j < |appids.items|
          invariant 0 <= j <= |appids.items|
          invariant ids == AppIdsOf(appids.items[..j])
        {
          var appId := appids.items[j];
          var entry := AppIdEntry(appId);
          if appId.JStr? && Strip(appId.s) != "" {
            var id := Strip(appId.s);
            if !StartsWith(id, "app/") {
              id := "app/" + id;
            }
            assert entry == [id];
            ids := ids + [id];
          } else {
            assert entry == [];
          }
          AppIdsOfStep(appids.items, j);
          j := j + 1;
        }
        assert appids.items[..j] == appids.items;
      }
    }
  }

  /** `_parse_bazaar_yaml` after the YAML parse (lines 162-175). */
  method ParseBazaar(config: Option<Json>) returns (ids: seq<string>)
    ensures ids == BazaarIds(config)
  {
    ids := [];
    if config.Some? && config.value.JObj? && "sections" in config.value.fields {
      var sections := config.value.fields["sections"];
      if sections.JList? {
        var i := 0;
        while i < |sections.items|
          invariant 0 <= i <= |sections.items|
          invariant ids == SectionsIds(sections.items[..i])
        {
          var found := ParseSection(sections.items[i]);
          ids := ids + found;
          assert sections.items[..i + 1][..i] == sections.items[..i];
          i := i + 1;
        }
        assert sections.items[..i] == sections.items;
      }
    }
  }

  /** The accepted ids of one downloaded source, in order. */
  function SourceIds(format: Format, text: string, yaml: string -> Option<Json>): (ids: seq<string>)
    ensures forall i :: 0 <= i < |ids| ==> StartsWith(ids[i], "app/")
  {
    if format == BazaarYaml then BazaarIds(yaml(text)) else ListIds(format, text)
  }

  // ---------------------------------------------------------------------
  // Merging into `id -> sources`

  /** One accepted occurrence: an id found in a named source. */
  datatype Entry = Entry(id: string, source: string)

  function EntryIds(es: seq<Entry>): (ids: seq<string>)
    ensures |ids| == |es|
    ensures forall i :: 0 <= i < |es| ==> ids[i] == es[i].id
  {
    if |es| == 0 then [] else EntryIds(es[..|es| - 1]) + [es[|es| - 1].id]
  }

  /** The source names recorded for `id`, one per occurrence, in order. */
  function SourcesFor(es: seq<Entry>, id: string): seq<string> {
    if |es| == 0 then []
    else SourcesFor(es[..|es| - 1], id) + (if es[|es| - 1].id == id then [es[|es| - 1].source] else [])
  }

  function Tag(name: string, ids: seq<string>): seq<Entry> {
    if |ids| == 0 then [] else Tag(name, ids[..|ids| - 1]) + [Entry(ids[|ids| - 1], name)]
  }

  lemma {:induction false} TagAt(name: string, ids: seq<string>)
    ensures |Tag(name, ids)| == |ids|
    ensures forall i :: 0 <= i < |ids| ==> Tag(name, ids)[i] == Entry(ids[i], name)
  {
    if |ids| > 0 {
      TagAt(name, ids[..|ids| - 1]);
    }
  }

  /** What one source contributes: nothing when its download fails. */
  function SourceEntries(s: Source, fetch: string -> Option<string>, yaml: string -> Option<Json>): seq<Entry> {
    match fetch(s.url)
    case None => []
    case Some(text) => Tag(s.name, SourceIds(s.format, text, yaml))
  }

  function EntriesOf(sources: seq<Source>, fetch: string -> Option<string>, yaml: string -> Option<Json>): seq<Entry> {
    FlatMap(sources, (s: Source) => SourceEntries(s, fetch, yaml))
  }

  /** Every accepted occurrence over all sources, in fetch order. */
  function Occurrences(fetch: string -> Option<string>, yaml: string -> Option<Json>): seq<Entry> {
    EntriesOf(Sources, fetch, yaml)
  }

  /**
   * The dictionary built from the occurrences `entries`: its keys are the ids
   * in order of first occurrence, each with its sources in order.
   */
  ghost predicate Merged(keys: seq<string>, sources: map<string, seq<string>>, entries: seq<Entry>) {
    && keys == FirstSeen(EntryIds(entries))
    && (forall k :: k in sources <==> k in keys)
    && (forall k :: k in sources ==> sources[k] == SourcesFor(entries, k))
  }

  /** A repeated id leaves the first-seen order as it was. */
  lemma KeysAfterKnown(keys: seq<string>, entries: seq<Entry>, e: Entry)
    requires keys == FirstSeen(EntryIds(entries)) && e.id in keys
    ensures keys == FirstSeen(EntryIds(entries + [e]))
  {
    FirstSeenShape(EntryIds(entries));
    AppendEntry(entries, e);
  }

  /** A new id goes to the end of the first-seen order, and has no sources yet. */
  lemma KeysAfterNew(keys: seq<string>, entries: seq<Entry>, e: Entry)
    requires keys == FirstSeen(EntryIds(entries)) && e.id !in keys
    ensures keys + [e.id] == FirstSeen(EntryIds(entries + [e]))
    ensures SourcesFor(entries, e.id) == []
  {
    FirstSeenShape(EntryIds(entries));
    AppendEntry(entries, e);
    SourcesForAbsent(entries, e.id);
  }

  /** Appending the occurrence's source to its id's list keeps every list equal to that id's sources. */
  lemma SourcesAfter(sources: map<string, seq<string>>, entries: seq<Entry>, e: Entry)
    requires forall k :: k in sources ==> sources[k] == SourcesFor(entries, k)
    ensures var sources' := sources[e.id := SourcesFor(entries, e.id) + [e.source]];
      forall k :: k in sources' ==> sources'[k] == SourcesFor(entries + [e], k)
  {
    AppendEntry(entries, e);
  }

  /** Adding one occurrence of a known id as lines 118-127 do keeps the dictionary merged. */
  lemma MergedAddKnown(keys: seq<string>, sources: map<string, seq<string>>, entries: seq<Entry>, e: Entry)
    requires Merged(keys, sources, entries) && e.id in sources
    ensures Merged(keys, sources[e.id := sources[e.id] + [e.source]], entries + [e])
  {
    KeysAfterKnown(keys, entries, e);
    SourcesAfter(sources, entries, e);
  }

  /** Adding the first occurrence of an id as lines 118-127 do keeps the dictionary merged. */
  lemma MergedAddNew(keys: seq<string>, sources: map<string, seq<string>>, entries: seq<Entry>, e: Entry)
    requires Merged(keys, sources, entries) && e.id !in sources
    ensures Merged(keys + [e.id], sources[e.id := [e.source]], entries + [e])
  {
    KeysAfterNew(keys, entries, e);
    SourcesAfter(sources, entries, e);
    var keys' := keys + [e.id];
    var sources' := sources[e.id := [e.source]];
    forall k ensures k in sources' <==> k in keys' {
      assert k in keys' <==> k in keys || k == e.id;
    }
  }

  /** Every key of a merged dictionary maps to the sources of its occurrences. */
  lemma MergedLookup(keys: seq<string>, sources: map<string, seq<string>>, entries: seq<Entry>, id: string)
    requires Merged(keys, sources, entries) && id in keys
    ensures id in sources && sources[id] == SourcesFor(entries, id)
  {
  }

  /** `flatpak_dict`: its keys in insertion order and each key's list of sources. */
  class FlatpakDict {
    var keys: seq<string>
    var sources: map<string, seq<string>>
    /** The occurrences added so far. */
    ghost var entries: seq<Entry>

    ghost predicate Valid()
      reads this
    {
      Merged(keys, sources, entries)
    }

    constructor ()
      ensures Valid() && entries == []
    {
      keys := [];
      sources := map[];
      entries := [];
    }

    /** Lines 118-127: append the source to a known id, or add the id with this one source. */
    method Add(id: string, source: string)
      requires Valid()
      modifies this
      ensures Valid()
      ensures entries == old(entries) + [Entry(id, source)]
      ensures id in old(sources) ==> keys == old(keys) && sources == old(sources)[id := old(sources)[id] + [source]]
      ensures id !in old(sources) ==> keys == old(keys) + [id] && sources == old(sources)[id := [source]]
    {
      var e := Entry(id, source);
      if id in sources {
        MergedAddKnown(keys, sources, entries, e);
        sources, entries := sources[id := sources[id] + [source]], entries + [e];
      } else {
        MergedAddNew(keys, sources, entries, e);
        keys, sources, entries := keys + [id], sources[id := [source]], entries + [e];
      }
    }

    /** Lines 118-127: every id a source yielded, in order, recorded against that source. */
    method AddAll(found: seq<string>, source: string)
      requires Valid()
      modifies this
      ensures Valid()
      ensures entries == old(entries) + Tag(source, found)
    {
      var j := 0;
      while j < |found|
        invariant 0 <= j <= |found|
        invariant Valid()
        invariant entries == old(entries) + Tag(source, found[..j])
      {
        Add(found[j], source);
        TagStep(source, found, j);
        j := j + 1;
      }
      assert found[..j] == found;
    }
  }

  /** Appending one occurrence extends the ids by one and one source list by one name. */
  lemma AppendEntry(es: seq<Entry>, e: Entry)
    ensures EntryIds(es + [e]) == EntryIds(es) + [e.id]
    ensures FirstSeen(EntryIds(es + [e])) ==
      if e.id in EntryIds(es) then FirstSeen(EntryIds(es)) else FirstSeen(EntryIds(es)) + [e.id]
    ensures forall k :: SourcesFor(es + [e], k) == SourcesFor(es, k) + (if e.id == k then [e.source] else [])
  {
    var es' := es + [e];
    assert es'[..|es'| - 1] == es;
    assert EntryIds(es') == EntryIds(es) + [e.id];
    assert EntryIds(es')[..|es'| - 1] == EntryIds(es);
  }

  lemma {:induction false} SourcesForAbsent(es: seq<Entry>, id: string)
    requires id !in EntryIds(es)
    ensures SourcesFor(es, id) == []
  {
    if |es| > 0 {
      assert EntryIds(es[..|es| - 1]) == EntryIds(es)[..|es| - 1];
      SourcesForAbsent(es[..|es| - 1], id);
    }
  }

  lemma TagStep(name: string, ids: seq<string>, j: nat)
    requires j < |ids|
    ensures Tag(name, ids[..j + 1]) == Tag(name, ids[..j]) + [Entry(ids[j], name)]
  {
    assert ids[..j + 1][..j] == ids[..j];
  }

  lemma EntriesOfStep(sources: seq<Source>, i: nat, fetch: string -> Option<string>, yaml: string -> Option<Json>)
    requires i < |sources|
    ensures EntriesOf(sources[..i + 1], fetch, yaml) == EntriesOf(sources[..i], fetch, yaml) + SourceEntries(sources[i], fetch, yaml)
  {
    FlatMapStep(sources, (s: Source) => SourceEntries(s, fetch, yaml), i);
  }

  /** `fetch_flatpak_list` (lines 38-151): the configured sources merged in order. */
  method FetchFlatpakList(fetch: string -> Option<string>, yaml: string -> Option<Json>) returns (d: FlatpakDict)
    ensures fresh(d) && d.Valid()
    ensures d.entries == Occurrences(fetch, yaml)
  {
    d := MergeSources(Sources, fetch, yaml);
  }

  /** The loop of `fetch_flatpak_list` over a list of sources; a failing download is skipped. */
  method MergeSources(sources: seq<Source>, fetch: string -> Option<string>, yaml: string -> Option<Json>)
    returns (d: FlatpakDict)
    ensures fresh(d) && d.Valid()
    ensures d.entries == EntriesOf(sources, fetch, yaml)
  {
    d := new FlatpakDict();
    var i := 0;
    while i < |sources|
      invariant 0 <= i <= |sources|
      invariant fresh(d) && d.Valid()
      invariant d.entries == EntriesOf(sources[..i], fetch, yaml)
    {
      var source := sources[i];
      var body := fetch(source.url);
      if body.Some? {
        var found: seq<string>;
        if source.format == BazaarYaml {
          found := ParseBazaar(yaml(body.value));
        } else {
          found := ParseList(source.format, body.value);
        }
        d.AddAll(found, source.name);
      }
      EntriesOfStep(sources, i, fetch, yaml);
      i := i + 1;
    }
    assert sources[..i] == sources;
  }

  // ---------------------------------------------------------------------
  // Properties of the merged inventory

  /** Sum of the lengths of the source lists of `keys`. */
  function TotalSources(keys: seq<string>, es: seq<Entry>): nat {
    if |keys| == 0 then 0 else |SourcesFor(es, keys[0])| + TotalSources(keys[1..], es)
  }

  lemma {:induction false} TotalSourcesStep(keys: seq<string>, es: seq<Entry>, e: Entry)
    requires NoDup(keys)
    ensures TotalSources(keys, es + [e]) == TotalSources(keys, es) + (if e.id in keys then 1 else 0)
  {
    var es' := es + [e];
    assert es'[..|es'| - 1] == es;
    if |keys| > 0 {
      TotalSourcesStep(keys[1..], es, e);
      assert e.id in keys <==> e.id == keys[0] || e.id in keys[1..];
    }
  }

  lemma {:induction false} TotalSourcesAppendKey(keys: seq<string>, k: string, es: seq<Entry>)
    ensures TotalSources(keys + [k], es) == TotalSources(keys, es) + |SourcesFor(es, k)|
  {
    if |keys| > 0 {
      TotalSourcesAppendKey(keys[1..], k, es);
      assert (keys + [k])[1..] == keys[1..] + [k];
    }
  }

  /** Each accepted occurrence adds exactly one source name (line 139): the totals agree. */
  lemma {:induction false} TotalSourcesIsOccurrences(es: seq<Entry>)
    ensures TotalSources(FirstSeen(EntryIds(es)), es) == |es|
  {
    if |es| > 0 {
      var init := es[..|es| - 1];
      var e := es[|es| - 1];
      assert es == init + [e];
      TotalSourcesIsOccurrences(init);
      var keys := FirstSeen(EntryIds(init));
      FirstSeenShape(EntryIds(init));
      assert EntryIds(es)[..|es| - 1] == EntryIds(init);
      TotalSourcesStep(keys, init, e);
      if e.id !in keys {
        TotalSourcesAppendKey(keys, e.id, es);
        SourcesForAbsent(init, e.id);
      }
    }
  }

  /** An id found `n` times over all sources (twice in one source included) lists `n` sources. */
  lemma {:induction false} SourcesForCount(es: seq<Entry>, id: string)
    ensures |SourcesFor(es, id)| == Count(EntryIds(es), id)
  {
    if |es| > 0 {
      SourcesForCount(es[..|es| - 1], id);
      assert EntryIds(es)[..|es| - 1] == EntryIds(es[..|es| - 1]);
    }
  }

  lemma EntriesOfMember(sources: seq<Source>, fetch: string -> Option<string>, yaml: string -> Option<Json>, e: Entry)
    ensures e in EntriesOf(sources, fetch, yaml) <==>
      exists k :: 0 <= k < |sources| && e in SourceEntries(sources[k], fetch, yaml)
  {
    FlatMapMembers(sources, (s: Source) => SourceEntries(s, fetch, yaml), e);
  }

  /** An id is accepted from `sources` when some source among them downloads and yields it. */
  predicate AcceptedFrom(sources: seq<Source>, fetch: string -> Option<string>, yaml: string -> Option<Json>, x: string) {
    exists k :: 0 <= k < |sources| && fetch(sources[k].url).Some?
                && x in SourceIds(sources[k].format, fetch(sources[k].url).value, yaml)
  }

  /** An occurrence from one source names that source and one of the ids its download yields. */
  lemma SourceEntriesMember(s: Source, fetch: string -> Option<string>, yaml: string -> Option<Json>, e: Entry)
    requires e in SourceEntries(s, fetch, yaml)
    ensures fetch(s.url).Some? && e.source == s.name && e.id in SourceIds(s.format, fetch(s.url).value, yaml)
  {
    var ids := SourceIds(s.format, fetch(s.url).value, yaml);
    TagAt(s.name, ids);
    var j :| 0 <= j < |ids| && Tag(s.name, ids)[j] == e;
  }

  lemma KeyFromAcceptedSource(sources: seq<Source>, fetch: string -> Option<string>, yaml: string -> Option<Json>, x: string)
    requires x in EntryIds(EntriesOf(sources, fetch, yaml))
    ensures AcceptedFrom(sources, fetch, yaml, x)
  {
    var es := EntriesOf(sources, fetch, yaml);
    var i :| 0 <= i < |es| && es[i].id == x;
    EntriesOfMember(sources, fetch, yaml, es[i]);
    var k :| 0 <= k < |sources| && es[i] in SourceEntries(sources[k], fetch, yaml);
    SourceEntriesMember(sources[k], fetch, yaml, es[i]);
  }

  /** Every id every successfully downloaded source yields is recorded against that source. */
  lemma FetchedSourceRecorded(sources: seq<Source>, fetch: string -> Option<string>, yaml: string -> Option<Json>, k: nat, id: string)
    requires k < |sources| && fetch(sources[k].url).Some?
    requires id in SourceIds(sources[k].format, fetch(sources[k].url).value, yaml)
    ensures Entry(id, sources[k].name) in EntriesOf(sources, fetch, yaml)
  {
    var ids := SourceIds(sources[k].format, fetch(sources[k].url).value, yaml);
    var j :| 0 <= j < |ids| && ids[j] == id;
    TagAt(sources[k].name, ids);
    assert Tag(sources[k].name, ids)[j] == Entry(id, sources[k].name);
    EntriesOfMember(sources, fetch, yaml, Entry(id, sources[k].name));
  }

  /**
   * The merged keys are exactly the ids accepted from the sources whose
   * download succeeded.
   */
  lemma KeysAreAcceptedIds(sources: seq<Source>, fetch: string -> Option<string>, yaml: string -> Option<Json>, x: string)
    ensures x in FirstSeen(EntryIds(EntriesOf(sources, fetch, yaml))) <==> AcceptedFrom(sources, fetch, yaml, x)
  {
    var es := EntriesOf(sources, fetch, yaml);
    FirstSeenShape(EntryIds(es));
    if x in EntryIds(es) {
      KeyFromAcceptedSource(sources, fetch, yaml, x);
    }
    if AcceptedFrom(sources, fetch, yaml, x) {
      var k :| 0 <= k < |sources| && fetch(sources[k].url).Some?
               && x in SourceIds(sources[k].format, fetch(sources[k].url).value, yaml);
      FetchedSourceRecorded(sources, fetch, yaml, k, x);
      var i :| 0 <= i < |es| && es[i] == Entry(x, sources[k].name);
      assert EntryIds(es)[i] == x;
    }
  }

  /** Over the configured sources: the inventory's keys are the ids some successful download yields. */
  lemma InventoryKeys(fetch: string -> Option<string>, yaml: string -> Option<Json>, x: string)
    ensures x in FirstSeen(EntryIds(Occurrences(fetch, yaml))) <==> AcceptedFrom(Sources, fetch, yaml, x)
  {
    KeysAreAcceptedIds(Sources, fetch, yaml, x);
  }

  /** A source whose download fails contributes nothing, given distinct source names. */
  lemma FailedSourceContributesNothing(sources: seq<Source>, fetch: string -> Option<string>, yaml: string -> Option<Json>, k: nat)
    requires forall i, j :: 0 <= i < j < |sources| ==> sources[i].name != sources[j].name
    requires k < |sources| && fetch(sources[k].url).None?
    ensures forall e :: e in EntriesOf(sources, fetch, yaml) ==> e.source != sources[k].name
  {
    forall e | e in EntriesOf(sources, fetch, yaml) ensures e.source != sources[k].name {
      EntriesOfMember(sources, fetch, yaml, e);
      var m :| 0 <= m < |sources| && e in SourceEntries(sources[m], fetch, yaml);
      SourceEntriesMember(sources[m], fetch, yaml, e);
      assert m == k || sources[m].name != sources[k].name;
    }
  }

  /** For the configured sources: a failed download leaves no trace of that source. */
  lemma FailedDownloadContributesNothing(fetch: string -> Option<string>, yaml: string -> Option<Json>, k: nat)
    requires k < |Sources| && fetch(Sources[k].url).None?
    ensures forall e :: e in Occurrences(fetch, yaml) ==> e.source != Sources[k].name
  {
    SourceNamesDistinct();
    FailedSourceContributesNothing(Sources, fetch, yaml, k);
  }

  /** Every merged key starts with `app/`. */
  lemma KeysAreApps(sources: seq<Source>, fetch: string -> Option<string>, yaml: string -> Option<Json>)
    ensures forall x :: x in FirstSeen(EntryIds(EntriesOf(sources, fetch, yaml))) ==> StartsWith(x, "app/")
  {
    forall x | x in FirstSeen(EntryIds(EntriesOf(sources, fetch, yaml))) ensures StartsWith(x, "app/") {
      KeysAreAcceptedIds(sources, fetch, yaml, x);
      var k :| 0 <= k < |sources| && fetch(sources[k].url).Some?
               && x in SourceIds(sources[k].format, fetch(sources[k].url).value, yaml);
    }
  }

  /** `get_app_flatpaks`: the keys (and their entries) that start with `app/`. */
  function AppKeys(keys: seq<string>): (r: seq<string>)
    ensures forall x :: x in r <==> x in keys && StartsWith(x, "app/")
  {
    Filter(keys, (k: string) => StartsWith(k, "app/"))
  }

  lemma {:induction false} FilterAll(keys: seq<string>)
    requires forall i :: 0 <= i < |keys| ==> StartsWith(keys[i], "app/")
    ensures Filter(keys, (k: string) => StartsWith(k, "app/")) == keys
  {
    if |keys| > 0 {
      FilterAll(keys[1..]);
      assert keys == [keys[0]] + keys[1..];
    }
  }

  /** Since every merged key is an `app/` id, the filter keeps the whole inventory. */
  lemma AppFilterKeepsAll(fetch: string -> Option<string>, yaml: string -> Option<Json>)
    ensures var keys := FirstSeen(EntryIds(Occurrences(fetch, yaml))); AppKeys(keys) == keys
  {
    KeysAreApps(Sources, fetch, yaml);
    FilterAll(FirstSeen(EntryIds(Occurrences(fetch, yaml))));
  }
}

=== FILE: issues.dfy ===
/**
 * The issue generator: one open "runtime-update" issue per outdated package,
 * found again by a substring of its title, and closed once the package is no
 * longer reported. GitHub is a sequence of issues held by a `Tracker`; every
 * call that can fail takes its failure as an input.
 */
module Issues {
  import opened Wrappers
  import opened Text
  import opened Seqs
  import opened Runtimes

  const TitlePrefix := "Update runtime for "
  /** What the extraction pattern requires in front of the id's fifth character. */
  const Marker := TitlePrefix + "app/"

  /** The title `create_issue` gives the issue of a package. */
  function Title(id: string): string {
    TitlePrefix + id
  }

  // ---------------------------------------------------------------------
  // extract_flatpak_id_from_issue_title: re.search(r'Update runtime for (app/[^\s]+)', title)

  /** Length of the longest run of non-whitespace characters of `t` starting at `j`. */
  function NonSpaceRun(t: string, j: nat): (n: nat)
    requires j <= |t|
    ensures j + n <= |t|
    ensures forall k :: j <= k < j + n ==> !IsSpace(t[k])
    ensures j + n == |t| || IsSpace(t[j + n])
    decreases |t| - j
  {
    if j == |t| || IsSpace(t[j]) then 0 else 1 + NonSpaceRun(t, j + 1)
  }

  /** The pattern matches at `i`: the marker followed by at least one non-whitespace character. */
  predicate MatchAt(t: string, i: int) {
    OccursAt(t, i, Marker) && i + |Marker| < |t| && !IsSpace(t[i + |Marker|])
  }

  /** The leftmost match at or after `i`, its group being `app/` and the longest non-whitespace run. */
  function SearchFrom(t: string, i: nat): Option<string>
    decreases |t| - i
  {
    if i + |Marker| >= |t| then None
    else if MatchAt(t, i) then Some(t[i + |TitlePrefix|..i + |Marker| + NonSpaceRun(t, i + |Marker|)])
    else SearchFrom(t, i + 1)
  }

  function ExtractId(title: string): Option<string> {
    SearchFrom(title, 0)
  }

  lemma GroupStartsWithApp(t: string, i: nat, e: nat)
    requires MatchAt(t, i) && i + |Marker| <= e <= |t|
    ensures StartsWith(t[i + |TitlePrefix|..e], "app/")
  {
    OccursSplit(t, i, TitlePrefix, "app/");
    assert t[i + |TitlePrefix|..e][..4] == t[i + |TitlePrefix|..i + |Marker|];
  }

  lemma GroupTitleOccurs(t: string, i: nat, e: nat)
    requires MatchAt(t, i) && i + |Marker| <= e <= |t|
    ensures Contains(t, Title(t[i + |TitlePrefix|..e]))
  {
    var id := t[i + |TitlePrefix|..e];
    OccursSplit(t, i, TitlePrefix, "app/");
    OccursSplit(t, i, TitlePrefix, id);
    ContainsSlice(t, i, Title(id));
  }

  /** The group of a match at `i` is an `app/` id without whitespace, and its title occurs at `i`. */
  lemma MatchGroup(t: string, i: nat)
    requires MatchAt(t, i)
    ensures var id := t[i + |TitlePrefix|..i + |Marker| + NonSpaceRun(t, i + |Marker|)];
      StartsWith(id, "app/") && |id| > 4 && NoSpace(id) && Contains(t, Title(id))
  {
    var e := i + |Marker| + NonSpaceRun(t, i + |Marker|);
    var id := t[i + |TitlePrefix|..e];
    GroupStartsWithApp(t, i, e);
    GroupTitleOccurs(t, i, e);
    forall k | 0 <= k < |id| ensures !IsSpace(id[k]) {
      assert id[k] == t[i + |TitlePrefix| + k];
    }
  }

  lemma {:induction false} SearchFromShape(t: string, i: nat)
    ensures SearchFrom(t, i).Some? <==> exists j :: i <= j && MatchAt(t, j)
    ensures SearchFrom(t, i).Some? ==>
      var id := SearchFrom(t, i).value;
      && StartsWith(id, "app/") && |id| > 4 && NoSpace(id)
      && Contains(t, Title(id))
    decreases |t| - i
  {
    if i + |Marker| >= |t| {
      assert forall j :: i <= j ==> !MatchAt(t, j);
    } else if MatchAt(t, i) {
      MatchGroup(t, i);
    } else {
      SearchFromShape(t, i + 1);
      assert forall j :: i <= j && MatchAt(t, j) ==> i + 1 <= j;
    }
  }

  /** An id is extracted exactly when the title holds a match, and it is one of the ids titles are made from. */
  lemma ExtractIdShape(title: string)
    ensures ExtractId(title).Some? <==> exists i :: MatchAt(title, i)
    ensures ExtractId(title).Some? ==>
      var id := ExtractId(title).value;
      StartsWith(id, "app/") && |id| > 4 && NoSpace(id) && Contains(title, Title(id))
  {
    SearchFromShape(title, 0);
  }

  /** The title of an issue gives back its package's id. */
  lemma TitleRoundTrip(id: string)
    requires StartsWith(id, "app/") && |id| > 4 && NoSpace(id)
    ensures ExtractId(Title(id)) == Some(id)
  {
    var t := Title(id);
    assert t[..|Marker|] == TitlePrefix + id[..4] == Marker;
    assert t[|Marker|] == id[4];
    assert MatchAt(t, 0);
    var n := NonSpaceRun(t, |Marker|);
    assert t[|TitlePrefix|..|Marker| + n] == id;
  }

  // ---------------------------------------------------------------------
  // generate_issue_labels

  /** The runtime family label, `gnome` before `freedesktop` before `kde`. */
  function FamilyLabel(runtimeName: string): seq<string> {
    var low := Lower(runtimeName);
    if Contains(low, "gnome") then ["gnome"]
    else if Contains(low, "freedesktop") then ["freedesktop"]
    else if Contains(low, "kde") then ["kde"]
    else []
  }

  function TargetLabel(latest: string): seq<string> {
    if latest == "" then [] else ["target-" + ReplaceAll(latest, ".", "-")]
  }

  function Labels(p: Outdated): seq<string> {
    var base := ["runtime-update", "automated"] + p.sources;
    if p.currentRuntime != "" && '/' in p.currentRuntime then
      base + FamilyLabel(BeforeFirst(p.currentRuntime, '/')) + TargetLabel(p.latestVersion)
    else base
  }

  /**
   * The labels are the two fixed ones and the sources in order, then at most a
   * family label and a dot-free target label, both only for a ref with a `/`;
   * the target label is the latest version with its dots turned into dashes.
   */
  lemma LabelsShape(p: Outdated)
    ensures var l := Labels(p); var n := 2 + |p.sources|;
      var family := Lower(BeforeFirst(p.currentRuntime, '/'));
      && n <= |l| <= n + 2
      && l[..n] == ["runtime-update", "automated"] + p.sources
      && ('/' !in p.currentRuntime ==> |l| == n)
      && ("gnome" in l[n..] <==> '/' in p.currentRuntime && Contains(family, "gnome"))
      && ("freedesktop" in l[n..] <==>
            '/' in p.currentRuntime && !Contains(family, "gnome") && Contains(family, "freedesktop"))
      && ("kde" in l[n..] <==>
            '/' in p.currentRuntime && !Contains(family, "gnome") && !Contains(family, "freedesktop")
            && Contains(family, "kde"))
      && (|l| > n && StartsWith(l[|l| - 1], "target-") <==> '/' in p.currentRuntime && p.latestVersion != "")
      && ('/' in p.currentRuntime && p.latestVersion != "" ==>
            l[|l| - 1] == "target-" + ReplaceAll(p.latestVersion, ".", "-"))
      && (forall k :: n <= k < |l| && StartsWith(l[k], "target-") ==> '.' !in l[k])
  {
    LabelsTail(p);
    LabelsFamily(p);
    LabelsTarget(p);
  }

  /** After the fixed labels and the sources come the family and target labels of a ref with a `/`. */
  lemma LabelsTail(p: Outdated)
    ensures var l := Labels(p); var n := 2 + |p.sources|;
      && n <= |l|
      && l[..n] == ["runtime-update", "automated"] + p.sources
      && l[n..] == if '/' in p.currentRuntime
                   then FamilyLabel(BeforeFirst(p.currentRuntime, '/')) + TargetLabel(p.latestVersion)
                   else []
  {
  }

  lemma LabelsFamily(p: Outdated)
    ensures var l := Labels(p); var n := 2 + |p.sources|;
      var family := Lower(BeforeFirst(p.currentRuntime, '/'));
      && n <= |l|
      && ("gnome" in l[n..] <==> '/' in p.currentRuntime && Contains(family, "gnome"))
      && ("freedesktop" in l[n..] <==>
            '/' in p.currentRuntime && !Contains(family, "gnome") && Contains(family, "freedesktop"))
      && ("kde" in l[n..] <==>
            '/' in p.currentRuntime && !Contains(family, "gnome") && !Contains(family, "freedesktop")
            && Contains(family, "kde"))
  {
    LabelsTail(p);
    if '/' in p.currentRuntime {
      var fam := FamilyLabel(BeforeFirst(p.currentRuntime, '/'));
      var tgt := TargetLabel(p.latestVersion);
      FamilyLabelShape(BeforeFirst(p.currentRuntime, '/'));
      TargetLabelNoFamily(p.latestVersion);
      assert forall x :: x in fam + tgt <==> x in fam || x in tgt;
    }
  }

  lemma FamilyLabelShape(runtimeName: string)
    ensures var low := Lower(runtimeName); var l := FamilyLabel(runtimeName);
      && ("gnome" in l <==> Contains(low, "gnome"))
      && ("freedesktop" in l <==> !Contains(low, "gnome") && Contains(low, "freedesktop"))
      && ("kde" in l <==> !Contains(low, "gnome") && !Contains(low, "freedesktop") && Contains(low, "kde"))
  {
  }

  lemma TargetLabelNoFamily(latest: string)
    ensures forall x :: x in TargetLabel(latest) ==> x != "gnome" && x != "freedesktop" && x != "kde"
  {
    if latest != "" {
      var x := TargetLabel(latest)[0];
      assert x[0] == 't';
    }
  }

  lemma LabelsTarget(p: Outdated)
    ensures var l := Labels(p); var n := 2 + |p.sources|;
      && n <= |l| <= n + 2
      && ('/' !in p.currentRuntime ==> |l| == n)
      && (|l| > n && StartsWith(l[|l| - 1], "target-") <==> '/' in p.currentRuntime && p.latestVersion != "")
      && ('/' in p.currentRuntime && p.latestVersion != "" ==>
            l[|l| - 1] == "target-" + ReplaceAll(p.latestVersion, ".", "-"))
      && (forall k :: n <= k < |l| && StartsWith(l[k], "target-") ==> '.' !in l[k])
  {
    LabelsTail(p);
    var n := 2 + |p.sources|;
    var l := Labels(p);
    if '/' in p.currentRuntime {
      var fam := FamilyLabel(BeforeFirst(p.currentRuntime, '/'));
      var tgt := TargetLabel(p.latestVersion);
      assert l[n..] == fam + tgt;
      if p.latestVersion != "" {
        ReplaceCharRemoves(p.latestVersion, '.', "-");
        assert '.' !in "target-";
        assert tgt[0][..7] == "target-" && tgt[0][0] == 't';
      }
      if fam != [] {
        assert fam[0][0] != 't';
      }
    }
  }

  // ---------------------------------------------------------------------
  // The tracker

  datatype Issue = Issue(title: string, labels: seq<string>, open: bool, comments: nat)

  /** What `get_issues(state='open', labels=['runtime-update'])` lists. */
  predicate Listed(x: Issue) {
    x.open && "runtime-update" in x.labels
  }

  /** Some listed issue's title contains `id` as a substring. */
  predicate HasOpenIssue(issues: seq<Issue>, id: string) {
    exists k :: 0 <= k < |issues| && Listed(issues[k]) && Contains(issues[k].title, id)
  }

  function NewIssue(p: Outdated): Issue {
    Issue(Title(p.flatpakId), Labels(p), true, 0)
  }

  /** `create_issue`, with the failure of the lookup and of the creation as inputs. */
  function CreateOne(issues: seq<Issue>, p: Outdated, listFails: bool, createFails: bool): seq<Issue> {
    if listFails || HasOpenIssue(issues, p.flatpakId) || createFails then issues
    else issues + [NewIssue(p)]
  }

  /** How closing one issue goes: both calls succeed, or the comment or the edit raises. */
  datatype CloseResult = Closes | CommentFails | EditFails

  /** A listed issue whose id is extracted and is not among the current packages. */
  predicate Resolved(x: Issue, current: seq<string>) {
    Listed(x) && ExtractId(x.title).Some? && ExtractId(x.title).value !in current
  }

  /** Closing touches only a resolved issue, and only a successful close makes it not open. */
  function CloseOne(x: Issue, current: seq<string>, r: CloseResult): (y: Issue)
    ensures y.title == x.title && y.labels == x.labels
    ensures y.open <==> x.open && !(Resolved(x, current) && r.Closes?)
    ensures !Resolved(x, current) ==> y == x
  {
    if !Resolved(x, current) then x
    else match r
      case Closes => x.(open := false, comments := x.comments + 1)
      case EditFails => x.(comments := x.comments + 1)
      case CommentFails => x
  }

  /**
   * `close_resolved_issues` when listing succeeds: exactly the resolved issues
   * whose closing goes through are closed; nothing else changes state.
   */
  function CloseAll(issues: seq<Issue>, current: seq<string>, outcome: nat -> CloseResult): (r: seq<Issue>)
    ensures |r| == |issues|
    ensures forall k :: 0 <= k < |r| ==>
      && r[k].title == issues[k].title && r[k].labels == issues[k].labels
      && (r[k].open <==> issues[k].open && !(Resolved(issues[k], current) && outcome(k).Closes?))
      && (!Resolved(issues[k], current) ==> r[k] == issues[k])
  {
    var r := seq(|issues|, k requires 0 <= k < |issues| => CloseOne(issues[k], current, outcome(k)));
    assert forall k :: 0 <= k < |r| ==> r[k] == CloseOne(issues[k], current, outcome(k));
    r
  }

  /** The failures each GitHub call of a run meets, by position. */
  datatype Failures = Failures(
    closeListFails: bool,
    closeOutcome: nat -> CloseResult,
    listFails: nat -> bool,
    createFails: nat -> bool)

  /** The create loop of `main` over `ps`. */
  function CreateAll(issues: seq<Issue>, ps: seq<Outdated>, f: Failures): seq<Issue> {
    if |ps| == 0 then issues
    else
      var i := |ps| - 1;
      CreateOne(CreateAll(issues, ps[..i], f), ps[i], f.listFails(i), f.createFails(i))
  }

  lemma CreateAllStep(issues: seq<Issue>, ps: seq<Outdated>, i: nat, f: Failures)
    requires i < |ps|
    ensures CreateAll(issues, ps[..i + 1], f)
         == CreateOne(CreateAll(issues, ps[..i], f), ps[i], f.listFails(i), f.createFails(i))
  {
    assert ps[..i + 1][..i] == ps[..i];
  }

  function CloseStage(issues: seq<Issue>, ids: seq<string>, f: Failures): seq<Issue> {
    if f.closeListFails then issues else CloseAll(issues, ids, f.closeOutcome)
  }

  /** `main`: nothing for an empty list, else close the resolved issues and then create. */
  function RunResult(issues: seq<Issue>, packages: seq<Outdated>, f: Failures): seq<Issue> {
    if |packages| == 0 then issues
    else CreateAll(CloseStage(issues, OutdatedIds(packages), f), packages, f)
  }

  class Tracker {
    var issues: seq<Issue>

    constructor (existing: seq<Issue>)
      ensures issues == existing
    {
      issues := existing;
    }

    /** `issue_exists`: a listed title containing the id, or a failed lookup. */
    method IssueExists(id: string, listFails: bool) returns (found: bool)
      ensures found <==> listFails || HasOpenIssue(issues, id)
    {
      if listFails {
        return true;
      }
      var k := 0;
      while k < |issues|
        invariant 0 <= k <= |issues|
        invariant forall j :: 0 <= j < k ==> !(Listed(issues[j]) && Contains(issues[j].title, id))
      {
        if Listed(issues[k]) && Contains(issues[k].title, id) {
          return true;
        }
        k := k + 1;
      }
      return false;
    }

    method CreateIssue(p: Outdated, listFails: bool, createFails: bool) returns (created: bool)
      modifies this
      ensures issues == CreateOne(old(issues), p, listFails, createFails)
      ensures created <==> |issues| == |old(issues)| + 1
    {
      var known := IssueExists(p.flatpakId, listFails);
      if known || createFails {
        return false;
      }
      issues := issues + [NewIssue(p)];
      created := true;
    }

    method CloseResolvedIssues(current: seq<string>, listFails: bool, outcome: nat -> CloseResult)
      modifies this
      ensures issues == if listFails then old(issues) else CloseAll(old(issues), current, outcome)
    {
      if listFails {
        return;
      }
      ghost var before := issues;
      var k := 0;
      while k < |issues|
        invariant 0 <= k <= |issues| == |before|
        invariant forall j :: 0 <= j < k ==> issues[j] == CloseOne(before[j], current, outcome(j))
        invariant forall j :: k <= j < |issues| ==> issues[j] == before[j]
      {
        var x := issues[k];
        var id := ExtractId(x.title);
        if Listed(x) && id.Some? && id.value !in current {
          match outcome(k) {
            case Closes => issues := issues[k := x.(open := false, comments := x.comments + 1)];
            case EditFails => issues := issues[k := x.(comments := x.comments + 1)];
            case CommentFails =>
          }
        }
        k := k + 1;
      }
      assert issues == CloseAll(before, current, outcome);
    }

    /** `main` after loading `packages`; `created` is its `created_count`. */
    method Run(packages: seq<Outdated>, f: Failures) returns (created: nat)
      modifies this
      ensures issues == RunResult(old(issues), packages, f)
      ensures |issues| == |old(issues)| + created
    {
      if |packages| == 0 {
        return 0;
      }
      CloseResolvedIssues(OutdatedIds(packages), f.closeListFails, f.closeOutcome);
      ghost var closed := issues;
      created := 0;
      var i := 0;
      while i < |packages|
        invariant 0 <= i <= |packages|
        invariant issues == CreateAll(closed, packages[..i], f)
        invariant |issues| == |closed| + created
      {
        CreateAllStep(closed, packages, i, f);
        var ok := CreateIssue(packages[i], f.listFails(i), f.createFails(i));
        if ok {
          created := created + 1;
        }
        i := i + 1;
      }
      assert packages[..i] == packages;
    }
  }

  // ---------------------------------------------------------------------
  // Properties of a run

  /** An issue created for a package is listed and its title contains the package's id. */
  lemma NewIssueFound(issues: seq<Issue>, p: Outdated)
    ensures HasOpenIssue(issues + [NewIssue(p)], p.flatpakId)
  {
    ContainsSuffix(TitlePrefix, p.flatpakId);
    assert (issues + [NewIssue(p)])[|issues|] == NewIssue(p);
    assert Labels(p)[0] == "runtime-update";
  }

  lemma HasOpenIssueAppend(issues: seq<Issue>, more: seq<Issue>, id: string)
    requires HasOpenIssue(issues, id)
    ensures HasOpenIssue(issues + more, id)
  {
    var k :| 0 <= k < |issues| && Listed(issues[k]) && Contains(issues[k].title, id);
    assert (issues + more)[k] == issues[k];
  }

  /** Creating twice for one package adds at most one issue. */
  lemma CreateTwiceAtMostOnce(issues: seq<Issue>, p: Outdated, l1: bool, c1: bool, l2: bool, c2: bool)
    ensures |CreateOne(CreateOne(issues, p, l1, c1), p, l2, c2)| <= |issues| + 1
  {
    var once := CreateOne(issues, p, l1, c1);
    if once != issues {
      NewIssueFound(issues, p);
    }
  }

  /** The issues created by a run are appended after the closing pass and are open. */
  lemma {:induction false} CreateAllAppends(issues: seq<Issue>, ps: seq<Outdated>, f: Failures)
    ensures var r := CreateAll(issues, ps, f);
      && |issues| <= |r| <= |issues| + |ps|
      && r[..|issues|] == issues
      && forall k :: |issues| <= k < |r| ==> r[k].open && exists p :: p in ps && r[k] == NewIssue(p)
  {
    if |ps| > 0 {
      var init := ps[..|ps| - 1];
      CreateAllAppends(issues, init, f);
      var prev := CreateAll(issues, init, f);
      var r := CreateAll(issues, ps, f);
      assert forall p :: p in init ==> p in ps;
      if r != prev {
        assert r == prev + [NewIssue(ps[|ps| - 1])];
        assert r[..|issues|] == prev[..|issues|];
      }
    }
  }

  /**
   * Close then create: a run leaves the state after its closing pass in place
   * and only appends open issues for its packages; an empty list changes nothing.
   */
  lemma RunShape(issues: seq<Issue>, packages: seq<Outdated>, f: Failures)
    ensures var r := RunResult(issues, packages, f);
      && (|packages| == 0 ==> r == issues)
      && |issues| <= |r| <= |issues| + |packages|
      && (|packages| > 0 ==> r[..|issues|] == CloseStage(issues, OutdatedIds(packages), f))
      && forall k :: |issues| <= k < |r| ==> r[k].open && exists p :: p in packages && r[k] == NewIssue(p)
  {
    if |packages| > 0 {
      CreateAllAppends(CloseStage(issues, OutdatedIds(packages), f), packages, f);
    }
  }

  // Idempotence of a failure-free run

  ghost predicate NoFailures(f: Failures) {
    && !f.closeListFails
    && (forall k :: f.closeOutcome(k).Closes?)
    && (forall k :: !f.listFails(k))
    && (forall k :: !f.createFails(k))
  }

  /** Ids the title pattern gives back whole. */
  predicate WellFormedIds(ps: seq<Outdated>) {
    forall i :: 0 <= i < |ps| ==>
      StartsWith(ps[i].flatpakId, "app/") && |ps[i].flatpakId| > 4 && NoSpace(ps[i].flatpakId)
  }

  /** No listed issue is resolved with respect to `ids`. */
  predicate Settled(issues: seq<Issue>, ids: seq<string>) {
    forall k :: 0 <= k < |issues| ==> !Resolved(issues[k], ids)
  }

  /** Every package has a listed issue. */
  predicate Covered(issues: seq<Issue>, ps: seq<Outdated>) {
    forall i :: 0 <= i < |ps| ==> HasOpenIssue(issues, ps[i].flatpakId)
  }

  lemma ClosingSettles(issues: seq<Issue>, ids: seq<string>, outcome: nat -> CloseResult)
    requires forall k :: outcome(k).Closes?
    ensures Settled(CloseAll(issues, ids, outcome), ids)
  {
    var r := CloseAll(issues, ids, outcome);
    forall k | 0 <= k < |r| ensures !Resolved(r[k], ids) {
      assert outcome(k).Closes?;
    }
  }

  lemma SettledClosesNothing(issues: seq<Issue>, ids: seq<string>, outcome: nat -> CloseResult)
    requires Settled(issues, ids)
    ensures CloseAll(issues, ids, outcome) == issues
  {
  }

  lemma {:induction false} CreatingKeepsSettled(issues: seq<Issue>, ps: seq<Outdated>, f: Failures)
    requires WellFormedIds(ps) && Settled(issues, OutdatedIds(ps))
    ensures Settled(CreateAll(issues, ps, f), OutdatedIds(ps))
  {
    var ids := OutdatedIds(ps);
    var r := CreateAll(issues, ps, f);
    CreateAllAppends(issues, ps, f);
    forall k | 0 <= k < |r| ensures !Resolved(r[k], ids) {
      if k < |issues| {
        assert r[k] == r[..|issues|][k] == issues[k];
      } else {
        var p :| p in ps && r[k] == NewIssue(p);
        var i :| 0 <= i < |ps| && ps[i] == p;
        TitleRoundTrip(p.flatpakId);
        assert ids[i] == p.flatpakId;
      }
    }
  }

  lemma {:induction false} CreatingCovers(issues: seq<Issue>, ps: seq<Outdated>, f: Failures)
    requires NoFailures(f)
    ensures Covered(CreateAll(issues, ps, f), ps)
  {
    if |ps| > 0 {
      var n := |ps| - 1;
      var init := ps[..n];
      CreatingCovers(issues, init, f);
      var prev := CreateAll(issues, init, f);
      var r := CreateAll(issues, ps, f);
      assert !f.listFails(n) && !f.createFails(n);
      if r != prev {
        NewIssueFound(prev, ps[n]);
      }
      forall i | 0 <= i < |ps| ensures HasOpenIssue(r, ps[i].flatpakId) {
        if i < n {
          assert ps[i] == init[i];
          if r != prev {
            HasOpenIssueAppend(prev, [NewIssue(ps[n])], ps[i].flatpakId);
          }
        }
      }
    }
  }

  lemma {:induction false} CoveredCreatesNothing(issues: seq<Issue>, ps: seq<Outdated>, f: Failures)
    requires Covered(issues, ps)
    ensures CreateAll(issues, ps, f) == issues
  {
    if |ps| > 0 {
      var init := ps[..|ps| - 1];
      assert Covered(issues, init) by {
        forall i | 0 <= i < |init| ensures HasOpenIssue(issues, init[i].flatpakId) {
          assert init[i] == ps[i];
        }
      }
      CoveredCreatesNothing(issues, init, f);
    }
  }

  /**
   * After a run in which no GitHub call fails, running again on the same
   * packages closes nothing and creates nothing.
   */
  lemma RunIdempotent(issues: seq<Issue>, packages: seq<Outdated>, f: Failures)
    requires NoFailures(f) && WellFormedIds(packages)
    ensures RunResult(RunResult(issues, packages, f), packages, f) == RunResult(issues, packages, f)
  {
    if |packages| > 0 {
      var ids := OutdatedIds(packages);
      var closed := CloseAll(issues, ids, f.closeOutcome);
      ClosingSettles(issues, ids, f.closeOutcome);
      var r := CreateAll(closed, packages, f);
      CreatingKeepsSettled(closed, packages, f);
      CreatingCovers(closed, packages, f);
      SettledClosesNothing(r, ids, f.closeOutcome);
      CoveredCreatesNothing(r, packages, f);
    }
  }
}

=== FILE: json.dfy ===
/**
 * Decoded JSON (and YAML) values as the scripts see them after
 * `response.json()`, `json.load` or `yaml.safe_load`, with Python's
 * truthiness and the behaviour of `key in v` followed by `v[key]`.
 */
module Json {
  import opened Text

  datatype Json =
    | JNull
    | JBool(b: bool)
    | JNum(n: int)
    | JStr(s: string)
    | JList(items: seq<Json>)
    | JObj(fields: map<string, Json>)

  /** `bool(v)`: `None`, `False`, `0`, `""`, `[]` and `{}` are false. */
  predicate Truthy(v: Json) {
    match v
    case JNull => false
    case JBool(b) => b
    case JNum(n) => n != 0
    case JStr(s) => |s| > 0
    case JList(xs) => |xs| > 0
    case JObj(m) => |m| > 0
  }

  /** What `if key in v: ... v[key]` meets: the value, no such key, or a `TypeError`. */
  datatype Probe = Found(value: Json) | Absent | Raises

  /**
   * `key in v` is a key test on a dict, a substring test on a string and a
   * membership test on a list, and raises on anything else; when it holds,
   * `v[key]` succeeds only on a dict.
   */
  function Lookup(v: Json, key: string): (p: Probe)
    ensures p.Found? <==> v.JObj? && key in v.fields
    ensures p.Found? ==> p.value == v.fields[key]
    ensures p.Absent? <==>
      || (v.JObj? && key !in v.fields)
      || (v.JStr? && !Contains(v.s, key))
      || (v.JList? && JStr(key) !in v.items)
  {
    match v
    case JObj(m) => if key in m then Found(m[key]) else Absent
    case JStr(s) => if Contains(s, key) then Raises else Absent
    case JList(xs) => if JStr(key) in xs then Raises else Absent
    case _ => Raises
  }
}

=== FILE: reports.dfy ===
/**
 * The run sections and overview counts of the scripts that render the
 * application tables: backfill_changelog_with_tables.py,
 * prepare_backfill_data.py, update_changelog_tables.py and
 * update_changelog_final.py. An artifact is the parsed JSON of one run, with
 * `None` for a key the document does not have; a run without an artifact
 * (none downloaded, or an empty document) is `None` as a whole.
 */
module Reports {
  import opened Wrappers
  import opened Seqs
  import opened Snapshots
  import opened AppTable
  import Changelog

  datatype Artifact = Artifact(
    outdatedPackages: Option<seq<Package>>,
    totalChecked: Option<int>,
    outdatedCount: Option<int>)

  datatype Stats = Stats(total: int, upToDate: int, needUpdates: int, rate: Rate)

  /** A run section: only the run line without artifact data, otherwise the table and the stats. */
  datatype RunSection =
    | NoData(runId: int, runDate: int)
    | Detailed(runId: int, runDate: int, table: string, stats: Stats)

  function PackagesOf(a: Artifact): seq<Package> {
    a.outdatedPackages.GetOr([])
  }

  // ---------------------------------------------------------------------
  // backfill_changelog_with_tables.py

  /** The counts of `generate_changelog_section`: nothing is up to date when nothing was checked. */
  function BackfillStats(a: Artifact): Stats {
    var total := a.totalChecked.GetOr(0);
    var outdated := a.outdatedCount.GetOr(0);
    var up := if total > 0 then total - outdated else 0;
    Stats(total, up, outdated, GuardedRate(up, total))
  }

  /** `generate_changelog_section`; `None` is the KeyError of a package the table cannot render. */
  function BackfillSection(run: Changelog.RunInfo, artifact: Option<Artifact>): Option<RunSection> {
    match artifact
    case None => Some(NoData(run.id, run.createdAt))
    case Some(a) =>
      match ApplicationTable(BackfillTables, PackagesOf(a))
      case None => None
      case Some(table) => Some(Detailed(run.id, run.createdAt, table, BackfillStats(a)))
  }

  /**
   * A run without artifact gets the placeholder; otherwise the section holds
   * the table of the artifact's packages, the checked total and the
   * artifact's own outdated count, and the up-to-date count completes the
   * total whenever something was checked.
   */
  lemma BackfillSectionShape(run: Changelog.RunInfo, artifact: Option<Artifact>)
    ensures artifact.None? ==> BackfillSection(run, artifact) == Some(NoData(run.id, run.createdAt))
    ensures artifact.Some? ==> (BackfillSection(run, artifact).None? <==>
      exists i :: 0 <= i < |PackagesOf(artifact.value)| && (IdKey !in PackagesOf(artifact.value)[i]
        || CurrentRuntimeKey !in PackagesOf(artifact.value)[i] || LatestRuntimeKey !in PackagesOf(artifact.value)[i]))
    ensures artifact.Some? && BackfillSection(run, artifact).Some? ==>
      var s := BackfillSection(run, artifact).value;
      && s.Detailed? && s.runId == run.id && s.runDate == run.createdAt
      && Some(s.table) == ApplicationTable(BackfillTables, PackagesOf(artifact.value))
      && s.stats.total == artifact.value.totalChecked.GetOr(0)
      && s.stats.needUpdates == artifact.value.outdatedCount.GetOr(0)
    ensures artifact.Some? ==> StatsAddUp(BackfillStats(artifact.value))
  {
    if artifact.Some? {
      TableFails(PackagesOf(artifact.value), Strict, EmptyMessage(BackfillTables));
    }
  }

  /** Up-to-date and outdated apps add up to the checked total when something was checked; otherwise the rate is zero and nothing is up to date. */
  predicate StatsAddUp(s: Stats) {
    && (s.total > 0 ==> s.upToDate + s.needUpdates == s.total && s.rate == Ratio(s.upToDate, s.total))
    && (s.total <= 0 ==> s.upToDate == 0 && s.rate == ZeroRate)
  }

  /** `workflow_runs.sort(key=created_at, reverse=True)`, which keeps runs of equal time in input order. */
  function NewestFirst(runs: seq<Changelog.RunInfo>): seq<Changelog.RunInfo> {
    SortBy(runs, (r: Changelog.RunInfo) => r.createdAt, IntGt)
  }

  /** The sections of `runs` in order, or `None` when one of them fails. */
  function SectionsOf(runs: seq<Changelog.RunInfo>, download: int -> Option<Artifact>): Option<seq<RunSection>> {
    MapAll(runs, (r: Changelog.RunInfo) => BackfillSection(r, download(r.id)))
  }

  datatype Overview = Overview(total: int, upToDate: int, needUpdates: int, rate: Rate)

  /** The fixed counts used without an artifact for the latest run; the fixed rate 49.3 is 103/209 to one decimal. */
  const Fallback := Overview(209, 103, 106, Ratio(103, 209))

  /** The overview of the latest run: no guard on the up-to-date count here, only on the rate. */
  function OverviewFrom(latest: Option<Artifact>): Overview {
    match latest
    case None => Fallback
    case Some(a) =>
      var total := a.totalChecked.GetOr(0);
      var outdated := a.outdatedCount.GetOr(0);
      Overview(total, total - outdated, outdated, GuardedRate(total - outdated, total))
  }

  datatype TablesChangelog = TablesChangelog(overview: Overview, latestDate: int, sections: seq<RunSection>)

  /** `main` after fetching the runs: `None` is an exit with status 1 or an uncaught KeyError. */
  function BackfillChangelog(runs: seq<Changelog.RunInfo>, download: int -> Option<Artifact>): Option<TablesChangelog> {
    if |runs| == 0 then None
    else
      var ordered := NewestFirst(runs);
      match SectionsOf(ordered, download)
      case None => None
      case Some(sections) =>
        Some(TablesChangelog(OverviewFrom(download(ordered[0].id)), ordered[0].createdAt, sections))
  }

  method BackfillMain(runs: seq<Changelog.RunInfo>, download: int -> Option<Artifact>) returns (r: Option<TablesChangelog>)
    ensures r == BackfillChangelog(runs, download)
  {
    if |runs| == 0 {
      return None;
    }
    var ordered := NewestFirst(runs);
    var sections: seq<RunSection> := [];
    for i := 0 to |ordered|
      invariant SectionsOf(ordered[..i], download) == Some(sections)
    {
      var section := BackfillSection(ordered[i], download(ordered[i].id));
      if section.None? {
        MapAllFails(ordered, (r: Changelog.RunInfo) => BackfillSection(r, download(r.id)), i);
        return None;
      }
      MapAllStep(ordered, (r: Changelog.RunInfo) => BackfillSection(r, download(r.id)), i);
      sections := sections + [section.value];
    }
    assert ordered[..|ordered|] == ordered;
    var latest := download(ordered[0].id);
    r := Some(TablesChangelog(OverviewFrom(latest), ordered[0].createdAt, sections));
  }

  /** Sections exist exactly when every run's section does. */
  lemma SectionsOfNone(runs: seq<Changelog.RunInfo>, download: int -> Option<Artifact>)
    ensures SectionsOf(runs, download).None? <==>
      exists i :: 0 <= i < |runs| && BackfillSection(runs[i], download(runs[i].id)).None?
  {
    MapAllNone(runs, (r: Changelog.RunInfo) => BackfillSection(r, download(r.id)));
  }

  /** Successful sections are one per run, in run order. */
  lemma SectionsOfSome(runs: seq<Changelog.RunInfo>, download: int -> Option<Artifact>)
    requires SectionsOf(runs, download).Some?
    ensures |SectionsOf(runs, download).value| == |runs|
    ensures forall i :: 0 <= i < |runs| ==>
      BackfillSection(runs[i], download(runs[i].id)) == Some(SectionsOf(runs, download).value[i])
  {
    MapAllSome(runs, (r: Changelog.RunInfo) => BackfillSection(r, download(r.id)));
  }

  /** Sorting newest first keeps the runs and puts the latest one first. */
  lemma NewestFirstShape(runs: seq<Changelog.RunInfo>)
    ensures multiset(NewestFirst(runs)) == multiset(runs) && |NewestFirst(runs)| == |runs|
    ensures SortedBy(NewestFirst(runs), (r: Changelog.RunInfo) => r.createdAt, IntGt)
    ensures |runs| > 0 ==> forall i :: 0 <= i < |runs| ==> runs[i].createdAt <= NewestFirst(runs)[0].createdAt
  {
    var ordered := NewestFirst(runs);
    IntGtOrder();
    SortBySorted(runs, (r: Changelog.RunInfo) => r.createdAt, IntGt);
    assert |multiset(ordered)| == |multiset(runs)|;
    if |runs| > 0 {
      FirstIsLatest(ordered);
      forall i | 0 <= i < |runs| ensures runs[i].createdAt <= ordered[0].createdAt {
        assert runs[i] in multiset(ordered);
        assert runs[i] in ordered;
      }
    }
  }

  lemma FirstIsLatest(ordered: seq<Changelog.RunInfo>)
    requires |ordered| > 0 && SortedBy(ordered, (r: Changelog.RunInfo) => r.createdAt, IntGt)
    ensures forall r :: r in ordered ==> r.createdAt <= ordered[0].createdAt
  {
    forall r | r in ordered ensures r.createdAt <= ordered[0].createdAt {
      var j :| 0 <= j < |ordered| && ordered[j] == r;
      if j > 0 {
        assert !IntGt(ordered[j].createdAt, ordered[0].createdAt);
      }
    }
  }

  /**
   * The changelog fails exactly when there are no runs or some run's table
   * fails; otherwise it has one section per run, newest run first, and its
   * overview is that of the newest run.
   */
  lemma BackfillChangelogShape(runs: seq<Changelog.RunInfo>, download: int -> Option<Artifact>)
    ensures BackfillChangelog(runs, download).None? <==>
      |runs| == 0 || exists i :: 0 <= i < |runs| && BackfillSection(runs[i], download(runs[i].id)).None?
    ensures BackfillChangelog(runs, download).Some? ==>
      && |BackfillChangelog(runs, download).value.sections| == |runs|
      && (forall i :: 0 <= i < |runs| ==>
            BackfillSection(NewestFirst(runs)[i], download(NewestFirst(runs)[i].id))
              == Some(BackfillChangelog(runs, download).value.sections[i]))
      && BackfillChangelog(runs, download).value.latestDate == NewestFirst(runs)[0].createdAt
      && BackfillChangelog(runs, download).value.overview == OverviewFrom(download(NewestFirst(runs)[0].id))
  {
    if |runs| > 0 {
      var ordered := NewestFirst(runs);
      NewestFirstShape(runs);
      SectionsOfNone(ordered, download);
      if SectionsOf(ordered, download).Some? {
        SectionsOfSome(ordered, download);
      }
      if exists i :: 0 <= i < |ordered| && BackfillSection(ordered[i], download(ordered[i].id)).None? {
        var i :| 0 <= i < |ordered| && BackfillSection(ordered[i], download(ordered[i].id)).None?;
        assert ordered[i] in multiset(runs);
        var j :| 0 <= j < |runs| && runs[j] == ordered[i];
      }
      if exists j :: 0 <= j < |runs| && BackfillSection(runs[j], download(runs[j].id)).None? {
        var j :| 0 <= j < |runs| && BackfillSection(runs[j], download(runs[j].id)).None?;
        assert runs[j] in multiset(ordered);
        var i :| 0 <= i < |ordered| && ordered[i] == runs[j];
      }
    }
  }

  /** Up-to-date and outdated apps of the overview always add up to its total, the fixed fallback included. */
  lemma OverviewAddsUp(latest: Option<Artifact>)
    ensures OverviewFrom(latest).upToDate + OverviewFrom(latest).needUpdates == OverviewFrom(latest).total
    ensures OverviewFrom(latest).rate.ZeroRate? <==> OverviewFrom(latest).total <= 0
  {
  }

  // ---------------------------------------------------------------------
  // prepare_backfill_data.py

  /** The counts of `generate_section_for_run`: the outdated count is the number of listed packages. */
  function PrepareStats(a: Artifact): Stats {
    var total := a.totalChecked.GetOr(0);
    var outdated := |PackagesOf(a)|;
    var up := total - outdated;
    Stats(total, up, outdated, GuardedRate(up, total))
  }

  function PrepareSection(run: Changelog.RunInfo, artifact: Option<Artifact>): Option<RunSection> {
    match artifact
    case None => Some(NoData(run.id, run.createdAt))
    case Some(a) =>
      match ApplicationTable(PrepareBackfill, PackagesOf(a))
      case None => None
      case Some(table) => Some(Detailed(run.id, run.createdAt, table, PrepareStats(a)))
  }

  /**
   * Without artifact there is no table and no stats. With one, the section
   * fails only on a package without id, counts the listed packages (the
   * artifact's own outdated count plays no part), and the up-to-date count
   * is the difference, negative when more packages are listed than checked.
   */
  lemma PrepareSectionShape(run: Changelog.RunInfo, artifact: Option<Artifact>)
    ensures artifact.None? ==> PrepareSection(run, artifact) == Some(NoData(run.id, run.createdAt))
    ensures artifact.Some? ==> (PrepareSection(run, artifact).None? <==> !HasIds(PackagesOf(artifact.value)))
    ensures artifact.Some? && PrepareSection(run, artifact).Some? ==>
      var s := PrepareSection(run, artifact).value;
      && s.Detailed? && s.runId == run.id && s.runDate == run.createdAt
      && Some(s.table) == ApplicationTable(PrepareBackfill, PackagesOf(artifact.value))
      && s.stats.needUpdates == |PackagesOf(artifact.value)|
      && s.stats.upToDate + s.stats.needUpdates == s.stats.total
      && (s.stats.rate.ZeroRate? <==> s.stats.total <= 0)
    ensures forall c :: artifact.Some? ==>
      PrepareSection(run, Some(artifact.value.(outdatedCount := c))) == PrepareSection(run, artifact)
  {
    if artifact.Some? {
      TableFails(PackagesOf(artifact.value), Lenient, EmptyMessage(PrepareBackfill));
      ApplicationTableShape(PrepareBackfill, PackagesOf(artifact.value));
    }
  }

  // ---------------------------------------------------------------------
  // update_changelog_tables.py

  const ExampleRows := 10

  /** The example table of `main`: the first ten packages only. */
  function ExampleTable(a: Artifact): Option<string> {
    ApplicationTable(UpdateTables, Take(PackagesOf(a), ExampleRows))
  }

  /**
   * With ids and single-line fields in the first ten packages, the example table renders one row for
   * each of the first ten packages (at most ten) between the two header
   * lines and the blank line.
   */
  lemma ExampleTableShape(a: Artifact)
    requires |PackagesOf(a)| > 0
    requires HasIds(Take(PackagesOf(a), ExampleRows)) && SingleLineFields(Take(PackagesOf(a), ExampleRows), Lenient)
    ensures ExampleTable(a).Some?
    ensures Count(ExampleTable(a).value, '\n') == (if |PackagesOf(a)| < ExampleRows then |PackagesOf(a)| else ExampleRows) + 3
  {
    var pkgs := PackagesOf(a);
    var first := Take(pkgs, ExampleRows);
    ApplicationTableShape(UpdateTables, first);
    TableLineCount(first, Lenient, EmptyMessage(UpdateTables));
  }

  // ---------------------------------------------------------------------
  // update_changelog_final.py

  /** The overview counts: missing keys are KeyErrors and a zero total divides by zero, both `None`. */
  function FinalStats(a: Artifact): Option<Stats> {
    match (a.totalChecked, a.outdatedCount)
    case (Some(total), Some(outdated)) =>
      if total == 0 then None
      else Some(Stats(total, total - outdated, outdated, Ratio(total - outdated, total)))
    case _ => None
  }

  /** The stats and table of the most recent run, or `None` for the script's crash. */
  function FinalReport(a: Artifact): Option<(Stats, string)> {
    match FinalStats(a)
    case None => None
    case Some(stats) =>
      match a.outdatedPackages
      case None => None
      case Some(pkgs) =>
        match ApplicationTable(UpdateFinal, pkgs)
        case None => None
        case Some(table) => Some((stats, table))
  }

  /**
   * The counts exist exactly when both keys do and the total is not zero;
   * then the up-to-date and outdated counts add up to the total. Where the
   * guarded copy reports a zero rate for a zero total, this one fails.
   */
  lemma FinalStatsShape(a: Artifact)
    ensures FinalStats(a).None? <==> a.totalChecked.None? || a.outdatedCount.None? || a.totalChecked == Some(0)
    ensures FinalStats(a).Some? ==>
      && FinalStats(a).value.upToDate + FinalStats(a).value.needUpdates == FinalStats(a).value.total
      && FinalStats(a).value.total == a.totalChecked.value
      && FinalStats(a).value.rate == Ratio(FinalStats(a).value.upToDate, FinalStats(a).value.total)
    ensures a.totalChecked == Some(0) ==> FinalStats(a).None? && BackfillStats(a).rate == ZeroRate
  {
  }

  /** The final report fails exactly when the counts do, the package list is missing, or a package has no id. */
  lemma FinalReportShape(a: Artifact)
    ensures FinalReport(a).None? <==>
      FinalStats(a).None? || a.outdatedPackages.None? || !HasIds(a.outdatedPackages.value)
    ensures FinalReport(a).Some? ==> Some(FinalReport(a).value.0) == FinalStats(a)
  {
    if a.outdatedPackages.Some? {
      TableFails(a.outdatedPackages.value, Lenient, EmptyMessage(UpdateFinal));
      ApplicationTableShape(UpdateFinal, a.outdatedPackages.value);
    }
  }
}

=== FILE: runtimes.dfy ===
/**
 * The runtime check of check_flatpak_runtimes.py: where a package's runtime
 * ref is found in its Flathub metadata, how the version in the ref is
 * compared with the newest known version, the per-package decision, and the
 * record `check_runtime_updates` hands to `save_outdated_packages`.
 *
 * The Flathub lookup of a package is the oracle `info` (id to decoded JSON,
 * `None` when the request fails or the status is not 200) and the API and
 * `flatpak remote-ls` fallbacks for unknown runtimes are the oracle `remote`
 * (runtime name to candidate versions, `[]` when both fail).
 */
module Runtimes {
  import opened Wrappers
  import opened Text
  import opened Seqs
  import opened Json
  import opened Inventory

  // ---------------------------------------------------------------------
  // Where the runtime ref is

  /** `info[a][b]` when `info` is a mapping whose `a` is a mapping holding `b`. */
  function Nested(info: Json, a: string, b: string): Option<Json> {
    if info.JObj? && a in info.fields && info.fields[a].JObj? && b in info.fields[a].fields
    then Some(info.fields[a].fields[b])
    else None
  }

  /** The `metadata` half of `get_runtime_from_flatpak_info`. */
  function MetadataRuntime(info: Json): Option<Json> {
    match Lookup(info, "metadata")
    case Found(metadata) =>
      (match Lookup(metadata, "runtime")
       case Found(rt) => Some(rt)
       case _ => None)
    case _ => None
  }

  /**
   * `get_runtime_from_flatpak_info`: `bundle.runtime` when present, else
   * `metadata.runtime`, else nothing; a `TypeError` on the way gives nothing.
   */
  function GetRuntime(info: Json): (r: Option<Json>)
    ensures Nested(info, "bundle", "runtime").Some? ==> r == Nested(info, "bundle", "runtime")
    ensures info.JObj? && "bundle" !in info.fields ==> r == Nested(info, "metadata", "runtime")
    ensures r.Some? ==> r == Nested(info, "bundle", "runtime") || r == Nested(info, "metadata", "runtime")
  {
    match Lookup(info, "bundle")
    case Raises => None
    case Found(bundle) =>
      (match Lookup(bundle, "runtime")
       case Found(rt) => Some(rt)
       case Raises => None
       case Absent => MetadataRuntime(info))
    case Absent => MetadataRuntime(info)
  }

  // ---------------------------------------------------------------------
  // Available versions

  /** The versions the checker treats as the current stable ones. */
  const KnownLatest: map<string, string> :=
    map["org.gnome.Platform" := "48", "org.freedesktop.Platform" := "24.08", "org.kde.Platform" := "6.9"]

  /** `get_available_runtime_versions`: the known version when there is one, otherwise what the fallbacks find. */
  function AvailableVersions(name: string, remote: string -> seq<string>): seq<string> {
    if name in KnownLatest then [KnownLatest[name]] else remote(name)
  }

  /** The three common runtimes are never looked up remotely. */
  lemma KnownRuntimesAreFixed(remote: string -> seq<string>)
    ensures AvailableVersions("org.gnome.Platform", remote) == ["48"]
    ensures AvailableVersions("org.freedesktop.Platform", remote) == ["24.08"]
    ensures AvailableVersions("org.kde.Platform", remote) == ["6.9"]
    ensures forall name :: name !in KnownLatest ==> AvailableVersions(name, remote) == remote(name)
  {
  }

  // ---------------------------------------------------------------------
  // compare_versions

  /** `[int(x) for x in parts if x.isdigit()]` */
  function DigitParts(parts: seq<string>): (ns: seq<nat>)
    ensures |ns| <= |parts|
  {
    if |parts| == 0 then []
    else (if IsDigits(parts[0]) then [DigitsValue(parts[0])] else []) + DigitParts(parts[1..])
  }

  /** The numeric components of a dotted version. */
  function NumericParts(v: string): seq<nat> {
    DigitParts(Split(v, '.'))
  }

  function Zeros(n: nat): (z: seq<nat>)
    ensures |z| == n && forall i :: 0 <= i < n ==> z[i] == 0
  {
    if n == 0 then [] else Zeros(n - 1) + [0]
  }

  /** `xs.extend([0] * (n - len(xs)))` */
  function PadTo(xs: seq<nat>, n: nat): (r: seq<nat>)
    ensures |r| == if |xs| < n then n else |xs|
    ensures forall i :: 0 <= i < |r| ==> r[i] == if i < |xs| then xs[i] else 0
  {
    if |xs| < n then xs + Zeros(n - |xs|) else xs
  }

  /** Python's `<` on lists of integers. */
  predicate ListLess(a: seq<int>, b: seq<int>)
    decreases |a|
  {
    if |a| == 0 then |b| > 0
    else if |b| == 0 then false
    else if a[0] != b[0] then a[0] < b[0]
    else ListLess(a[1..], b[1..])
  }

  /** `compare_versions(current, latest)`: the padded numeric components of `current` sort first. */
  predicate CompareVersions(current: string, latest: string) {
    var c := NumericParts(current);
    var l := NumericParts(latest);
    var n := if |c| < |l| then |l| else |c|;
    ListLess(PadTo(c, n), PadTo(l, n))
  }

  /** `a` and `b` agree before `i` and `a` is smaller at `i`. */
  predicate FirstDifference(a: seq<int>, b: seq<int>, i: int) {
    0 <= i < |a| && i < |b| && a[..i] == b[..i] && a[i] < b[i]
  }

  /** On lists of one length, `<` is "smaller at the first difference". */
  lemma {:induction false} ListLessIff(a: seq<int>, b: seq<int>)
    requires |a| == |b|
    ensures ListLess(a, b) <==> exists i :: FirstDifference(a, b, i)
    decreases |a|
  {
    if |a| > 0 {
      ListLessIff(a[1..], b[1..]);
      if a[0] < b[0] {
        assert FirstDifference(a, b, 0);
      } else if a[0] == b[0] {
        if i :| FirstDifference(a[1..], b[1..], i) {
          assert a[..i + 1] == [a[0]] + a[1..][..i];
          assert b[..i + 1] == [b[0]] + b[1..][..i];
          assert FirstDifference(a, b, i + 1);
        }
        if i :| FirstDifference(a, b, i) {
          assert i > 0;
          assert a[1..][..i - 1] == a[..i][1..];
          assert b[1..][..i - 1] == b[..i][1..];
          assert FirstDifference(a[1..], b[1..], i - 1);
        }
      } else {
        forall i | 0 <= i < |a| ensures !FirstDifference(a, b, i) {
          if 0 < i {
            assert a[..i][0] == a[0] && b[..i][0] == b[0];
          }
        }
      }
    }
  }

  lemma {:induction false} ListLessIrreflexive(a: seq<int>)
    ensures !ListLess(a, a)
    decreases |a|
  {
    if |a| > 0 {
      ListLessIrreflexive(a[1..]);
    }
  }

  lemma {:induction false} ListLessAsymmetric(a: seq<int>, b: seq<int>)
    ensures ListLess(a, b) ==> !ListLess(b, a)
    decreases |a|
  {
    if |a| > 0 && |b| > 0 {
      ListLessAsymmetric(a[1..], b[1..]);
    }
  }

  lemma {:induction false} ListLessTransitive(a: seq<int>, b: seq<int>, c: seq<int>)
    requires ListLess(a, b) && ListLess(b, c)
    ensures ListLess(a, c)
    decreases |a|
  {
    if |a| > 0 && a[0] == b[0] && b[0] == c[0] {
      ListLessTransitive(a[1..], b[1..], c[1..]);
    }
  }

  /** A version is never older than itself. */
  lemma CompareVersionsIrreflexive(v: string)
    ensures !CompareVersions(v, v)
  {
    var c := NumericParts(v);
    ListLessIrreflexive(PadTo(c, |c|));
  }

  /** At most one of two versions is older than the other. */
  lemma CompareVersionsAsymmetric(a: string, b: string)
    ensures CompareVersions(a, b) ==> !CompareVersions(b, a)
  {
    var c := NumericParts(a);
    var l := NumericParts(b);
    var n := if |c| < |l| then |l| else |c|;
    ListLessAsymmetric(PadTo(c, n), PadTo(l, n));
  }

  /**
   * `current` is older exactly when, with both component lists padded to one
   * length, the first component where they differ is smaller in `current`.
   */
  lemma CompareVersionsIff(current: string, latest: string)
    ensures var c := NumericParts(current); var l := NumericParts(latest);
      var n := if |c| < |l| then |l| else |c|;
      CompareVersions(current, latest) <==> exists i :: FirstDifference(PadTo(c, n), PadTo(l, n), i)
  {
    var c := NumericParts(current);
    var l := NumericParts(latest);
    var n := if |c| < |l| then |l| else |c|;
    ListLessIff(PadTo(c, n), PadTo(l, n));
  }

  lemma SplitDotted(a: string, b: string)
    requires '.' !in a && '.' !in b
    ensures Split(a + "." + b, '.') == [a, b]
  {
    SplitCons(a, '.', b);
    SplitNoSep(b, '.');
  }

  lemma NumericSingle(a: string)
    requires IsDigits(a)
    ensures NumericParts(a) == [DigitsValue(a)]
  {
    SplitNoSep(a, '.');
    assert ['.'] != a[..1];
  }

  lemma NumericPair(a: string, b: string)
    requires IsDigits(a) && IsDigits(b)
    ensures NumericParts(a + "." + b) == [DigitsValue(a), DigitsValue(b)]
  {
    assert '.' !in a && '.' !in b;
    SplitDotted(a, b);
    assert [a, b][1..] == [b];
    assert DigitParts([b]) == [DigitsValue(b)] + DigitParts([]);
  }

  lemma ListLessOne(x: seq<int>, y: seq<int>)
    requires |x| == 1 && |y| == 1
    ensures ListLess(x, y) <==> x[0] < y[0]
  {
    assert x[1..] == [] && y[1..] == [];
  }

  lemma ListLessTwo(x: seq<int>, y: seq<int>)
    requires |x| == 2 && |y| == 2
    ensures ListLess(x, y) <==> x[0] < y[0] || (x[0] == y[0] && x[1] < y[1])
  {
    ListLessOne(x[1..], y[1..]);
  }

  /** Single-component versions compare by their numeric value. */
  lemma CompareSingle(a: string, c: string)
    requires IsDigits(a) && IsDigits(c)
    ensures CompareVersions(a, c) <==> DigitsValue(a) < DigitsValue(c)
  {
    NumericSingle(a);
    NumericSingle(c);
    var x, y := NumericParts(a), NumericParts(c);
    assert PadTo(x, 1) == x && PadTo(y, 1) == y;
    ListLessOne(x, y);
  }

  lemma CompareTwoParts(v: string, w: string, x0: int, x1: int, y0: int, y1: int)
    requires NumericParts(v) == [x0, x1] && NumericParts(w) == [y0, y1]
    ensures CompareVersions(v, w) <==> x0 < y0 || (x0 == y0 && x1 < y1)
  {
    var x, y := NumericParts(v), NumericParts(w);
    assert PadTo(x, 2) == x && PadTo(y, 2) == y;
    ListLessTwo(x, y);
  }

  /** Two-component versions compare by major value, then by minor value. */
  lemma ComparePair(v: string, a: string, b: string, w: string, c: string, d: string)
    requires IsDigits(a) && IsDigits(b) && IsDigits(c) && IsDigits(d)
    requires v == a + "." + b && w == c + "." + d
    ensures CompareVersions(v, w) <==>
      DigitsValue(a) < DigitsValue(c) || (DigitsValue(a) == DigitsValue(c) && DigitsValue(b) < DigitsValue(d))
  {
    assert NumericParts(v) == [DigitsValue(a), DigitsValue(b)] by {
      NumericPair(a, b);
    }
    assert NumericParts(w) == [DigitsValue(c), DigitsValue(d)] by {
      NumericPair(c, d);
    }
    CompareTwoParts(v, w, DigitsValue(a), DigitsValue(b), DigitsValue(c), DigitsValue(d));
  }

  /** A newer major version: 46 is older than 48. */
  lemma CompareVersionsMajor()
    ensures CompareVersions("46", "48")
  {
    assert "46"[..1] == "4" && "48"[..1] == "4";
    CompareSingle("46", "48");
  }

  /** Components compare as numbers, not as text: 6.9 is older than 6.10. */
  lemma CompareVersionsNumeric()
    ensures CompareVersions("6.9", "6.10")
  {
    assert "10"[..1] == "1";
    ComparePair("6.9", "6", "9", "6.10", "6", "10");
  }

  /** The freedesktop case of the mock fixture: 22.08 is older than 24.08. */
  lemma CompareVersionsFreedesktopFixture()
    ensures CompareVersions("22.08", "24.08")
  {
    assert "22"[..1] == "2" && "24"[..1] == "2" && "08"[..1] == "0";
    ComparePair("22.08", "22", "08", "24.08", "24", "08");
  }

  /** The KDE case of the mock fixture: 6.6 is older than 6.8. */
  lemma CompareVersionsKdeFixture()
    ensures CompareVersions("6.6", "6.8")
  {
    ComparePair("6.6", "6", "6", "6.8", "6", "8");
  }

  /** Leading zeros make no difference: 24.08 and 24.8 are the same version. */
  lemma CompareVersionsLeadingZero()
    ensures !CompareVersions("24.08", "24.8") && !CompareVersions("24.8", "24.08")
  {
    assert "24"[..1] == "2" && "08"[..1] == "0";
    ComparePair("24.08", "24", "08", "24.8", "24", "8");
    ComparePair("24.8", "24", "8", "24.08", "24", "08");
  }

  /** A trailing zero component changes nothing: neither version is older than the other. */
  lemma TrailingZero(v: string, w: string)
    requires NumericParts(w) == NumericParts(v) + [0]
    ensures !CompareVersions(v, w) && !CompareVersions(w, v)
  {
    var x, y := NumericParts(v), NumericParts(w);
    assert PadTo(x, |y|) == y;
    assert PadTo(y, |y|) == y;
    ListLessIrreflexive(y);
  }

  // ---------------------------------------------------------------------
  // Runtime refs `family/arch/version`

  /** `current_runtime.split('/')[0]` when the ref holds a `/`, else the whole ref (line 362). */
  function RuntimeName(ref: string): string {
    if '/' in ref then BeforeFirst(ref, '/') else ref
  }

  /** `current_runtime.split('/')[-1]` when the ref holds a `/`, else the whole ref (line 375). */
  function RuntimeVersion(ref: string): string {
    if '/' in ref then AfterLast(ref, '/') else ref
  }

  /** A ref `family/arch/version` names its family and its version. */
  lemma RefParts(family: string, arch: string, version: string)
    requires '/' !in family && '/' !in arch && '/' !in version
    ensures RuntimeName(family + "/" + arch + "/" + version) == family
    ensures RuntimeVersion(family + "/" + arch + "/" + version) == version
  {
    var ref := family + "/" + arch + "/" + version;
    assert ref == family + ['/'] + (arch + ['/'] + version);
    SplitCons(family, '/', arch + ['/'] + version);
    SplitCons(arch, '/', version);
    SplitNoSep(version, '/');
    assert Split(ref, '/') == [family, arch, version];
    assert ref[|family|] == '/';
  }

  /**
   * Replacing the version of `family/arch/version` changes only the version
   * when the version text does not occur in `family/arch`.
   */
  lemma BumpRef(family: string, arch: string, version: string, latest: string)
    requires '/' !in family && '/' !in arch && '/' !in version && |version| > 0
    requires !Contains(family + "/" + arch, version)
    ensures ReplaceAll(family + "/" + arch + "/" + version, version, latest) == family + "/" + arch + "/" + latest
  {
    var q := family + "/" + arch;
    var p := q + "/";
    ContainsIff(q, version);
    forall i | 0 <= i < |p| ensures !OccursAt(p + version, i, version) {
      if i + |version| <= |q| {
        assert (p + version)[i..i + |version|] == q[i..i + |version|];
        assert !OccursAt(q, i, version);
      } else {
        var k := |q| - i;
        assert (p + version)[i..i + |version|][k] == '/';
        assert version[k] != '/';
      }
    }
    ReplaceAtEnd(p, version, latest);
    assert family + "/" + arch + "/" + version == p + version;
    assert family + "/" + arch + "/" + latest == p + latest;
  }

  // ---------------------------------------------------------------------
  // The decision for one package

  /** One entry of `outdated_packages` (lines 383-390). */
  datatype Outdated = Outdated(
    flatpakId: string,
    sources: seq<string>,
    currentRuntime: string,
    latestRuntime: string,
    currentVersion: string,
    latestVersion: string)

  /**
   * What the loop body does with one package: skips it, finds it up to date,
   * finds it outdated, or raises and stops the script: a runtime that is truthy
   * but not a string fails at `'/' in current_runtime` when it is a number or a
   * boolean, at `.split` when it is a list or object holding `"/"`, and otherwise
   * at the dictionary lookup of `get_available_runtime_versions` (line 243),
   * since a list or object cannot be hashed.
   */
  datatype Decision = Skipped | UpToDate | Stale(pkg: Outdated) | Crashed

  /** Lines 344-393 for one package, given what Flathub returned for it. */
  function Decide(id: string, sources: seq<string>, info: Option<Json>, remote: string -> seq<string>): (d: Decision)
    ensures d.Stale? ==>
      && d.pkg.flatpakId == id && d.pkg.sources == sources
      && info.Some? && GetRuntime(info.value) == Some(JStr(d.pkg.currentRuntime))
      && d.pkg.currentVersion == RuntimeVersion(d.pkg.currentRuntime)
      && d.pkg.latestVersion in AvailableVersions(RuntimeName(d.pkg.currentRuntime), remote)
      && (forall v :: v in AvailableVersions(RuntimeName(d.pkg.currentRuntime), remote) ==> StrLe(v, d.pkg.latestVersion))
      && d.pkg.latestVersion != ""
      && CompareVersions(d.pkg.currentVersion, d.pkg.latestVersion)
      && d.pkg.latestRuntime == ReplaceAll(d.pkg.currentRuntime, d.pkg.currentVersion, d.pkg.latestVersion)
    ensures d.Crashed? <==>
      info.Some? && Truthy(info.value) && GetRuntime(info.value).Some?
      && Truthy(GetRuntime(info.value).value) && !GetRuntime(info.value).value.JStr?
    ensures info.None? || !Truthy(info.value) || GetRuntime(info.value).None? || !Truthy(GetRuntime(info.value).value) ==>
      d.Skipped?
    ensures (info.Some? && Truthy(info.value) && GetRuntime(info.value).Some?
             && Truthy(GetRuntime(info.value).value) && GetRuntime(info.value).value.JStr?) ==>
      var ref := GetRuntime(info.value).value.s;
      var vs := AvailableVersions(RuntimeName(ref), remote);
      if |vs| == 0 || MaxString(vs) == "" then d.Skipped?
      else
        && (d.Stale? <==> CompareVersions(RuntimeVersion(ref), MaxString(vs)))
        && (d.UpToDate? <==> !CompareVersions(RuntimeVersion(ref), MaxString(vs)))
  {
    if info.None? || !Truthy(info.value) then Skipped
    else match GetRuntime(info.value)
      case None => Skipped
      case Some(rt) =>
        if !Truthy(rt) then Skipped
        else if !rt.JStr? then Crashed
        else
          var current := rt.s;
          var versions := AvailableVersions(RuntimeName(current), remote);
          if |versions| == 0 then Skipped
          else
            var latest := MaxString(versions);
            if latest == "" then Skipped
            else
              var version := RuntimeVersion(current);
              if CompareVersions(version, latest)
              then Stale(Outdated(id, sources, current, ReplaceAll(current, version, latest), version, latest))
              else UpToDate
  }

  /** A package whose runtime already carries the newest version is never reported. */
  lemma AtLatestNotStale(id: string, sources: seq<string>, info: Option<Json>, remote: string -> seq<string>)
    requires info.Some? && GetRuntime(info.value).Some? && GetRuntime(info.value).value.JStr?
    requires var ref := GetRuntime(info.value).value.s;
      var vs := AvailableVersions(RuntimeName(ref), remote);
      |vs| > 0 && MaxString(vs) == RuntimeVersion(ref)
    ensures !Decide(id, sources, info, remote).Stale?
  {
    CompareVersionsIrreflexive(RuntimeVersion(GetRuntime(info.value).value.s));
  }

  /**
   * For a ref `family/arch/version` the versions are looked up by family, and
   * an outdated package gets `family/arch/<latest>` as its target runtime.
   */
  lemma StaleRefBumped(id: string, sources: seq<string>, info: Option<Json>, remote: string -> seq<string>,
                       family: string, arch: string, version: string)
    requires '/' !in family && '/' !in arch && '/' !in version && |version| > 0
    requires !Contains(family + "/" + arch, version)
    requires info.Some? && GetRuntime(info.value) == Some(JStr(family + "/" + arch + "/" + version))
    requires Decide(id, sources, info, remote).Stale?
    ensures var p := Decide(id, sources, info, remote).pkg;
      && p.currentVersion == version
      && p.latestVersion in AvailableVersions(family, remote)
      && p.latestRuntime == family + "/" + arch + "/" + p.latestVersion
  {
    var p := Decide(id, sources, info, remote).pkg;
    RefParts(family, arch, version);
    BumpRef(family, arch, version, p.latestVersion);
  }

  // ---------------------------------------------------------------------
  // The whole check

  /**
   * The outdated packages among `ids`, in order, each with its sources as the
   * merged occurrences `es` record them; `None` when some package crashes the run.
   */
  function Outcomes(ids: seq<string>, es: seq<Entry>, info: string -> Option<Json>, remote: string -> seq<string>): Option<seq<Outdated>> {
    OutcomesBy(ids, Judge(es, info, remote))
  }

  /** Each id's decision, with its merged sources and what Flathub returned for it. */
  function Judge(es: seq<Entry>, info: string -> Option<Json>, remote: string -> seq<string>): string -> Decision {
    (id: string) => Decide(id, SourcesFor(es, id), info(id), remote)
  }

  /** The outdated packages among `ids` as `decide` judges each one, in order; `None` once one crashes. */
  function OutcomesBy(ids: seq<string>, decide: string -> Decision): Option<seq<Outdated>> {
    if |ids| == 0 then Some([])
    else Advance(OutcomesBy(ids[..|ids| - 1], decide), decide(ids[|ids| - 1]))
  }

  /** One package's decision added to the outcome of the packages before it. */
  function Advance(o: Option<seq<Outdated>>, d: Decision): Option<seq<Outdated>> {
    match o
    case None => None
    case Some(found) =>
      match d
      case Crashed => None
      case Stale(p) => Some(found + [p])
      case _ => Some(found)
  }

  function OutdatedIds(os: seq<Outdated>): (ids: seq<string>)
    ensures |ids| == |os| && forall i :: 0 <= i < |os| ==> ids[i] == os[i].flatpakId
  {
    if |os| == 0 then [] else OutdatedIds(os[..|os| - 1]) + [os[|os| - 1].flatpakId]
  }

  lemma OutcomesStep(ids: seq<string>, i: nat, es: seq<Entry>, info: string -> Option<Json>, remote: string -> seq<string>)
    requires i < |ids|
    ensures Outcomes(ids[..i + 1], es, info, remote) ==
      Advance(Outcomes(ids[..i], es, info, remote), Decide(ids[i], SourcesFor(es, ids[i]), info(ids[i]), remote))
  {
    assert ids[..i + 1][..i] == ids[..i];
  }

  /** Once a package has crashed the run, the later ones do not matter. */
  lemma {:induction false} CrashIsFinal(ids: seq<string>, n: nat, es: seq<Entry>, info: string -> Option<Json>, remote: string -> seq<string>)
    requires n <= |ids| && Outcomes(ids[..n], es, info, remote).None?
    ensures Outcomes(ids, es, info, remote).None?
    decreases |ids| - n
  {
    if n < |ids| {
      OutcomesStep(ids, n, es, info, remote);
      CrashIsFinal(ids, n + 1, es, info, remote);
    } else {
      assert ids[..n] == ids;
    }
  }

  /**
   * What `decide` reports is one of `ids`, judged stale under its own id, and
   * there are no more reports than ids; distinct ids give distinct reports
   * when every report carries the id it was decided for.
   */
  lemma {:induction false} OutcomesByShape(ids: seq<string>, decide: string -> Decision)
    requires forall id :: decide(id).Stale? ==> decide(id).pkg.flatpakId == id
    ensures var o := OutcomesBy(ids, decide);
      o.Some? ==>
        && |o.value| <= |ids|
        && (forall i :: 0 <= i < |o.value| ==>
              o.value[i].flatpakId in ids && decide(o.value[i].flatpakId) == Stale(o.value[i]))
        && (NoDup(ids) ==> NoDup(OutdatedIds(o.value)))
  {
    if |ids| > 0 {
      var init := ids[..|ids| - 1];
      var id := ids[|ids| - 1];
      OutcomesByShape(init, decide);
      var o := OutcomesBy(ids, decide);
      if o.Some? {
        var found := OutcomesBy(init, decide).value;
        assert forall x :: x in init ==> x in ids;
        if NoDup(ids) {
          assert NoDup(init);
          assert id !in init;
        }
      }
    }
  }

  /** The package a decision reports, if it reports one. */
  function StaleOf(d: Decision): Option<Outdated> {
    match d
    case Stale(p) => Some(p)
    case _ => None
  }

  /** The package `decide` reports for an id, if any. */
  function Reported(decide: string -> Decision): string -> Option<Outdated> {
    (id: string) => StaleOf(decide(id))
  }

  /** A run that does not crash reports what `decide` finds stale, id by id, in order. */
  lemma {:induction false} OutcomesByFound(ids: seq<string>, decide: string -> Decision)
    ensures OutcomesBy(ids, decide).Some? ==>
      OutcomesBy(ids, decide).value == FilterMap(ids, Reported(decide))
  {
    if |ids| > 0 {
      OutcomesByFound(ids[..|ids| - 1], decide);
    }
  }

  /**
   * A run that does not crash reports one package per id `decide` finds stale,
   * in the order of `ids`, each the package that id's decision names.
   */
  lemma OutcomesByExact(ids: seq<string>, decide: string -> Decision, stale: string -> bool)
    requires forall id :: stale(id) == decide(id).Stale?
    ensures OutcomesBy(ids, decide).Some? ==>
      && |OutcomesBy(ids, decide).value| == |Filter(ids, stale)|
      && forall k :: 0 <= k < |Filter(ids, stale)| ==> decide(Filter(ids, stale)[k]) == Stale(OutcomesBy(ids, decide).value[k])
  {
    OutcomesByFound(ids, decide);
    FilterMapIsFilter(ids, Reported(decide), stale);
  }

  /** The ids whose package is outdated, given the merged occurrences and what Flathub returned. */
  function StaleIn(es: seq<Entry>, info: string -> Option<Json>, remote: string -> seq<string>): string -> bool {
    (id: string) => Decide(id, SourcesFor(es, id), info(id), remote).Stale?
  }

  /**
   * Every reported package is one of `ids`, carries its recorded sources and
   * an older version than the newest one, and no id is reported twice when
   * `ids` has no repeats.
   */
  lemma OutcomesShape(ids: seq<string>, es: seq<Entry>, info: string -> Option<Json>, remote: string -> seq<string>)
    ensures var o := Outcomes(ids, es, info, remote);
      o.Some? ==>
        && |o.value| <= |ids|
        && (forall i :: 0 <= i < |o.value| ==>
              && o.value[i].flatpakId in ids
              && o.value[i].sources == SourcesFor(es, o.value[i].flatpakId)
              && CompareVersions(o.value[i].currentVersion, o.value[i].latestVersion))
        && (NoDup(ids) ==> NoDup(OutdatedIds(o.value)))
        && |o.value| == |Filter(ids, StaleIn(es, info, remote))|
        && (forall k :: 0 <= k < |o.value| ==>
              Decide(Filter(ids, StaleIn(es, info, remote))[k], SourcesFor(es, Filter(ids, StaleIn(es, info, remote))[k]),
                     info(Filter(ids, StaleIn(es, info, remote))[k]), remote) == Stale(o.value[k]))
  {
    var decide := Judge(es, info, remote);
    forall id ensures decide(id).Stale? ==> decide(id).pkg.flatpakId == id {
      assert decide(id) == Decide(id, SourcesFor(es, id), info(id), remote);
    }
    OutcomesByShape(ids, decide);
    OutcomesByExact(ids, decide, StaleIn(es, info, remote));
  }

  /** Under `decide`, the run crashes exactly when some package's decision crashes. */
  lemma {:induction false} OutcomesByCrash(ids: seq<string>, decide: string -> Decision)
    ensures OutcomesBy(ids, decide).None? <==> exists i :: 0 <= i < |ids| && decide(ids[i]).Crashed?
  {
    if |ids| > 0 {
      var init := ids[..|ids| - 1];
      OutcomesByCrash(init, decide);
      if i :| 0 <= i < |init| && decide(init[i]).Crashed? {
        assert ids[i] == init[i];
      }
      if i :| 0 <= i < |ids| && decide(ids[i]).Crashed? {
        if i < |init| {
          assert init[i] == ids[i];
        }
      }
    }
  }

  /** The run crashes exactly when some package's runtime is truthy but not a string. */
  lemma OutcomesCrash(ids: seq<string>, es: seq<Entry>, info: string -> Option<Json>, remote: string -> seq<string>)
    ensures Outcomes(ids, es, info, remote).None? <==>
      exists i :: 0 <= i < |ids| && Decide(ids[i], SourcesFor(es, ids[i]), info(ids[i]), remote).Crashed?
  {
    OutcomesByCrash(ids, Judge(es, info, remote));
  }

  /** The JSON document `save_outdated_packages` writes, without its timestamp (lines 306-312). */
  datatype Record = Record(
    totalChecked: nat,
    outdatedCount: nat,
    outdatedPackages: seq<Outdated>,
    allTrackedPackages: seq<string>)

  /** The app keys of the merged inventory (`get_app_flatpaks`). */
  function Apps(fetch: string -> Option<string>, yaml: string -> Option<Json>): seq<string> {
    AppKeys(FirstSeen(EntryIds(Occurrences(fetch, yaml))))
  }

  /** The record a run writes, or `None` when it crashes before writing. */
  function Report(fetch: string -> Option<string>, yaml: string -> Option<Json>,
                  info: string -> Option<Json>, remote: string -> seq<string>): Option<Record> {
    var apps := Apps(fetch, yaml);
    match Outcomes(apps, Occurrences(fetch, yaml), info, remote)
    case None => None
    case Some(outdated) => Some(Record(|apps|, |outdated|, outdated, apps))
  }

  /**
   * The record counts its outdated packages, checks every tracked app, lists
   * each outdated id once, and every outdated id is a tracked `app/` id.
   */
  lemma ReportShape(fetch: string -> Option<string>, yaml: string -> Option<Json>,
                    info: string -> Option<Json>, remote: string -> seq<string>)
    ensures var r := Report(fetch, yaml, info, remote);
      r.Some? ==>
        && r.value.outdatedCount == |r.value.outdatedPackages|
        && r.value.totalChecked == |r.value.allTrackedPackages|
        && r.value.allTrackedPackages == FirstSeen(EntryIds(Occurrences(fetch, yaml)))
        && NoDup(OutdatedIds(r.value.outdatedPackages))
        && (forall i :: 0 <= i < |r.value.outdatedPackages| ==>
              && r.value.outdatedPackages[i].flatpakId in r.value.allTrackedPackages
              && StartsWith(r.value.outdatedPackages[i].flatpakId, "app/"))
        && r.value.outdatedPackages == FilterMap(r.value.allTrackedPackages, Reported(Judge(Occurrences(fetch, yaml), info, remote)))
  {
    var es := Occurrences(fetch, yaml);
    var keys := FirstSeen(EntryIds(es));
    AppFilterKeepsAll(fetch, yaml);
    KeysAreApps(Sources, fetch, yaml);
    FirstSeenShape(EntryIds(es));
    OutcomesShape(keys, es, info, remote);
    OutcomesByFound(keys, Judge(es, info, remote));
  }

  /**
   * The loop of `check_runtime_updates` over the app ids: each id's decision
   * with its merged sources, stopping at the first crash.
   */
  method CheckApps(apps: seq<string>, sourcesOf: map<string, seq<string>>, ghost es: seq<Entry>,
                   info: string -> Option<Json>, remote: string -> seq<string>)
    returns (r: Option<seq<Outdated>>)
    requires forall id :: id in apps ==> id in sourcesOf && sourcesOf[id] == SourcesFor(es, id)
    ensures r == Outcomes(apps, es, info, remote)
  {
    var outdated: seq<Outdated> := [];
    var i := 0;
    while i < |apps|
      invariant 0 <= i <= |apps|
      invariant Outcomes(apps[..i], es, info, remote) == Some(outdated)
    {
      var id := apps[i];
      var next := Advance(Some(outdated), Decide(id, sourcesOf[id], info(id), remote));
      OutcomesStep(apps, i, es, info, remote);
      if next.None? {
        CrashIsFinal(apps, i + 1, es, info, remote);
        return None;
      }
      outdated := next.value;
      i := i + 1;
    }
    assert apps[..i] == apps;
    r := Some(outdated);
  }

  /** `FlatpakRuntimeChecker` with the one attribute a run sets. */
  class RuntimeChecker {
    var totalChecked: nat

    constructor ()
      ensures totalChecked == 0
    {
      totalChecked := 0;
    }

    /** `check_runtime_updates` (lines 320-393): the record it saves, or `None` when it crashes. */
    method CheckRuntimeUpdates(fetch: string -> Option<string>, yaml: string -> Option<Json>,
                               info: string -> Option<Json>, remote: string -> seq<string>)
      returns (r: Option<Record>)
      modifies this
      ensures totalChecked == |Apps(fetch, yaml)|
      ensures r == Report(fetch, yaml, info, remote)
    {
      var d := FetchFlatpakList(fetch, yaml);
      var apps := AppKeys(d.keys);
      var sourcesOf := d.sources;
      ghost var keys, es := d.keys, d.entries;
      assert Merged(keys, sourcesOf, es);
      assert apps == Apps(fetch, yaml) by {
        assert keys == FirstSeen(EntryIds(Occurrences(fetch, yaml)));
      }
      totalChecked := |apps|;
      forall id | id in apps ensures id in sourcesOf && sourcesOf[id] == SourcesFor(es, id) {
        MergedLookup(keys, sourcesOf, es, id);
      }
      var found := CheckApps(apps, sourcesOf, es, info, remote);
      if found.None? {
        return None;
      }
      var outdated := found.value;
      r := Some(Record(totalChecked, |outdated|, outdated, apps));
    }
  }
}

=== FILE: seqs.dfy ===
/**
 * The list operations the scripts use: first-seen de-duplication (dict keys
 * in insertion order), occurrence counts, filtering, reversal, the slice
 * `xs[:n]`, and Python's stable `sorted(xs, key=...)`.
 */
module Seqs {
  import opened Wrappers

  predicate NoDup<T(==)>(xs: seq<T>) {
    forall i, j :: 0 <= i < j < |xs| ==> xs[i] != xs[j]
  }

  /** The distinct elements of `xs` in order of first occurrence. */
  function FirstSeen<T(==)>(xs: seq<T>): seq<T> {
    if |xs| == 0 then []
    else
      var p := FirstSeen(xs[..|xs| - 1]);
      if xs[|xs| - 1] in p then p else p + [xs[|xs| - 1]]
  }

  /** First-seen order drops repeats and nothing else. */
  lemma {:induction false} FirstSeenShape<T(!new)>(xs: seq<T>)
    ensures NoDup(FirstSeen(xs))
    ensures forall x :: x in FirstSeen(xs) <==> x in xs
    ensures |FirstSeen(xs)| <= |xs|
  {
    if |xs| > 0 {
      var init := xs[..|xs| - 1];
      FirstSeenShape(init);
      assert xs == init + [xs[|xs| - 1]];
    }
  }

  /** Number of occurrences of `x` in `xs`. */
  function Count<T(==)>(xs: seq<T>, x: T): nat {
    if |xs| == 0 then 0
    else Count(xs[..|xs| - 1], x) + (if xs[|xs| - 1] == x then 1 else 0)
  }

  lemma {:induction false} CountPositive<T>(xs: seq<T>, x: T)
    ensures Count(xs, x) > 0 <==> x in xs
  {
    if |xs| > 0 {
      CountPositive(xs[..|xs| - 1], x);
      assert forall y :: y in xs <==> y in xs[..|xs| - 1] || y == xs[|xs| - 1];
    }
  }

  lemma {:induction false} CountAppend<T>(xs: seq<T>, ys: seq<T>, x: T)
    ensures Count(xs + ys, x) == Count(xs, x) + Count(ys, x)
    decreases |ys|
  {
    if |ys| == 0 {
      assert xs + ys == xs;
    } else {
      CountAppend(xs, ys[..|ys| - 1], x);
      assert (xs + ys)[..|xs + ys| - 1] == xs + ys[..|ys| - 1];
    }
  }

  /** `[x for x in xs if keep(x)]` */
  function Filter<T(!new)>(xs: seq<T>, keep: T -> bool): (r: seq<T>)
    ensures |r| <= |xs|
    ensures forall x :: x in r <==> x in xs && keep(x)
  {
    if |xs| == 0 then []
    else
      var rest := Filter(xs[1..], keep);
      assert forall x :: x in xs <==> x == xs[0] || x in xs[1..];
      if keep(xs[0]) then [xs[0]] + rest else rest
  }

  /** `[y for x in xs if (y := f(x)) is not None]`, built from the back as a loop appends. */
  function FilterMap<T, U>(xs: seq<T>, f: T -> Option<U>): (r: seq<U>)
    ensures |r| <= |xs|
  {
    if |xs| == 0 then []
    else
      var n := |xs| - 1;
      FilterMap(xs[..n], f) + match f(xs[n]) case None => [] case Some(y) => [y]
  }

  /** The results kept are, in order, those of the elements `keep` selects. */
  lemma {:induction false} FilterMapIsFilter<T(!new), U>(xs: seq<T>, f: T -> Option<U>, keep: T -> bool)
    requires forall x :: keep(x) == f(x).Some?
    ensures |FilterMap(xs, f)| == |Filter(xs, keep)|
    ensures forall k :: 0 <= k < |FilterMap(xs, f)| ==> f(Filter(xs, keep)[k]) == Some(FilterMap(xs, f)[k])
  {
    if |xs| > 0 {
      var n := |xs| - 1;
      var init := xs[..n];
      FilterMapIsFilter(init, f, keep);
      assert xs == init + [xs[n]];
      FilterAppend(init, [xs[n]], keep);
      var prev := FilterMap(init, f);
      var kept := Filter(init, keep);
      assert Filter([xs[n]], keep) == if f(xs[n]).Some? then [xs[n]] else [];
      forall k | 0 <= k < |FilterMap(xs, f)|
        ensures f(Filter(xs, keep)[k]) == Some(FilterMap(xs, f)[k])
      {
        if k < |prev| {
          assert FilterMap(xs, f)[k] == prev[k];
          assert Filter(xs, keep)[k] == kept[k];
        }
      }
    }
  }

  lemma {:induction false} FilterAppend<T(!new)>(xs: seq<T>, ys: seq<T>, keep: T -> bool)
    ensures Filter(xs + ys, keep) == Filter(xs, keep) + Filter(ys, keep)
  {
    if |xs| > 0 {
      FilterAppend(xs[1..], ys, keep);
      assert (xs + ys)[1..] == xs[1..] + ys;
    } else {
      assert xs + ys == ys;
    }
  }

  /** Filtering a list without repeats gives a list without repeats. */
  lemma {:induction false} FilterNoDup<T(!new)>(xs: seq<T>, keep: T -> bool)
    requires NoDup(xs)
    ensures NoDup(Filter(xs, keep))
  {
    if |xs| > 0 {
      assert NoDup(xs[1..]) by {
        forall i, j | 0 <= i < j < |xs[1..]| ensures xs[1..][i] != xs[1..][j] {
          assert xs[1..][i] == xs[i + 1] && xs[1..][j] == xs[j + 1];
        }
      }
      FilterNoDup(xs[1..], keep);
      assert xs[0] !in xs[1..] by {
        forall j | 0 <= j < |xs[1..]| ensures xs[1..][j] != xs[0] {
          assert xs[1..][j] == xs[j + 1];
        }
      }
    }
  }

  function Not<T>(keep: T -> bool): T -> bool {
    x => !keep(x)
  }

  /** Filtering with a predicate and with its negation splits a list in two. */
  lemma {:induction false} FilterSplit<T(!new)>(xs: seq<T>, keep: T -> bool)
    ensures |Filter(xs, keep)| + |Filter(xs, Not(keep))| == |xs|
    ensures multiset(Filter(xs, keep)) + multiset(Filter(xs, Not(keep))) == multiset(xs)
  {
    if |xs| > 0 {
      FilterSplit(xs[1..], keep);
      assert xs == [xs[0]] + xs[1..];
    }
  }

  /** `list(reversed(xs))` */
  function Reverse<T>(xs: seq<T>): (r: seq<T>)
    ensures |r| == |xs|
    ensures forall i :: 0 <= i < |xs| ==> r[i] == xs[|xs| - 1 - i]
  {
    if |xs| == 0 then [] else Reverse(xs[1..]) + [xs[0]]
  }

  /** A non-empty sequence holds its head once more than its tail does. */
  lemma MultisetHead<T>(xs: seq<T>)
    requires |xs| > 0
    ensures multiset(xs) == multiset{xs[0]} + multiset(xs[1..])
  {
    assert xs == [xs[0]] + xs[1..];
  }

  lemma ReverseAt<T>(xs: seq<T>, k: nat)
    requires k < |xs|
    ensures Reverse(xs)[k] == xs[|xs| - 1 - k]
  {
  }

  /** `xs[:n]` for a non-negative `n`. */
  function Take<T>(xs: seq<T>, n: nat): (r: seq<T>)
    ensures |r| == if n < |xs| then n else |xs|
    ensures forall i :: 0 <= i < |r| ==> r[i] == xs[i]
  {
    if n < |xs| then xs[..n] else xs
  }

  /** `xs[n:]` for a non-negative `n`. */
  function Drop<T>(xs: seq<T>, n: nat): (r: seq<T>)
    ensures Take(xs, n) + r == xs
  {
    if n < |xs| then xs[n..] else []
  }

  // ---------------------------------------------------------------------
  // Stable sorting by a key

  /** `lt` is a strict total order on keys. */
  ghost predicate StrictTotalOrder<K(!new)>(lt: (K, K) -> bool) {
    && (forall a :: !lt(a, a))
    && (forall a, b, c :: lt(a, b) && lt(b, c) ==> lt(a, c))
    && (forall a, b :: a == b || lt(a, b) || lt(b, a))
  }

  predicate SortedBy<T, K>(xs: seq<T>, key: T -> K, lt: (K, K) -> bool) {
    forall i, j :: 0 <= i < j < |xs| ==> !lt(key(xs[j]), key(xs[i]))
  }

  /** The elements of `xs` whose key is `k`, in order. */
  function WithKey<T, K(==)>(xs: seq<T>, key: T -> K, k: K): seq<T> {
    if |xs| == 0 then []
    else (if key(xs[0]) == k then [xs[0]] else []) + WithKey(xs[1..], key, k)
  }

  /** Puts `x` in front of the first element whose key is not below its own. */
  function InsertBy<T, K>(x: T, r: seq<T>, key: T -> K, lt: (K, K) -> bool): (s: seq<T>)
    ensures multiset(s) == multiset(r) + multiset{x}
  {
    if |r| == 0 then [x]
    else if lt(key(r[0]), key(x)) then
      assert r == [r[0]] + r[1..];
      [r[0]] + InsertBy(x, r[1..], key, lt)
    else [x] + r
  }

  /** `sorted(xs, key=key)` with the key order `lt`: insertion sort, stable like Python's. */
  function SortBy<T, K>(xs: seq<T>, key: T -> K, lt: (K, K) -> bool): (r: seq<T>)
    ensures multiset(r) == multiset(xs)
    ensures |r| == |xs|
  {
    if |xs| == 0 then []
    else
      assert xs == [xs[0]] + xs[1..];
      var r := InsertBy(xs[0], SortBy(xs[1..], key, lt), key, lt);
      assert |r| == |multiset(r)|;
      r
  }

  lemma {:induction false} InsertBySorted<T, K(!new)>(x: T, r: seq<T>, key: T -> K, lt: (K, K) -> bool)
    requires StrictTotalOrder(lt)
    requires SortedBy(r, key, lt)
    ensures SortedBy(InsertBy(x, r, key, lt), key, lt)
  {
    if |r| > 0 {
      if lt(key(r[0]), key(x)) {
        InsertBySorted(x, r[1..], key, lt);
        InsertBySortedBehind(x, r, key, lt);
      } else {
        InsertBySortedFront(x, r, key, lt);
      }
    }
  }

  /** An element that goes behind the head keeps the list sorted if it keeps the tail sorted. */
  lemma InsertBySortedBehind<T, K(!new)>(x: T, r: seq<T>, key: T -> K, lt: (K, K) -> bool)
    requires StrictTotalOrder(lt)
    requires SortedBy(r, key, lt)
    requires |r| > 0 && lt(key(r[0]), key(x))
    requires SortedBy(InsertBy(x, r[1..], key, lt), key, lt)
    ensures SortedBy(InsertBy(x, r, key, lt), key, lt)
  {
    var t := InsertBy(x, r[1..], key, lt);
    var s := [r[0]] + t;
    assert InsertBy(x, r, key, lt) == s;
    forall i | 0 < i < |s| ensures !lt(key(s[i]), key(r[0])) {
      assert s[i] == t[i - 1];
      assert t[i - 1] in multiset(t);
      if t[i - 1] != x {
        assert t[i - 1] in multiset(r[1..]);
        var j :| 0 <= j < |r[1..]| && r[1..][j] == t[i - 1];
        assert r[j + 1] == t[i - 1];
      }
    }
  }

  /** An element no greater than the head goes in front and keeps the list sorted. */
  lemma InsertBySortedFront<T, K(!new)>(x: T, r: seq<T>, key: T -> K, lt: (K, K) -> bool)
    requires StrictTotalOrder(lt)
    requires SortedBy(r, key, lt)
    requires |r| > 0 && !lt(key(r[0]), key(x))
    ensures SortedBy(InsertBy(x, r, key, lt), key, lt)
  {
    var s := [x] + r;
    assert InsertBy(x, r, key, lt) == s;
    forall i, j | 0 <= i < j < |s| ensures !lt(key(s[j]), key(s[i])) {
      if i == 0 && j > 1 {
        assert s[j] == r[j - 1];
        assert !lt(key(r[j - 1]), key(r[0]));
      }
    }
  }

  lemma {:induction false} SortBySorted<T, K(!new)>(xs: seq<T>, key: T -> K, lt: (K, K) -> bool)
    requires StrictTotalOrder(lt)
    ensures SortedBy(SortBy(xs, key, lt), key, lt)
  {
    if |xs| > 0 {
      SortBySorted(xs[1..], key, lt);
      InsertBySorted(xs[0], SortBy(xs[1..], key, lt), key, lt);
    }
  }

  lemma {:induction false} InsertByWithKey<T, K>(x: T, r: seq<T>, key: T -> K, lt: (K, K) -> bool, k: K)
    requires forall a :: !lt(a, a)
    ensures WithKey(InsertBy(x, r, key, lt), key, k)
         == (if key(x) == k then [x] else []) + WithKey(r, key, k)
  {
    if |r| > 0 && lt(key(r[0]), key(x)) {
      InsertByWithKey(x, r[1..], key, lt, k);
      var t := InsertBy(x, r[1..], key, lt);
      var w := WithKey(r[1..], key, k);
      var head := if key(r[0]) == k then [r[0]] else [];
      var mine := if key(x) == k then [x] else [];
      assert InsertBy(x, r, key, lt) == [r[0]] + t;
      WithKeyCons(r[0], t, key, k);
      WithKeyCons(r[0], r[1..], key, k);
      assert [r[0]] + r[1..] == r;
      Irreflexive(lt, key(x));
      SwapEmpty(head, mine, w);
    } else if |r| == 0 {
      assert InsertBy(x, r, key, lt) == [x] + r;
      WithKeyCons(x, r, key, k);
    } else {
      assert InsertBy(x, r, key, lt) == [x] + r;
      WithKeyCons(x, r, key, k);
    }
  }

  /** An irreflexive order holds for no key and itself. */
  lemma Irreflexive<K>(lt: (K, K) -> bool, a: K)
    requires forall b :: !lt(b, b)
    ensures !lt(a, a)
  {
  }

  /** Two sequences of which one is empty can be concatenated in either order. */
  lemma SwapEmpty<T>(a: seq<T>, b: seq<T>, c: seq<T>)
    requires a == [] || b == []
    ensures a + (b + c) == b + (a + c)
  {
    if a == [] {
      assert a + (b + c) == b + c;
    } else {
      assert b + (a + c) == a + c;
    }
  }

  lemma WithKeyCons<T, K>(y: T, r: seq<T>, key: T -> K, k: K)
    ensures WithKey([y] + r, key, k) == (if key(y) == k then [y] else []) + WithKey(r, key, k)
  {
    assert ([y] + r)[1..] == r;
  }

  /** Stability: elements with equal keys keep their relative order. */
  lemma {:induction false} SortByStable<T, K>(xs: seq<T>, key: T -> K, lt: (K, K) -> bool, k: K)
    requires forall a :: !lt(a, a)
    ensures WithKey(SortBy(xs, key, lt), key, k) == WithKey(xs, key, k)
  {
    if |xs| > 0 {
      SortByStable(xs[1..], key, lt, k);
      InsertByWithKey(xs[0], SortBy(xs[1..], key, lt), key, lt, k);
    }
  }

  lemma {:induction false} WithKeyAll<T, K>(xs: seq<T>, key: T -> K, k: K)
    requires forall i :: 0 <= i < |xs| ==> key(xs[i]) == k
    ensures WithKey(xs, key, k) == xs
  {
    if |xs| > 0 {
      WithKeyAll(xs[1..], key, k);
      assert xs == [xs[0]] + xs[1..];
    }
  }

  /** When every key is the same, sorting leaves the list as it is. */
  lemma SortBySameKey<T, K>(xs: seq<T>, key: T -> K, lt: (K, K) -> bool, k: K)
    requires forall a :: !lt(a, a)
    requires forall i :: 0 <= i < |xs| ==> key(xs[i]) == k
    ensures SortBy(xs, key, lt) == xs
  {
    var s := SortBy(xs, key, lt);
    SortByStable(xs, key, lt, k);
    WithKeyAll(xs, key, k);
    assert forall x :: x in s ==> x in multiset(xs);
    forall i | 0 <= i < |s| ensures key(s[i]) == k {
      assert s[i] in multiset(s);
      assert s[i] in xs;
    }
    WithKeyAll(s, key, k);
  }

  // Key orders used by the scripts

  predicate IntLt(a: int, b: int) { a < b }

  lemma IntLtOrder()
    ensures StrictTotalOrder(IntLt)
  {
  }

  predicate IntGt(a: int, b: int) { a > b }

  /** `reverse=True` on integer keys: the descending order, still stable. */
  lemma IntGtOrder()
    ensures StrictTotalOrder(IntGt)
  {
  }

  // ---------------------------------------------------------------------
  // set(xs)

  function Elems<T(==)>(xs: seq<T>): set<T> {
    set x | x in xs
  }

  /** `set(xs)` has as many elements as `xs` has distinct ones, and no more than `xs`. */
  lemma {:induction false} ElemsCard<T(!new)>(xs: seq<T>)
    ensures |Elems(xs)| <= |xs|
    ensures NoDup(xs) ==> |Elems(xs)| == |xs|
  {
    if |xs| > 0 {
      var init := xs[..|xs| - 1];
      var x := xs[|xs| - 1];
      ElemsCard(init);
      assert xs == init + [x];
      assert Elems(xs) == Elems(init) + {x};
      if NoDup(xs) {
        assert NoDup(init);
        assert x !in Elems(init);
      }
    }
  }

  // ---------------------------------------------------------------------
  // A loop that builds one result per element and stops at the first failure

  /** `f` of every element, in order, or `None` when `f` fails on one of them. */
  function MapAll<T, U>(xs: seq<T>, f: T -> Option<U>): (r: Option<seq<U>>)
    ensures r.Some? ==> |r.value| == |xs|
  {
    if |xs| == 0 then Some([])
    else
      match MapAll(xs[..|xs| - 1], f)
      case None => None
      case Some(ys) =>
        match f(xs[|xs| - 1])
        case None => None
        case Some(y) => Some(ys + [y])
  }

  /** One more successful element extends the results by its own. */
  lemma MapAllStep<T, U>(xs: seq<T>, f: T -> Option<U>, i: nat)
    requires i < |xs| && MapAll(xs[..i], f).Some? && f(xs[i]).Some?
    ensures MapAll(xs[..i + 1], f) == Some(MapAll(xs[..i], f).value + [f(xs[i]).value])
  {
    assert xs[..i + 1][..i] == xs[..i];
  }

  /** One failing element fails the whole. */
  lemma {:induction false} MapAllFails<T, U>(xs: seq<T>, f: T -> Option<U>, i: nat)
    requires i < |xs| && f(xs[i]).None?
    ensures MapAll(xs, f).None?
    decreases |xs|
  {
    var n := |xs| - 1;
    if i < n {
      assert xs[..n][i] == xs[i];
      MapAllFails(xs[..n], f, i);
    }
  }

  /** The whole fails exactly when some element fails. */
  lemma {:induction false} MapAllNone<T, U>(xs: seq<T>, f: T -> Option<U>)
    ensures MapAll(xs, f).None? <==> exists i :: 0 <= i < |xs| && f(xs[i]).None?
    decreases |xs|
  {
    if |xs| > 0 {
      var n := |xs| - 1;
      var prefix := xs[..n];
      MapAllNone(prefix, f);
      if f(xs[n]).None? {
        MapAllFails(xs, f, n);
      } else if i :| 0 <= i < n && f(prefix[i]).None? {
        assert prefix[i] == xs[i];
        MapAllFails(xs, f, i);
      } else {
        assert forall i :: 0 <= i < n ==> prefix[i] == xs[i];
      }
    }
  }

  /** A success holds the result of every element, in order. */
  lemma {:induction false} MapAllSome<T, U>(xs: seq<T>, f: T -> Option<U>)
    requires MapAll(xs, f).Some?
    ensures forall i :: 0 <= i < |xs| ==> f(xs[i]) == Some(MapAll(xs, f).value[i])
    decreases |xs|
  {
    if |xs| > 0 {
      var n := |xs| - 1;
      var prefix := xs[..n];
      MapAllSome(prefix, f);
      forall i | 0 <= i < n
        ensures f(xs[i]) == Some(MapAll(xs, f).value[i])
      {
        assert prefix[i] == xs[i];
      }
    }
  }

  /** The results of `f` on every element, concatenated in order. */
  function FlatMap<T, U>(xs: seq<T>, f: T -> seq<U>): seq<U> {
    if |xs| == 0 then [] else FlatMap(xs[..|xs| - 1], f) + f(xs[|xs| - 1])
  }

  /** One more element appends its own results. */
  lemma FlatMapStep<T, U>(xs: seq<T>, f: T -> seq<U>, i: nat)
    requires i < |xs|
    ensures FlatMap(xs[..i + 1], f) == FlatMap(xs[..i], f) + f(xs[i])
  {
    assert xs[..i + 1][..i] == xs[..i];
  }

  /** The concatenation holds exactly the results of the elements. */
  lemma {:induction false} FlatMapMembers<T, U>(xs: seq<T>, f: T -> seq<U>, y: U)
    ensures y in FlatMap(xs, f) <==> exists i :: 0 <= i < |xs| && y in f(xs[i])
    decreases |xs|
  {
    if |xs| > 0 {
      var n := |xs| - 1;
      var prefix := xs[..n];
      FlatMapMembers(prefix, f, y);
      if i :| 0 <= i < n && y in f(prefix[i]) {
        assert prefix[i] == xs[i];
      }
      if i :| 0 <= i < |xs| && y in f(xs[i]) {
        if i < n {
          assert prefix[i] == xs[i];
        }
      }
    }
  }

  /** The results of `f` on every element, concatenated in order, or `None` when `f` fails on one of them. */
  function FlatMapAll<T, U>(xs: seq<T>, f: T -> Option<seq<U>>): Option<seq<U>> {
    if |xs| == 0 then Some([])
    else
      match FlatMapAll(xs[..|xs| - 1], f)
      case None => None
      case Some(ys) =>
        match f(xs[|xs| - 1])
        case None => None
        case Some(more) => Some(ys + more)
  }

  /** One more successful element appends its own results. */
  lemma FlatMapAllStep<T, U>(xs: seq<T>, f: T -> Option<seq<U>>, i: nat)
    requires i < |xs| && FlatMapAll(xs[..i], f).Some? && f(xs[i]).Some?
    ensures FlatMapAll(xs[..i + 1], f) == Some(FlatMapAll(xs[..i], f).value + f(xs[i]).value)
  {
    assert xs[..i + 1][..i] == xs[..i];
  }

  /** One failing element fails the whole. */
  lemma {:induction false} FlatMapAllFails<T, U>(xs: seq<T>, f: T -> Option<seq<U>>, i: nat)
    requires i < |xs| && f(xs[i]).None?
    ensures FlatMapAll(xs, f).None?
    decreases |xs|
  {
    var n := |xs| - 1;
    if i < n {
      assert xs[..n][i] == xs[i];
      FlatMapAllFails(xs[..n], f, i);
    }
  }

  /** The whole fails exactly when some element fails. */
  lemma {:induction false} FlatMapAllNone<T, U>(xs: seq<T>, f: T -> Option<seq<U>>)
    ensures FlatMapAll(xs, f).None? <==> exists i :: 0 <= i < |xs| && f(xs[i]).None?
    decreases |xs|
  {
    if |xs| > 0 {
      var n := |xs| - 1;
      var prefix := xs[..n];
      FlatMapAllNone(prefix, f);
      if f(xs[n]).None? {
        FlatMapAllFails(xs, f, n);
      } else if i :| 0 <= i < n && f(prefix[i]).None? {
        assert prefix[i] == xs[i];
        FlatMapAllFails(xs, f, i);
      } else {
        assert forall i :: 0 <= i < n ==> prefix[i] == xs[i];
      }
    }
  }

  /** A success holds exactly the results of the elements. */
  lemma {:induction false} FlatMapAllMembers<T, U>(xs: seq<T>, f: T -> Option<seq<U>>, y: U)
    requires FlatMapAll(xs, f).Some?
    ensures y in FlatMapAll(xs, f).value <==>
      exists i :: 0 <= i < |xs| && f(xs[i]).Some? && y in f(xs[i]).value
    decreases |xs|
  {
    if |xs| > 0 {
      var n := |xs| - 1;
      var prefix := xs[..n];
      FlatMapAllMembers(prefix, f, y);
      var ys := FlatMapAll(prefix, f).value;
      assert FlatMapAll(xs, f).value == ys + f(xs[n]).value;
      if i :| 0 <= i < n && f(prefix[i]).Some? && y in f(prefix[i]).value {
        assert prefix[i] == xs[i];
      }
      if i :| 0 <= i < |xs| && f(xs[i]).Some? && y in f(xs[i]).value {
        if i < n {
          assert prefix[i] == xs[i];
        }
      }
    }
  }
}

=== FILE: snapshots.dfy ===
/**
 * `HistoricalSnapshot` and `detect_changes_between_snapshots`, which
 * generate_changelog.py and backfill_using_mcp.py define identically: the
 * saved record of one run reduced to sets of ids, and the three set
 * differences between two runs. Run dates are opaque ordered keys.
 */
module Snapshots {
  import opened Wrappers
  import opened Seqs
  import opened Json
  import opened Inventory
  import opened Runtimes

  datatype Snapshot = Snapshot(
    runDate: int,
    runId: int,
    outdated: set<string>,
    tracked: set<string>,
    totalChecked: nat,
    outdatedCount: nat)

  /** The snapshot built from the record a run saved (the loops of lines 168-180 and 76-88). */
  function SnapshotOf(runDate: int, runId: int, r: Record): (s: Snapshot)
    ensures forall x :: x in s.outdated <==> x in OutdatedIds(r.outdatedPackages)
    ensures forall x :: x in s.tracked <==> x in r.allTrackedPackages
    ensures s.totalChecked == r.totalChecked && s.outdatedCount == r.outdatedCount
  {
    Snapshot(runDate, runId, Elems(OutdatedIds(r.outdatedPackages)), Elems(r.allTrackedPackages),
             r.totalChecked, r.outdatedCount)
  }

  /**
   * The snapshot of a record the runtime check saved is consistent: its
   * outdated ids are tracked, and both counts are the sizes of the sets.
   */
  lemma SnapshotOfReport(fetch: string -> Option<string>, yaml: string -> Option<Json>,
                         info: string -> Option<Json>, remote: string -> seq<string>, runDate: int, runId: int)
    requires Report(fetch, yaml, info, remote).Some?
    ensures var s := SnapshotOf(runDate, runId, Report(fetch, yaml, info, remote).value);
      && s.outdated <= s.tracked
      && s.outdatedCount == |s.outdated|
      && s.totalChecked == |s.tracked|
  {
    var r := Report(fetch, yaml, info, remote).value;
    ReportShape(fetch, yaml, info, remote);
    FirstSeenShape(EntryIds(Occurrences(fetch, yaml)));
    ElemsCard(OutdatedIds(r.outdatedPackages));
    ElemsCard(r.allTrackedPackages);
  }

  /** The sort key of a snapshot. */
  function RunDate(s: Snapshot): int {
    s.runDate
  }

  /** Stable `sort(key=lambda s: s.run_date)`. */
  function OldestFirst(snaps: seq<Snapshot>): (r: seq<Snapshot>)
    ensures multiset(r) == multiset(snaps)
    ensures SortedBy(r, RunDate, IntLt)
  {
    IntLtOrder();
    SortBySorted(snaps, RunDate, IntLt);
    SortBy(snaps, RunDate, IntLt)
  }

  datatype Changes = Changes(updated: set<string>, added: set<string>, removed: set<string>)

  /** `detect_changes_between_snapshots` */
  function DetectChanges(older: Snapshot, newer: Snapshot): Changes {
    Changes(older.outdated - newer.outdated, newer.tracked - older.tracked, older.tracked - newer.tracked)
  }

  /**
   * The updated apps are outdated ones that are no longer outdated, and the
   * newer tracked set is the older one without the removed apps and with the
   * added ones, and back; no app is both added and removed.
   */
  lemma ChangesShape(older: Snapshot, newer: Snapshot)
    ensures var c := DetectChanges(older, newer);
      && c.updated <= older.outdated && c.updated * newer.outdated == {}
      && older.outdated <= c.updated + newer.outdated
      && c.added * c.removed == {}
      && c.added * older.tracked == {} && c.removed <= older.tracked
      && newer.tracked == (older.tracked - c.removed) + c.added
      && older.tracked == (newer.tracked - c.added) + c.removed
  {
  }

  predicate HasChanges(c: Changes) {
    c.updated != {} || c.added != {} || c.removed != {}
  }

  /** Nothing changed exactly when no outdated app was fixed and tracking is the same. */
  lemma NoChangesIff(older: Snapshot, newer: Snapshot)
    ensures !HasChanges(DetectChanges(older, newer)) <==>
      older.outdated <= newer.outdated && older.tracked == newer.tracked
  {
    var c := DetectChanges(older, newer);
    if older.outdated <= newer.outdated && older.tracked == newer.tracked {
      assert c.updated == {} && c.added == {} && c.removed == {};
    }
    if !HasChanges(c) {
      assert forall x :: x in older.tracked ==> x in newer.tracked by {
        forall x | x in older.tracked ensures x in newer.tracked {
          assert x !in c.removed;
        }
      }
      assert forall x :: x in newer.tracked ==> x in older.tracked by {
        forall x | x in newer.tracked ensures x in older.tracked {
          assert x !in c.added;
        }
      }
      assert forall x :: x in older.outdated ==> x in newer.outdated by {
        forall x | x in older.outdated ensures x in newer.outdated {
          assert x !in c.updated;
        }
      }
    }
  }

  /** The compliance rate as the exact ratio `up_to_date / total`, or 0 for an empty total. */
  datatype Rate = ZeroRate | Ratio(upToDate: int, total: int)

  /** `(up / total * 100) if total > 0 else 0`, before formatting. */
  function GuardedRate(upToDate: int, total: int): (r: Rate)
    ensures r.ZeroRate? <==> total <= 0
    ensures r.Ratio? ==> r.total == total && r.upToDate == upToDate
  {
    if total > 0 then Ratio(upToDate, total) else ZeroRate
  }
}

=== FILE: text.dfy ===
/**
 * The Python `str` operations the scripts rely on, over `seq<char>`:
 * `strip`, `startswith`, `in` (substring), `split`, `join`, `replace`,
 * `lower`, `isdigit`, `int()`/`str()` on integers, and the code-point
 * ordering that `<`, `max` and `sorted` use on strings.
 */
module Text {
  import opened Wrappers

  // ---------------------------------------------------------------------
  // Whitespace and strip()

  /** `c.isspace()`: the characters `str.strip()` removes and the regex class `\s` matches. */
  predicate IsSpace(c: char) {
    || c == ' ' || ('\t' <= c <= '\r') || ('\U{1c}' <= c <= '\U{1f}')
    || c == '\U{85}' || c == '\U{a0}' || c == '\U{1680}' || ('\U{2000}' <= c <= '\U{200a}')
    || c == '\U{2028}' || c == '\U{2029}' || c == '\U{202f}' || c == '\U{205f}' || c == '\U{3000}'
  }

  /** `p` occurs in `s` starting at index `i`. */
  predicate OccursAt(s: string, i: int, p: string) {
    0 <= i <= |s| - |p| && s[i..i + |p|] == p
  }

  predicate NoSpace(s: string) {
    forall i :: 0 <= i < |s| ==> !IsSpace(s[i])
  }

  /** `s.lstrip()` */
  function LStrip(s: string): string
    decreases |s|
  {
    if |s| > 0 && IsSpace(s[0]) then LStrip(s[1..]) else s
  }

  /** `s.rstrip()` */
  function RStrip(s: string): string
    decreases |s|
  {
    if |s| > 0 && IsSpace(s[|s| - 1]) then RStrip(s[..|s| - 1]) else s
  }

  /** `s.strip()` */
  function Strip(s: string): string {
    RStrip(LStrip(s))
  }

  lemma {:induction false} LStripShape(s: string)
    ensures var r := LStrip(s); |r| <= |s| && r == s[|s| - |r|..]
    ensures var r := LStrip(s); r == [] || !IsSpace(r[0])
    ensures forall i :: 0 <= i < |s| - |LStrip(s)| ==> IsSpace(s[i])
    decreases |s|
  {
    if |s| > 0 && IsSpace(s[0]) {
      LStripShape(s[1..]);
    }
  }

  lemma {:induction false} RStripShape(s: string)
    ensures var r := RStrip(s); |r| <= |s| && r == s[..|r|]
    ensures var r := RStrip(s); r == [] || !IsSpace(r[|r| - 1])
    ensures forall i :: |RStrip(s)| <= i < |s| ==> IsSpace(s[i])
    decreases |s|
  {
    if |s| > 0 && IsSpace(s[|s| - 1]) {
      RStripShape(s[..|s| - 1]);
    }
  }

  /** `s.strip()` is the slice of `s` that neither starts nor ends with whitespace. */
  lemma StripShape(s: string)
    ensures var r := Strip(s); r == [] || (!IsSpace(r[0]) && !IsSpace(r[|r| - 1]))
    ensures exists lo :: OccursAt(s, lo, Strip(s))
    ensures Strip(s) == [] ==> forall i :: 0 <= i < |s| ==> IsSpace(s[i])
  {
    var l := LStrip(s);
    var r := RStrip(l);
    LStripShape(s);
    RStripShape(l);
    assert r == s[|s| - |l|..][..|r|] == s[|s| - |l|..|s| - |l| + |r|];
    assert OccursAt(s, |s| - |l|, r);
  }

  lemma StripNoSpace(s: string)
    requires NoSpace(s)
    ensures Strip(s) == s
  {
    LStripShape(s);
    RStripShape(LStrip(s));
  }

  // ---------------------------------------------------------------------
  // startswith and `in`

  /** `s.startswith(p)` */
  predicate StartsWith(s: string, p: string) {
    |p| <= |s| && s[..|p|] == p
  }

  /** `p in s`: some slice of `s` equals `p` (the empty string is in every string). */
  predicate Contains(s: string, p: string)
    decreases |s|
  {
    StartsWith(s, p) || (|s| > 0 && Contains(s[1..], p))
  }

  lemma {:induction false} ContainsIff(s: string, p: string)
    ensures Contains(s, p) <==> exists i :: OccursAt(s, i, p)
    decreases |s|
  {
    if StartsWith(s, p) {
      assert OccursAt(s, 0, p);
    }
    if |s| > 0 {
      ContainsIff(s[1..], p);
      if Contains(s[1..], p) {
        var i :| OccursAt(s[1..], i, p);
        assert s[1..][i..i + |p|] == s[i + 1..i + 1 + |p|];
        assert OccursAt(s, i + 1, p);
      }
      if i :| OccursAt(s, i, p) && i > 0 {
        assert s[1..][i - 1..i - 1 + |p|] == s[i..i + |p|];
        assert OccursAt(s[1..], i - 1, p);
      }
    }
  }

  lemma ContainsSlice(s: string, i: int, p: string)
    requires OccursAt(s, i, p)
    ensures Contains(s, p)
  {
    ContainsIff(s, p);
  }

  /** A string that is contained in `t` is contained in every string containing `t`. */
  lemma ContainsWithin(a: string, t: string, b: string, p: string)
    requires Contains(t, p)
    ensures Contains(a + t + b, p)
  {
    ContainsIff(t, p);
    var i :| OccursAt(t, i, p);
    assert (a + t + b)[|a| + i..|a| + i + |p|] == t[i..i + |p|];
    ContainsSlice(a + t + b, |a| + i, p);
  }

  lemma OccursSplit(s: string, i: int, a: string, b: string)
    ensures OccursAt(s, i, a + b) <==> OccursAt(s, i, a) && OccursAt(s, i + |a|, b)
  {
    if OccursAt(s, i, a) && OccursAt(s, i + |a|, b) {
      assert s[i..i + |a + b|] == s[i..i + |a|] + s[i + |a|..i + |a| + |b|];
    }
    if OccursAt(s, i, a + b) {
      assert s[i..i + |a|] == s[i..i + |a + b|][..|a|];
      assert s[i + |a|..i + |a| + |b|] == s[i..i + |a + b|][|a|..];
    }
  }

  lemma ContainsSelf(s: string)
    ensures Contains(s, s)
  {
  }

  lemma ContainsSuffix(a: string, s: string)
    ensures Contains(a + s, s)
  {
    ContainsWithin(a, s, "", s);
    assert a + s + "" == a + s;
  }

  lemma ContainsPrefix(s: string, b: string)
    ensures Contains(s + b, s)
  {
    ContainsWithin("", s, b, s);
    assert "" + s + b == s + b;
  }

  // ---------------------------------------------------------------------
  // split and join

  /** `s.split(sep)` for a one-character separator: never empty, no part holds `sep`. */
  function Split(s: string, sep: char): (parts: seq<string>)
    ensures |parts| >= 1
    decreases |s|
  {
    if |s| == 0 then [""]
    else
      var rest := Split(s[1..], sep);
      if s[0] == sep then [""] + rest
      else [[s[0]] + rest[0]] + rest[1..]
  }

  /** No part of a split holds the separator. */
  lemma {:induction false} SplitPartsNoSep(s: string, sep: char)
    ensures forall k :: 0 <= k < |Split(s, sep)| ==> sep !in Split(s, sep)[k]
    decreases |s|
  {
    if |s| > 0 {
      SplitPartsNoSep(s[1..], sep);
      var rest := Split(s[1..], sep);
      if s[0] != sep {
        assert sep !in rest[0];
        assert sep !in [s[0]] + rest[0];
      }
    }
  }

  /** `sep.join(parts)` */
  function Join(parts: seq<string>, sep: char): string
  {
    if |parts| == 0 then ""
    else if |parts| == 1 then parts[0]
    else parts[0] + [sep] + Join(parts[1..], sep)
  }

  lemma {:induction false} JoinSplit(s: string, sep: char)
    ensures Join(Split(s, sep), sep) == s
    decreases |s|
  {
    if |s| > 0 {
      JoinSplit(s[1..], sep);
      var rest := Split(s[1..], sep);
      if s[0] != sep {
        var parts := Split(s, sep);
        assert parts[1..] == rest[1..];
        if |rest| == 1 {
          assert s == [s[0]] + s[1..];
        } else {
          assert Join(rest, sep) == rest[0] + [sep] + Join(rest[1..], sep);
          assert s == [s[0]] + s[1..];
        }
      } else {
        assert s == [sep] + s[1..];
      }
    }
  }

  /** Splitting a string with no separator yields the string itself. */
  lemma {:induction false} SplitNoSep(s: string, sep: char)
    requires sep !in s
    ensures Split(s, sep) == [s]
    decreases |s|
  {
    if |s| > 0 {
      SplitNoSep(s[1..], sep);
      assert [s[0]] + s[1..] == s;
    }
  }

  /** Splitting `a + [sep] + b` where `a` holds no separator peels off `a`. */
  lemma {:induction false} SplitCons(a: string, sep: char, b: string)
    requires sep !in a
    ensures Split(a + [sep] + b, sep) == [a] + Split(b, sep)
    decreases |a|
  {
    if |a| == 0 {
      assert a + [sep] + b == [sep] + b;
      assert ([sep] + b)[1..] == b;
    } else {
      SplitCons(a[1..], sep, b);
      assert (a + [sep] + b)[1..] == a[1..] + [sep] + b;
      assert [a[0]] + a[1..] == a;
    }
  }

  /** `s.split(sep)[0]`: the text before the first separator, or all of `s`. */
  function BeforeFirst(s: string, sep: char): string {
    Split(s, sep)[0]
  }

  /** `s.split(sep)[-1]`: the text after the last separator, or all of `s`. */
  function AfterLast(s: string, sep: char): string {
    var parts := Split(s, sep);
    parts[|parts| - 1]
  }

  lemma BeforeFirstIsPrefix(s: string, sep: char)
    ensures sep !in BeforeFirst(s, sep)
    ensures StartsWith(s, BeforeFirst(s, sep))
    ensures sep in s <==> |BeforeFirst(s, sep)| < |s|
    ensures sep in s ==> s[|BeforeFirst(s, sep)|] == sep
  {
    BeforeFirstNoSep(s, sep);
    BeforeFirstStarts(s, sep);
    BeforeFirstStops(s, sep);
  }

  lemma {:induction false} BeforeFirstNoSep(s: string, sep: char)
    ensures sep !in BeforeFirst(s, sep)
    decreases |s|
  {
    if |s| > 0 {
      BeforeFirstNoSep(s[1..], sep);
      BeforeFirstStep(s, sep);
    }
  }

  lemma {:induction false} BeforeFirstStarts(s: string, sep: char)
    ensures StartsWith(s, BeforeFirst(s, sep))
    decreases |s|
  {
    if |s| > 0 {
      BeforeFirstStarts(s[1..], sep);
      BeforeFirstStep(s, sep);
      if s[0] != sep {
        var b := BeforeFirst(s[1..], sep);
        assert s[..|b| + 1] == [s[0]] + s[1..][..|b|];
      }
    }
  }

  lemma {:induction false} BeforeFirstStops(s: string, sep: char)
    ensures |BeforeFirst(s, sep)| <= |s|
    ensures sep in s <==> |BeforeFirst(s, sep)| < |s|
    ensures sep in s ==> s[|BeforeFirst(s, sep)|] == sep
    decreases |s|
  {
    if |s| > 0 {
      BeforeFirstStops(s[1..], sep);
      BeforeFirstStep(s, sep);
      if s[0] != sep {
        var b := BeforeFirst(s[1..], sep);
        assert sep in s <==> sep in s[1..] by {
          assert s == [s[0]] + s[1..];
        }
        if sep in s {
          assert s[|b| + 1] == s[1..][|b|];
        }
      }
    }
  }

  /** The first character either is the separator or starts the first part. */
  lemma BeforeFirstStep(s: string, sep: char)
    requires |s| > 0
    ensures BeforeFirst(s, sep) == if s[0] == sep then "" else [s[0]] + BeforeFirst(s[1..], sep)
  {
  }

  lemma AfterLastIsSuffix(s: string, sep: char)
    ensures sep !in AfterLast(s, sep)
    ensures |AfterLast(s, sep)| <= |s| && AfterLast(s, sep) == s[|s| - |AfterLast(s, sep)|..]
    ensures sep !in s ==> AfterLast(s, sep) == s
  {
    var parts := Split(s, sep);
    SplitPartsNoSep(s, sep);
    JoinSplit(s, sep);
    JoinLastIsSuffix(parts, sep);
    if sep !in s {
      SplitNoSep(s, sep);
    }
  }

  lemma {:induction false} JoinLastIsSuffix(parts: seq<string>, sep: char)
    requires |parts| >= 1
    ensures var j := Join(parts, sep); var l := parts[|parts| - 1];
      |l| <= |j| && j[|j| - |l|..] == l
  {
    if |parts| > 1 {
      JoinLastIsSuffix(parts[1..], sep);
      var j' := Join(parts[1..], sep);
      var l := parts[|parts| - 1];
      assert Join(parts, sep) == (parts[0] + [sep]) + j';
      assert parts[1..][|parts[1..]| - 1] == l;
    }
  }

  // ---------------------------------------------------------------------
  // replace

  /**
   * `s.replace(pat, rep)`: every occurrence of `pat`, scanning left to right
   * without overlap, becomes `rep`; an empty `pat` puts `rep` around every
   * character.
   */
  function ReplaceAll(s: string, pat: string, rep: string): string
    decreases |s|
  {
    if |pat| == 0 then
      if |s| == 0 then rep else rep + [s[0]] + ReplaceAll(s[1..], pat, rep)
    else if |s| < |pat| then s
    else if s[..|pat|] == pat then rep + ReplaceAll(s[|pat|..], pat, rep)
    else [s[0]] + ReplaceAll(s[1..], pat, rep)
  }

  /** A string without an occurrence of a non-empty pattern is left as it is. */
  lemma {:induction false} ReplaceAbsent(s: string, pat: string, rep: string)
    requires |pat| > 0 && !Contains(s, pat)
    ensures ReplaceAll(s, pat, rep) == s
    decreases |s|
  {
    if |s| >= |pat| {
      ReplaceAbsent(s[1..], pat, rep);
      assert [s[0]] + s[1..] == s;
    }
  }

  /** A pattern that occurs only at the very end of `p + v` is replaced there and nowhere else. */
  lemma {:induction false} ReplaceAtEnd(p: string, v: string, l: string)
    requires |v| > 0
    requires forall i :: 0 <= i < |p| ==> !OccursAt(p + v, i, v)
    ensures ReplaceAll(p + v, v, l) == p + l
    decreases |p|
  {
    var s := p + v;
    if |p| == 0 {
      assert s == v && s[|v|..] == "";
    } else {
      assert !OccursAt(s, 0, v);
      var t := p[1..] + v;
      assert s[1..] == t;
      forall i | 0 <= i < |p[1..]| ensures !OccursAt(t, i, v) {
        assert t[i..i + |v|] == s[i + 1..i + 1 + |v|];
        assert !OccursAt(s, i + 1, v);
      }
      ReplaceAtEnd(p[1..], v, l);
      assert [p[0]] + (p[1..] + l) == p + l;
    }
  }

  /** Replacing a single character removes every occurrence of it. */
  lemma {:induction false} ReplaceCharRemoves(s: string, c: char, rep: string)
    requires c !in rep
    ensures c !in ReplaceAll(s, [c], rep)
    decreases |s|
  {
    if |s| > 0 {
      ReplaceCharRemoves(s[1..], c, rep);
    }
  }

  // ---------------------------------------------------------------------
  // lower()

  function LowerChar(c: char): char {
    if 'A' <= c <= 'Z' then (c as int + 32) as char else c
  }

  /** `s.lower()` on ASCII letters. */
  function Lower(s: string): (r: string)
    ensures |r| == |s|
    ensures forall i :: 0 <= i < |s| ==> r[i] == LowerChar(s[i])
  {
    if |s| == 0 then "" else [LowerChar(s[0])] + Lower(s[1..])
  }

  // ---------------------------------------------------------------------
  // Digits and integers

  predicate IsDigit(c: char) {
    '0' <= c <= '9'
  }

  predicate AllDigits(s: string) {
    forall i :: 0 <= i < |s| ==> IsDigit(s[i])
  }

  /** `s.isdigit()` on ASCII digits: non-empty and nothing but digits. */
  predicate IsDigits(s: string) {
    |s| > 0 && AllDigits(s)
  }

  function DigitVal(c: char): nat
    requires IsDigit(c)
  {
    c as int - '0' as int
  }

  /** The decimal value of a string of digits. */
  function DigitsValue(s: string): nat
    requires AllDigits(s)
    decreases |s|
  {
    if |s| == 0 then 0 else DigitsValue(s[..|s| - 1]) * 10 + DigitVal(s[|s| - 1])
  }

  function DigitChar(d: nat): (c: char)
    requires d < 10
    ensures IsDigit(c) && DigitVal(c) == d
  {
    ('0' as int + d) as char
  }

  /** `str(n)` for a natural number: its decimal digits. */
  function NatToString(n: nat): (s: string)
    ensures IsDigits(s) && DigitsValue(s) == n
    decreases n
  {
    if n < 10 then [DigitChar(n)]
    else
      var prefix := NatToString(n / 10);
      var s := prefix + [DigitChar(n % 10)];
      assert s[..|s| - 1] == prefix;
      s
  }

  /** `str(i)` for an integer. */
  function IntToString(i: int): string {
    if i < 0 then "-" + NatToString(-i) else NatToString(i)
  }

  /** `int(s)` on an optionally signed string of ASCII digits surrounded by whitespace; `None` stands for the ValueError. */
  function ParseInt(s: string): Option<int> {
    var t := Strip(s);
    if IsDigits(t) then Some(DigitsValue(t))
    else if |t| > 1 && t[0] == '-' && IsDigits(t[1..]) then Some(0 - DigitsValue(t[1..]) as int)
    else if |t| > 1 && t[0] == '+' && IsDigits(t[1..]) then Some(DigitsValue(t[1..]))
    else None
  }

  lemma ParseIntToString(i: int)
    ensures ParseInt(IntToString(i)) == Some(i)
  {
    var s := IntToString(i);
    assert NoSpace(s) by {
      if i < 0 {
        assert s == "-" + NatToString(-i);
      }
    }
    StripNoSpace(s);
    if i < 0 {
      assert s[1..] == NatToString(-i);
      assert !IsDigits(s) by { assert !IsDigit(s[0]); }
    }
  }

  // ---------------------------------------------------------------------
  // Ordering of strings: Python compares code point by code point and a
  // proper prefix sorts first.

  predicate StrLt(a: string, b: string)
    decreases |a|
  {
    if |a| == 0 then |b| > 0
    else if |b| == 0 then false
    else if a[0] != b[0] then a[0] < b[0]
    else StrLt(a[1..], b[1..])
  }

  predicate StrLe(a: string, b: string) {
    a == b || StrLt(a, b)
  }

  lemma {:induction false} StrLtIrreflexive(a: string)
    ensures !StrLt(a, a)
    decreases |a|
  {
    if |a| > 0 {
      StrLtIrreflexive(a[1..]);
    }
  }

  lemma {:induction false} StrLtTransitive(a: string, b: string, c: string)
    requires StrLt(a, b) && StrLt(b, c)
    ensures StrLt(a, c)
    decreases |a|
  {
    if |a| > 0 && a[0] == b[0] && b[0] == c[0] {
      StrLtTransitive(a[1..], b[1..], c[1..]);
    }
  }

  lemma {:induction false} StrLtTotal(a: string, b: string)
    ensures a == b || StrLt(a, b) || StrLt(b, a)
    decreases |a|
  {
    if |a| > 0 && |b| > 0 && a[0] == b[0] {
      StrLtTotal(a[1..], b[1..]);
      if a[1..] == b[1..] {
        assert a == [a[0]] + a[1..] && b == [b[0]] + b[1..];
      }
    }
  }

  lemma StrLtAsymmetric(a: string, b: string)
    requires StrLt(a, b)
    ensures !StrLt(b, a)
  {
    if StrLt(b, a) {
      StrLtTransitive(a, b, a);
      StrLtIrreflexive(a);
    }
  }

  /** `<=` on strings is a total order. */
  lemma StrLeTotalOrder()
    ensures forall a, b :: StrLe(a, b) || StrLe(b, a)
    ensures forall a, b, c :: StrLe(a, b) && StrLe(b, c) ==> StrLe(a, c)
    ensures forall a, b :: StrLe(a, b) && StrLe(b, a) ==> a == b
  {
    forall a, b ensures StrLe(a, b) || StrLe(b, a) {
      StrLtTotal(a, b);
    }
    forall a, b, c | StrLe(a, b) && StrLe(b, c) ensures StrLe(a, c) {
      if a != b && b != c {
        StrLtTransitive(a, b, c);
      }
    }
    forall a, b | StrLe(a, b) && StrLe(b, a) ensures a == b {
      if a != b {
        StrLtAsymmetric(a, b);
      }
    }
  }

  /** `max(xs)` on a non-empty list of strings. */
  function MaxString(xs: seq<string>): (m: string)
    requires |xs| > 0
    ensures m in xs
    ensures forall x :: x in xs ==> StrLe(x, m)
  {
    if |xs| == 1 then xs[0]
    else
      var rest := MaxString(xs[1..]);
      StrLeTotalOrder();
      assert forall x :: x in xs ==> x == xs[0] || x in xs[1..];
      if StrLt(xs[0], rest) then rest else xs[0]
  }

  predicate StrictlySorted(s: seq<string>) {
    forall i, j :: 0 <= i < j < |s| ==> StrLt(s[i], s[j])
  }

  /** `m` is an element of `s` no greater than any other. */
  predicate IsLeast(m: string, s: set<string>) {
    m in s && forall y :: y in s ==> StrLe(m, y)
  }

  lemma {:induction false} MinExists(s: set<string>)
    requires s != {}
    ensures exists m :: IsLeast(m, s)
    decreases |s|
  {
    var x :| x in s;
    if s == {x} {
      assert IsLeast(x, s);
    } else {
      MinExists(s - {x});
      var m :| IsLeast(m, s - {x});
      if StrLt(x, m) {
        forall y | y in s ensures StrLe(x, y) {
          if y != x && y != m {
            assert y in s - {x};
            StrLtTransitive(x, m, y);
          }
        }
        assert IsLeast(x, s);
      } else {
        StrLtTotal(x, m);
        forall y | y in s ensures StrLe(m, y) {
          if y == x {
            assert StrLe(m, x);
          } else {
            assert y in s - {x};
          }
        }
        assert IsLeast(m, s);
      }
    }
  }

  /** `sorted(s)` for a set of strings: its elements in ascending order (see `SortedSeqShape`). */
  function SortedSeq(s: set<string>): (r: seq<string>)
    ensures |r| == |s|
    decreases |s|
  {
    if s == {} then []
    else
      MinExists(s);
      StrLeTotalOrder();
      var m :| IsLeast(m, s);
      [m] + SortedSeq(s - {m})
  }

  /** `sorted(s)` is strictly increasing and holds exactly the elements of `s`. */
  lemma {:induction false} SortedSeqShape(s: set<string>)
    ensures StrictlySorted(SortedSeq(s))
    ensures forall x :: x in SortedSeq(s) <==> x in s
    decreases |s|
  {
    if s != {} {
      var r := SortedSeq(s);
      var m := r[0];
      var rest := SortedSeq(s - {m});
      assert m in s && (forall y :: y in s ==> StrLe(m, y)) && r == [m] + rest;
      SortedSeqShape(s - {m});
      forall i, j | 0 <= i < j < |r| ensures StrLt(r[i], r[j]) {
        if i > 0 {
          assert r[i] == rest[i - 1] && r[j] == rest[j - 1];
        } else {
          assert r[j] == rest[j - 1];
          assert r[j] in s - {m};
        }
      }
      forall x ensures x in r <==> x in s {
        assert x in r <==> x == m || x in rest;
      }
    }
  }
}

=== FILE: wrappers.dfy ===
/** Optional values, as the scripts use `None` for a missing value or a failure. */
module Wrappers {

  datatype Option<+T> = None | Some(value: T) {
    function GetOr(default: T): T {
      match this
      case Some(v) => v
      case None => default
    }
  }
}
